=== FILE: README.md ===
# Storefront search and catalogue scripts, modelled in Dafny

This project models the one piece of real logic in a small web shop: the
client-side product search of the storefront page (`Shop.jsx`). The query is
normalised. Each product gets a relevance score built from a substring bonus,
per-token bonuses and a fuzzy bonus based on Levenshtein distance. Products
that score are ranked by a stable sort, and a substring search is the
fallback. Products whose primary image follows a numbered pattern get their
gallery expanded, and every gallery is padded to four entries.

The project also models the pure parts of the four offline Node scripts that
reshape the catalogue file `products.json`:

- `scripts/import-products.js`: row normalisation, slug derivation, tag
  splitting, local image lookup by base name, and the copy-file naming with
  `uniqueDest`;
- `scripts/import-excel-sheets.js`: sheet classification and per-row
  products numbered across the whole workbook;
- `scripts/attach-images-to-products.js`: prefix matching of image files and
  the gallery update rule;
- `scripts/cleanup-product-images.js`: the truncate-to-first-image pass.

File-system listings, spreadsheet rows, HTTP probes and downloads are passed
in as plain values or as oracle functions (`urlExists`, `fileExists`,
`fetched`), so every operation is a deterministic function.

Modules, one per file:

| module | contents |
|---|---|
| `Wrappers` | `Option` and `Result` |
| `Seqs` | `Array.prototype.filter`, counting, `Array.from(new Set(…))`, append-if-new, numbering across groups |
| `Text` | JavaScript string primitives: ASCII case, `\s` whitespace, `trim`, `includes`, `split`, `String(n)` |
| `Paths` | `path.extname`, `path.basename` of a path, and `path.basename(name, ext)` on a slash-free name |
| `Cells` | spreadsheet and JSON values: truthiness, `String(v)`, `Number(v)` restricted to integers |
| `Catalog` | the `Product` record of `products.json` |
| `Sorting` | a stable insertion sort over a total preorder, the model of `Array.prototype.sort` |
| `Slugs` | the `[^a-z0-9]+` → `-` slug derivation |
| `Levenshtein` | the recursive edit distance and the row-by-row dynamic-programming method |
| `Search` | query normalisation, score, category filter, ranking and fallback |
| `Gallery` | the numbered-image pattern, sibling probing and padding |
| `ImportProducts`, `ImportSheets`, `AttachImages`, `CleanupImages` | the four scripts |

Integers stand in for JavaScript numbers. The fuzzy bonus
`Math.round((1 - dist/maxLen) * 50)` is computed exactly in integers, rounding
halves up, as `(100 * (maxLen - dist) + maxLen) / (2 * maxLen)` when
`dist < maxLen`, and 0 otherwise. `toLowerCase` and `toUpperCase` act on ASCII
letters only.

Query normalisation is not idempotent: `"& x"` normalises to `" x"`,
because trimming happens before the `&` is deleted, and `" x"` then
normalises to `"x"` (`Search.NormalizeAmpersand`,
`Search.NormalizeLeadingBlank`). A second normalisation only trims
(`Search.NormalizeTwice`).

## Model

| member | source | states |
|---|---|---|
| Search.NormalizeQuery | Shop.jsx:10 | the normalised query holds no `< > " ' &` and no upper-case ASCII letter, is "" when the parameter is absent, and is no longer than the parameter |
| Search.NormalizeClean | Shop.jsx:10 | a parameter whose trimmed text is already clean normalises to exactly that trimmed text |
| Search.NormalizeTwice | Shop.jsx:10 | normalising a normalised query does nothing but trim it |
| Search.NormalizeAmpersand | Shop.jsx:10 | `"& x"` normalises to `" x"`: the trim runs before `&` is deleted, so a blank can survive |
| Search.NormalizeLeadingBlank | Shop.jsx:10 | `" x"` normalises to `"x"`, so normalisation is not idempotent |
| Search.Tokens | Shop.jsx:99 | every token is non-empty and holds no whitespace character |
| Search.TokensConcat | Shop.jsx:99 | the tokens run together are the query with its whitespace deleted: the split loses nothing but blanks |
| Search.TokenBonusCounts | Shop.jsx:100-103 | the token bonus is 12 times the number of tokens found in the name plus 8 times the number found in the id |
| Search.FuzzyBonus | Shop.jsx:106-109 | the fuzzy bonus lies in [0, 50], is 0 unless dist < maxLen, and otherwise is the nearest integer to 50·(1 − dist/maxLen), halves rounded up |
| Search.FuzzyExact | Shop.jsx:108-109 | distance 0 earns the full 50 |
| Search.FuzzyMonotone | Shop.jsx:108-109 | a smaller edit distance never earns a smaller fuzzy bonus |
| Search.Score | Shop.jsx:89-112 | the score is 0 for an empty query, at least 100 when the lower-cased name or id contains the query, and at most 150 plus 20 per token |
| Search.ScoreOfName | Shop.jsx:96-109 | a product whose lower-cased name equals the query scores at least 150: substring bonus plus the full fuzzy bonus |
| Search.ByCategory | Shop.jsx:115-117 | with a category, exactly the products of that category are kept |
| Search.ByScoreTotal | Shop.jsx:121 | the comparator `b.score - a.score` is a total preorder, so the sort is well defined |
| Search.Search | Shop.jsx:114-125 | every result is a product of the catalogue, shown at most as often as it is listed, and with a query every result scores above zero |
| Search.Results | Shop.jsx:10-125 | the page's results for the raw parameters: without `q` the category's products; with a `q` that normalises to something, only products scoring on it; with a category, only its products |
| Search.Ranked | Shop.jsx:119-124 | the ranked products come from the searched ones, all score above zero, and are empty only when no product mentions the query |
| Search.MentioningScores | Shop.jsx:96-124 | when nothing scores, nothing mentions the query, because a mention alone scores 100 |
| Search.QueryAbsent | Shop.jsx:10-118 | without a `q` parameter the search lists the category |
| Search.SearchInCategory | Shop.jsx:114-125 | with a non-empty category, every result, ranked or fallback, belongs to it |
| Search.SearchEmptyQuery | Shop.jsx:114-118 | without a query, the result is the category's products in catalogue order, and with no category the whole catalogue |
| Search.SortedByScore | Shop.jsx:121 | sorting by score orders by descending score and keeps equally scored products in their input order |
| Search.ScoredPositive | Shop.jsx:119-120 | only products scoring above zero survive the score filter |
| Search.SearchSorted | Shop.jsx:119-124 | when some product scores, the result is the sorted scoring products and the fallback is not used |
| Search.SearchRanked | Shop.jsx:118-125 | with a query some product scores on, the result is a permutation of the products scoring above zero, by non-increasing score, equal scores in catalogue order |
| Search.FallbackNeverAdds | Shop.jsx:96-124 | when no product scores, no product's name or id contains the query, so the substring fallback returns nothing |
| Levenshtein.ComputeDistance | Shop.jsx:75-87 | the row-by-row dynamic-programming table yields exactly the recursive edit distance |
| Levenshtein.NextRow | Shop.jsx:80-85 | each new table row holds the edit distances of the next prefix of `a` against every prefix of `b` |
| Levenshtein.DistRange | Shop.jsx:75-87 | the distance between prefixes of lengths i and j lies between abs(i − j) and max(i, j) |
| Levenshtein.DistZero | Shop.jsx:82-83 | the distance between equal-length prefixes is 0 exactly when they are equal |
| Levenshtein.DistSymmetric | Shop.jsx:75-87 | the distance does not depend on the order of its arguments |
| Levenshtein.DistanceFacts | Shop.jsx:75-87 | lev(a, "") = abs(a), lev("", b) = abs(b), abs(abs(a) − abs(b)) ≤ lev(a, b) ≤ max(abs(a), abs(b)), lev(a, b) = 0 iff a = b, and lev is symmetric (abs(s) is the length of s) |
| Levenshtein.DistanceSelf | Shop.jsx:75-87 | lev(a, a) = 0 |
| Sorting.Sort | Shop.jsx:121 | the sort returns a permutation of its input |
| Sorting.SortSorted | Shop.jsx:121 | under a total preorder, the sorted sequence is ordered |
| Sorting.SortStable | Shop.jsx:121 | for every element, the elements equivalent to it appear in the same relative order as in the input: the sort is stable |
| Gallery.MatchNumbered | Shop.jsx:40 | a match of the numbered-image pattern is a valid directory/base/number/extension split, and the string ends with its text |
| Gallery.MatchRender | Shop.jsx:40-44 | any string ending in a valid numbered image name is matched with exactly those four parts |
| Gallery.CandidateMatches | Shop.jsx:47-48 | every probed sibling name matches the pattern again, with only the number changed |
| Gallery.Probe | Shop.jsx:47-52 | probing only appends to the gallery |
| Gallery.ProbeAdds | Shop.jsx:47-52 | every appended entry is an existing sibling `_1` … `_6` that was not already listed |
| Gallery.ProbeComplete | Shop.jsx:47-52 | every existing sibling `_1` … `_6` is in the probed gallery |
| Gallery.Pad | Shop.jsx:56 | padding keeps the gallery as a prefix, adds only the filler, and reaches exactly four entries when there were fewer |
| Gallery.GalleryUnmatched | Shop.jsx:41-56 | a gallery of four or more images without a pattern match is left untouched |
| Gallery.GalleryBare | Shop.jsx:34-56 | example: a product with no images and no numbered image shows four placeholders |
| Gallery.GalleryAdditions | Shop.jsx:47-56 | every entry added to a gallery is the filler or a new, existing sibling of the matched image |
| Gallery.GalleryComplete | Shop.jsx:47-58 | every existing sibling of the matched image ends up in the gallery |
| Gallery.Expand | Shop.jsx:34-58 | the expanded product keeps its listed images as a prefix, has at least four, and differs from the input only in `images` |
| Gallery.ExpandStable | Shop.jsx:34-58 | expanding again a product whose image matches no pattern changes nothing more |
| Gallery.ExpandAll | Shop.jsx:36-59 | across the whole catalogue, in order: each product changes only in `images`, keeps its listed images as a prefix of its gallery, and shows at least four images, the SVG placeholder filling the gap |
| Slugs.Slugify | scripts/import-products.js:87 | a derived slug uses only `[a-z0-9-]`, has no "--", and is empty or starts and ends with a letter or digit |
| Slugs.SlugifyKept | scripts/import-products.js:87 | the slug keeps exactly the letters and digits of the lower-cased name, in order |
| Slugs.SlugifyNoop | scripts/import-products.js:87 | a string already in slug shape is its own slug |
| Slugs.SlugifyIdempotent | scripts/import-products.js:87 | deriving a slug from a slug changes nothing |
| Slugs.ReplaceRunsSingle | scripts/import-products.js:87 | after `replace(/[^a-z0-9]+/g, '-')` no two neighbouring characters are both outside `[a-z0-9]` |
| Slugs.StripDashEnds | scripts/import-products.js:87 | `/(^-\|-$)/g` only shortens the string and introduces no character |
| Slugs.StripDashEndsKept | scripts/import-products.js:87 | stripping the ends removes dashes and nothing else |
| Slugs.Dashed | scripts/import-excel-sheets.js:58 | the dashed name uses only `[a-z0-9-]` and is non-empty when the name is |
| ImportProducts.Categorized | scripts/import-products.js:38 | every row of a sheet gets the sheet's category and keeps every other column |
| ImportProducts.WorkbookRows | scripts/import-products.js:32-42 | every row read from a workbook carries one of the three sheet categories |
| ImportProducts.WorkbookIgnoresLaterSheets | scripts/import-products.js:34-35 | sheets after the third contribute no rows |
| ImportProducts.WorkbookOneSheet | scripts/import-products.js:32-42 | a single-sheet workbook gives that sheet's rows, categorised as jewelries |
| ImportProducts.TextField | scripts/import-products.js:86-94 | `(r[c] \|\| fallback)` yields the fallback for a falsy value, the string for a non-empty string, and a TypeError for any other truthy value |
| ImportProducts.ProductId | scripts/import-products.js:83-85 | the id is never empty: the row's own id, or its 1-based position when the id is falsy |
| ImportProducts.ProductIdsDistinct | scripts/import-products.js:83-85 | two rows at different positions without their own ids get different ids |
| ImportProducts.SlugOf | scripts/import-products.js:87 | a non-blank given slug is used trimmed, a blank one is derived from the name in slug shape, and a non-string slug is a TypeError |
| ImportProducts.SlugOfName | scripts/import-products.js:87 | a row with no slug gets the slug of its name |
| ImportProducts.SlugOfGiven | scripts/import-products.js:87 | a given slug already in slug shape is kept verbatim |
| ImportProducts.CurrencyOf | scripts/import-products.js:89 | the currency has no lower-case letter, keeps the length of the given code, and defaults to "NGN"; a truthy currency cell that is not a string is the `TypeError` of `.toUpperCase()` |
| ImportProducts.CurrencyKept | scripts/import-products.js:89 | a code already in upper case is kept |
| ImportProducts.FeaturedCases | scripts/import-products.js:94 | only `true` and the text "true" in any letter case mark a product as featured; numbers and blanks never do |
| ImportProducts.Tags | scripts/import-products.js:96 | a non-empty string gives one trimmed tag per piece between runs of ',' or ';', none holding a separator; anything else gives no tags |
| ImportProducts.TagsJoin | scripts/import-products.js:96 | trimmed, non-empty tags written as a comma-separated list are read back exactly |
| ImportProducts.NormalizeRow | scripts/import-products.js:82-124 | a row normalises without error exactly when every column the script calls a string method on (the five text fields, then `image`) is a string or falsy; otherwise the error names the first such column that is not |
| ImportProducts.Fields | scripts/import-products.js:83-97 | a normalised product has a non-empty id, no images yet, an upper-case currency, and a slug in slug shape whenever none was given |
| ImportProducts.BlankNumbersAreZero | scripts/import-products.js:88-95 | blank price and inventory become 0, never NaN |
| ImportProducts.NormalizeAll | scripts/import-products.js:82-124 | all rows normalise in order when every row is readable; otherwise the error is that of some row |
| ImportProducts.ImportedIdsDistinct | scripts/import-products.js:82-85 | in an imported catalogue, products of rows without their own ids have pairwise distinct ids |
| ImportProducts.RawImage | scripts/import-products.js:215 | the row's image text is trimmed when it is a string and "" otherwise |
| ImportProducts.LinkImages | scripts/import-products.js:207-216 | without copying, the gallery is exactly the sources that are web addresses or existing files, and the primary image is its first entry or else the row's image text |
| ImportProducts.LinkNothing | scripts/import-products.js:207-216 | with no usable source, the gallery is empty and the primary image is the row's image text |
| ImportProducts.BaseForFilename | scripts/import-products.js:177-180 | the file-name base is non-empty when the id is, and is the id or made only of `[a-z0-9-_]` |
| ImportProducts.BaseOfSlug | scripts/import-products.js:177-180 | a slug in slug shape is used unchanged as the file-name base |
| ImportProducts.CopyFilename | scripts/import-products.js:181-182 | the file name starts with the base and ends with the extension, or ".jpg" when there is none; only the first source's name carries no suffix |
| ImportProducts.CopyFilenamesDistinct | scripts/import-products.js:181-182 | two sources of one product with the same extension never get the same file name: no suffix at 0, "(k)" otherwise |
| ImportProducts.SourceExt | scripts/import-products.js:172-175 | a source's own extension is used when it has one, and a local source without one has none |
| ImportProducts.NumberedDistinct | scripts/import-products.js:77-78 | different counters give different `base-i+ext` paths |
| ImportProducts.UniqueDest | scripts/import-products.js:71-79 | the destination is never taken; it is the name itself when free, otherwise `base-i+ext` with the least i ≥ 1 not taken |
| ImportProducts.FirstFree | scripts/import-products.js:76-77 | the counter search stops at the least i ≥ 1 whose name is free, and it terminates because the names are distinct and the taken set is finite |
| ImportProducts.CopyNames | scripts/import-products.js:168-182 | one file name per source that can be fetched, in source order |
| ImportProducts.Place | scripts/import-products.js:183-194 | a copy goes to `<dir>/<filename>` with `--overwrite-images`, otherwise to the `uniqueDest` result for the paths taken |
| ImportProducts.Staged | scripts/import-products.js:182-193 | the import-folder copies are the plain file names in the import folder, never renamed |
| ImportProducts.CopyOne | scripts/import-products.js:168-200 | a source that can be fetched gets two files: one in the import folder under its plain name (base, "(idx)" suffix, extension), one in the public directory placed for that name; any other source gets none |
| ImportProducts.PlacedJoin | scripts/import-products.js:167-200 | a first copy placed for the paths present, followed by copies placed with it taken, are each placed for the paths present and written before them |
| ImportProducts.CopyFiles | scripts/import-products.js:166-204 | per source that can be fetched, in order: a copy in the import folder under the k-th file name, where a later copy with the same name overwrites an earlier one; and a public copy at the path for that name (with `--overwrite-images`) or at `uniqueDest` of that name given the paths present and written before it; without `--overwrite-images` the public paths are distinct and none was taken before |
| ImportProducts.CopyImages | scripts/import-products.js:166-206 | after copying, the import-folder copies are those of `CopyFiles`, the gallery is the public URLs of the public copies, one per fetched source, each written where `CopyFiles` places it; the primary image is the first of them or "", and nothing else changes |
| ImportProducts.AttachSources | scripts/import-products.js:166-216 | with `--copy-images` and some source: per fetched source, one copy in the import folder under its plain name and one public copy written where `uniqueDest` (or, with `--overwrite-images`, the plain name) places it; the gallery is the public `/data/images/` URLs and the primary image the first of them or ""; otherwise the images are linked in place and nothing is written |
| ImportProducts.ExactNameFound | scripts/import-products.js:107-111 | an image named exactly after the base is found whatever the case of its extension, and also by the test as written when the extension is lower case |
| ImportProducts.AsWrittenAgreesOnLowerCase | scripts/import-products.js:107-111 | the test as written and the corrected test differ only on entries whose extension has an upper-case letter |
| ImportProducts.Hits | scripts/import-products.js:104-114 | the hits in one directory are exactly the paths of its entries that pass the entry test |
| ImportProducts.AllHits | scripts/import-products.js:101-117 | the hits of all directories are exactly the paths of entries of readable directories that pass the entry test |
| ImportProducts.FindLocalImagesByBase | scripts/import-products.js:101-120 | with the script's entry test `IsImageOfBaseAsWritten` as the parameter, the result is every entry of a readable directory that passes it; each appears once |
| ImportProducts.UpperCaseImageNotFound | scripts/import-products.js:101-120 | as written, a directory holding only `C1.JPG` yields nothing for the base `C1` |
| Seqs.DedupPrefix | scripts/import-products.js:119 | deduplication keeps each path where it first occurs: later entries never reorder earlier ones |
| ImportSheets.Classify | scripts/import-excel-sheets.js:30-49 | on the trimmed, lower-cased sheet name, 'jewel' wins over 'cloth', which wins over 'drink'; the category is one of the three, and the prefix is its upper-cased initial |
| ImportSheets.UnknownSheetIsClothing | scripts/import-excel-sheets.js:45-49 | a sheet that mentions neither 'jewel' nor 'drink' holds clothings with prefix C |
| ImportSheets.NameCell | scripts/import-excel-sheets.js:57 | the name is always truthy, thanks to the `Item <id>` fallback |
| ImportSheets.SlugFromName | scripts/import-excel-sheets.js:58 | without a slug column, the slug is the dashed name in `[a-z0-9-]`, and the `item-<id>` fallback is never reached |
| ImportSheets.Price | scripts/import-excel-sheets.js:59 | the price is always a finite number |
| ImportSheets.Inventory | scripts/import-excel-sheets.js:62-88 | the inventory is never zero or NaN: a falsy count becomes 10 plus the row's index in its sheet |
| ImportSheets.BlankInventory | scripts/import-excel-sheets.js:62-88 | example of `ImportSheets.Inventory`: a blank inventory becomes 10 plus the row's index |
| ImportSheets.Tags | scripts/import-excel-sheets.js:63-89 | there is at least one tag and none is empty; the tags are either the category without its last letter, or trimmed pieces holding no ',', ';' or '\|' |
| ImportSheets.TagsJoin | scripts/import-excel-sheets.js:64-89 | tags written with any of the three separators are read back exactly |
| ImportSheets.ImagePath | scripts/import-excel-sheets.js:66-75 | the image path always starts with '/' |
| ImportSheets.DefaultImage | scripts/import-excel-sheets.js:74 | the default image is `/data/images/` followed by the prefix, the decimal index and `.jpg` |
| ImportSheets.DefaultImagesDistinct | scripts/import-excel-sheets.js:74 | different rows of a sheet get different default images |
| ImportSheets.GivenImage | scripts/import-excel-sheets.js:67-72 | a given image is kept when it starts with '/', and is placed under `/data/images/` otherwise |
| ImportSheets.RowProduct | scripts/import-excel-sheets.js:77-90 | a row's product has the global id as its id and the sheet's category; it is featured iff the id is a multiple of 5; its gallery is its image, which starts with '/'; its price is finite and its inventory non-zero; it has a name, a slug and at least one tag |
| ImportSheets.UnnamedRow | scripts/import-excel-sheets.js:57 | a row without a name is called `Item <global id>` |
| ImportSheets.ImportWorkbook | scripts/import-excel-sheets.js:32-95 | the workbook yields one product per row of every sheet |
| ImportSheets.WorkbookAt | scripts/import-excel-sheets.js:28-93 | row j of sheet s becomes product number (rows of earlier sheets) + j + 1, with per-sheet index j + 1 |
| ImportSheets.WorkbookNumbering | scripts/import-excel-sheets.js:28-93 | the products are numbered "1", "2", … in workbook order, and exactly every fifth is featured |
| ImportSheets.WorkbookIdsDistinct | scripts/import-excel-sheets.js:78-92 | no two products of a workbook share an id |
| AttachImages.Passing | scripts/attach-images-to-products.js:19-23 | the kept files are exactly the directory's files that pass the file test for the prefix, in directory order |
| AttachImages.MatchingFiles | scripts/attach-images-to-products.js:16-30 | the matching files are a permutation of the files that pass the test, each of them a directory file that passes it; the script's test is `MatchesAsWritten`, the pattern tested against the whole file name |
| AttachImages.MatchingFilesSpec | scripts/attach-images-to-products.js:16-30 | a file is matched iff it is in the directory and passes the test; names without '_' or '-' come first, and ties follow the collation order |
| AttachImages.FileOrderTotal | scripts/attach-images-to-products.js:23-29 | the comparator (plain names first, then the collation) is a total preorder whenever the collation is |
| AttachImages.BareNameNeverMatches | scripts/attach-images-to-products.js:17-22 | as written, `<base>.jpg` never matches the base `<base>` |
| AttachImages.BareNameMatches | scripts/attach-images-to-products.js:15-22 | with the pattern applied to the name without its extension, `<base>.jpg` matches |
| AttachImages.RemoveFirst | scripts/attach-images-to-products.js:39 | `replace(ext, '')` removes one occurrence of the extension or nothing |
| AttachImages.RemoveFirstExt | scripts/attach-images-to-products.js:37-40 | for a name whose stem has no dot, removing the extension leaves the stem |
| AttachImages.BaseOf | scripts/attach-images-to-products.js:34-44 | a product has no base exactly when its image gives an empty stem and its slug is empty; a base is never empty |
| AttachImages.BaseOfImage | scripts/attach-images-to-products.js:36-40 | a product whose image is a file of the image directory takes that file's stem as its base |
| AttachImages.BaseOfSlugPart | scripts/attach-images-to-products.js:41-43 | without an image, the slug `a-b-…` gives the base `b` |
| AttachImages.BaseOfWholeSlug | scripts/attach-images-to-products.js:41-43 | without an image, a slug with no dash is its own base |
| AttachImages.Existing | scripts/attach-images-to-products.js:50-60 | the existing gallery is the images array, or else `[image]` when there is an image, or else empty |
| AttachImages.UrlsMember | scripts/attach-images-to-products.js:48 | a URL `/data/images/<f>` is among the mapped URLs exactly when `f` is among the files |
| AttachImages.Attach | scripts/attach-images-to-products.js:46-65 | with the script's file test `MatchesAsWritten` as the parameter: a product is reported changed exactly when it changed; only `images` and `image` can change, and a changed product has a gallery |
| AttachImages.AttachNoBase | scripts/attach-images-to-products.js:34-44 | a product without a base is left unchanged |
| AttachImages.AttachMatched | scripts/attach-images-to-products.js:46-57 | when files match, a product already listing exactly their URLs is unchanged; otherwise its gallery becomes those URLs and its primary image the first |
| AttachImages.AttachUnmatched | scripts/attach-images-to-products.js:58-65 | when no file matches, only a product with an image and an empty gallery array changes, and its gallery becomes that image |
| AttachImages.AttachGallery | scripts/attach-images-to-products.js:46-57 | when files match the base, the product's gallery afterwards is exactly their URLs |
| AttachImages.OwnImageDropped | scripts/attach-images-to-products.js:17-57 | as written, once any file matches the base of a product whose image is `/data/images/<base><ext>`, that image is not in its new gallery |
| AttachImages.OwnImageKept | scripts/attach-images-to-products.js:35-57 | with the corrected test `Matches`, a product whose image is a file of the directory keeps that file in its gallery |
| AttachImages.AttachAll | scripts/attach-images-to-products.js:32-68 | with the script's file test as the parameter, every product is updated in order; `changed` holds iff some product changed, iff the catalogue differs, so skipping the write loses nothing |
| CleanupImages.Clean | scripts/cleanup-product-images.js:31-43 | a product with several images keeps only its first, which becomes its primary image; one with one image gets it as its primary image; one with none or no array is unchanged; no other field changes |
| CleanupImages.CleanIdempotent | scripts/cleanup-product-images.js:31-43 | a second pass over a cleaned product changes nothing and counts nothing |
| CleanupImages.CleanAll | scripts/cleanup-product-images.js:29-43 | the pass keeps product count and order, and `cleaned` is the number of products that had more than one image |
| CleanupImages.CountFromZero | scripts/cleanup-product-images.js:29-45 | `cleaned` is 0 exactly when no product has more than one image |
| CleanupImages.SavedAsWritten | scripts/cleanup-product-images.js:31-46 | as written, the saved file has no product with several images; it is the input when no product had several images, and otherwise every product in its cleaned form |
| CleanupImages.SingleImageFixLost | scripts/cleanup-product-images.js:39-46 | as written, a file whose only defect is a primary image differing from its single gallery image is not rewritten |
| CleanupImages.Saved | scripts/cleanup-product-images.js:31-46 | corrected, every saved product is clean, and only `images` and `image` differ from the input |
| CleanupImages.SavedAgrees | scripts/cleanup-product-images.js:45-46 | whenever some product had several images, the corrected and as-written outputs agree |
| CleanupImages.SavedIdempotent | scripts/cleanup-product-images.js:31-46 | running the corrected cleanup twice gives what running it once gives |
| Text.Trim | Shop.jsx:10 | `trim()` returns a slice of its input with no whitespace at either end |
| Text.TrimEmptyIff | scripts/import-products.js:87 | a string trims to "" exactly when it is all whitespace, which is when a given slug is replaced by a derived one |
| Text.LowerSpec | Shop.jsx:10 | lower-casing keeps the length, leaves no upper-case ASCII letter, and changes nothing else |
| Text.SplitRunsJoin | scripts/import-products.js:96 | splitting on separator runs undoes joining non-empty pieces that hold no separator |
| Text.SplitRunsConcat | scripts/import-products.js:96 | splitting on separator runs loses exactly the separators |
| Text.SplitEachJoin | scripts/import-excel-sheets.js:64 | splitting on single separators undoes joining pieces that hold no separator |
| Text.NatToStringInjective | scripts/import-excel-sheets.js:78 | different numbers render as different decimal strings |
| Paths.ExtName | scripts/attach-images-to-products.js:20 | `path.extname` is "" or a '.' followed by no further '.', a proper suffix of the name; it is "" exactly when the name is `..` or no '.' follows its first character |
| Paths.Stem | scripts/attach-images-to-products.js:39 | the stem followed by the extension is the name |

## Findings

| source | as written | input that shows it | evidently intended | confidence | as-written member | corrected member |
|---|---|---|---|---|---|---|
| scripts/import-products.js:108-111 | `path.basename(n, ext)` is given the lower-cased extension, so an upper-case extension is not stripped and the name never equals the base | the entry `C1.JPG` with base `C1` | `C1.JPG` is an image of `C1`, as `C1.jpg` is | not executed | ImportProducts.UpperCaseImageNotFound | ImportProducts.ExactNameFound |
| scripts/attach-images-to-products.js:17-22 | the pattern `^C1(?:$\|[_-].*)` is tested against the whole file name, extension included | the files `C1.jpg` and `C1_1.jpg` with a product whose image is `/data/images/C1.jpg`: after `C1` comes '.', which is neither end of string nor '_' or '-', so the gallery becomes `C1_1.jpg` alone | the file named after the base matches, as the comment "like C1, C1_1, C1-2" says | not executed | AttachImages.OwnImageDropped | AttachImages.OwnImageKept |
| scripts/cleanup-product-images.js:39-46 | the file is written only when `cleaned > 0`, so a primary-image fix made for a product with one gallery image is dropped when no product had several | a file holding one product with `images: ["/a.jpg"]` and `image: "/b.jpg"` | the file is saved with `image` set to `"/a.jpg"`, as the comment "Ensure the image field matches" says | not executed | CleanupImages.SingleImageFixLost | CleanupImages.SavedIdempotent |

The corrected definitions:

- `ImportProducts.IsImageOfBase` strips the entry's own extension, whatever its case. `ImportProducts.FindLocalImagesByBase` takes the entry test as a parameter: `IsImageOfBaseAsWritten` gives what the script returns, `IsImageOfBase` the corrected search.
- `AttachImages.Matches` applies the pattern to the name without its extension. `AttachImages.Attach` and `AttachImages.AttachAll` take the file test as a parameter: `MatchesAsWritten` gives what the script writes, `Matches` the corrected update.
- `CleanupImages.Saved` keeps every product's fix.

## Left out

- File-system access, spreadsheet parsing (`XLSX.readFile`, `sheet_to_json`), `downloadImage` over http/https, and the `fetch` HEAD probes are I/O. Directory listings, rows and the results of probes are passed in as values or oracles.
- `collectImageSources` (scripts/import-products.js:123-162) is left out, apart from the `TypeError` its first line raises for a non-string `image` cell, which `ImportProducts.NormalizeRow` models. Its splitting on `[,;]+` and its web-address branch are plain string work, but every other branch resolves a path against the input directory, asks whether a file exists, tests for an absolute path or lists directories. `ImportProducts.AttachSources` takes its result as the parameter `sources`.
- The CSV branch of `parseCSVorXLSX` (scripts/import-products.js:23-28) reads the first sheet as it is, so it holds no logic beyond the spreadsheet library.
- `Promise.all` concurrency: products are normalised one after another, and the model holds no loop over the catalogue for the copies. A caller is expected to pass one product's `after` from `ImportProducts.AttachSources` on as the next product's `present`, which makes the copies of different products in row order; in the script, the downloads of different products can interleave.
- The import folder `data/imports/<timestamp>/images` is named from the clock (scripts/import-products.js:55-57); it is the parameter `importDir`.
- The two writes of the resulting catalogue (scripts/import-products.js:220-230): the global `products.json`, and with `--copy-images` a second `products.json` in the import folder. Both are output of the normalised products, which `ImportProducts.NormalizeAll` and `ImportProducts.AttachSources` model.
- `path.join` normalisation of `.` and `..` segments: `ImportProducts.JoinPath` only puts a '/' between directory and name.
- The React page, Helmet tags, the cart in localStorage, the 10-second polling timer and `console` logging are UI, browser state, timers and output.
- The summary counts printed by `scripts/import-excel-sheets.js:101-103` and the other scripts' log lines are output only.
- The file list of `scripts/cleanup-product-images.js:11-17` is left out: the model cleans one file's products, and each listed file is processed on its own. A missing or unreadable file is skipped, which the model does not need to represent.
- JavaScript numbers are modelled as integers or NaN. Fractional prices and inventories, and `Date` cells (`cellDates: true`), are not modelled.
- Cells.ParseNumber: reads only an optionally signed run of decimal digits, with surrounding blanks. `Number` also reads "12.00" as 12, "5." as 5, "1e3" as 1000, "0x10" as 16 and "Infinity"; such text gives NaN here. This affects the price and inventory of `ImportSheets` and the price and inventory of `ImportProducts`.
- Search.Score: lengths and the edit distance count Unicode scalar values, since a Dafny string is a sequence of them; JavaScript counts UTF-16 code units. A character outside the Basic Multilingual Plane (an emoji, say) counts once here and twice in the source, which changes `maxLen` and the fuzzy bonus: for the query "💍" and the name "💎" the source computes distance 1 over length 2 and a bonus of 25, the model distance 1 over length 1 and a bonus of 0.
- Levenshtein.Distance: works on Unicode scalar values rather than UTF-16 code units, for the reason given for Search.Score.
- Search.FuzzyBonus: rounds exact halves up in exact arithmetic, whereas the source computes in IEEE-754 doubles, which can round a value that is mathematically .5 either way.
- Text.Lower: case mapping covers ASCII letters only; Unicode case folding is not modelled.
- ImportSheets.Tags: an array-valued tags cell, which the script keeps as it is, is not modelled; a cell is a string, number, boolean or blank.
- ImportSheets.RowProduct: the script keeps the currency cell as it is (`currency: currency`), so a numeric or boolean currency is written to the JSON as a number or boolean; here the product's currency is text, and such a cell is rendered with `String()`, e.g. 840 becomes "840".
- ImportProducts.PublicUrl: the URL is `/data/images/` plus the base name of the written path. That base name is non-empty for every path `UniqueDest` and `JoinPath` produce, and this is not proved.
- AttachImages.FileOrder: `localeCompare` with numeric collation is an abstract total preorder parameter, not an implementation of the Unicode collation algorithm.
- ImportProducts.FindLocalImagesByBase: its contract states membership and absence of duplicates; the first-found order follows from `Seqs.DedupPrefix`, which is stated separately.
- Search.Score: `p.name.toLowerCase()` throws when a product has no name; catalogue products always carry a name string here.
- Gallery.Expand: a product's `image` is taken as "" when absent, as `normalizedBase` does at Shop.jsx:34; the other fields are kept as they are.


=== FILE: AttachImages.dfy ===
/**
  scripts/attach-images-to-products.js: every product whose image or slug
  names a base gets, as its gallery, the image files of the public image
  directory that carry that base, plain names first; the catalogue file is
  rewritten only when some product changed.
 */
module AttachImages {
  import opened Wrappers
  import opened Text
  import opened Seqs
  import opened Sorting
  import opened Paths
  import opened Catalog

  /** The extensions a gallery file may have, compared in lower case. */
  const GalleryExts: set<string> := {".jpg", ".jpeg", ".png", ".webp", ".gif", ".svg"}

  predicate IsGalleryFile(f: string)
  {
    Lower(ExtName(f)) in GalleryExts
  }

  /**
    `new RegExp('^' + escaped(prefix) + '(?:$|[_\\-].*)', 'i').test(s)`: `s`
    is the prefix, or starts with the prefix followed by '_' or '-', letter
    case ignored. The pattern has no closing anchor, so `.*` may match nothing
    and whatever follows the separator does not matter.
   */
  predicate CarriesPrefix(s: string, prefix: string)
  {
    var ls := Lower(s);
    var lp := Lower(prefix);
    || ls == lp
    || (&& |lp| < |ls| && ls[..|lp|] == lp
        && (ls[|lp|] == '_' || ls[|lp|] == '-'))
  }

  /** The file test as written: the pattern is applied to the whole file name, extension included. */
  predicate MatchesAsWritten(f: string, prefix: string)
  {
    IsGalleryFile(f) && CarriesPrefix(f, prefix)
  }

  /** The file test as the comment describes it ("C1, C1_1, C1-2"): the pattern is applied to the name without its extension. */
  predicate Matches(f: string, prefix: string)
  {
    IsGalleryFile(f) && CarriesPrefix(Stem(f), prefix)
  }

  /** As written, the file named after the base itself, `C1.jpg` for `C1`, is never attached. */
  lemma BareNameNeverMatches(base: string, ext: string)
    requires |ext| >= 1 && ext[0] == '.'
    ensures !MatchesAsWritten(base + ext, base)
  {
    var s := base + ext;
    LowerSpec(s);
    assert Lower(s)[|base|] == '.';
    assert |Lower(s)| == |s| > |base| == |Lower(base)|;
  }

  /** Corrected, the file named after the base is attached. */
  lemma BareNameMatches(base: string, ext: string)
    requires base != "" && |ext| >= 2 && ext[0] == '.'
    requires forall k :: 1 <= k < |ext| ==> ext[k] != '.'
    requires Lower(ext) in GalleryExts
    ensures Matches(base + ext, base)
  {
    var f := base + ext;
    LastIndexOfAppend(base + ".", ext[1..], '.');
    assert f == (base + ".") + ext[1..];
    assert ExtName(f) == ext;
    assert f[..|f| - |ext|] == base;
  }

  /** 1 for a name holding '_' or '-', which sorts after plain names. */
  function Rank(f: string): nat
  {
    if '_' in f || '-' in f then 1 else 0
  }

  /** The sort order: plain names first, then `localeCompare` with numeric collation, given as the preorder `collate`. */
  function FileOrder(collate: (string, string) -> bool): (string, string) -> bool
  {
    (a: string, b: string) => Rank(a) < Rank(b) || (Rank(a) == Rank(b) && collate(a, b))
  }

  lemma FileOrderTotal(collate: (string, string) -> bool)
    requires TotalPreorder(collate)
    ensures TotalPreorder(FileOrder(collate))
  {
    var le := FileOrder(collate);
    forall a, b, c | le(a, b) && le(b, c)
      ensures le(a, c)
    {
      if Rank(a) == Rank(b) == Rank(c) {
        assert collate(a, b) && collate(b, c);
      }
    }
  }

  /**
    The files of the directory that pass the file test `fits` for the prefix,
    in directory order. The script's test is `MatchesAsWritten`; `Matches` is
    the corrected one.
   */
  function Passing(files: seq<string>, prefix: string, fits: (string, string) -> bool): (r: seq<string>)
    ensures forall k :: 0 <= k < |r| ==> fits(r[k], prefix) && r[k] in files
    ensures forall f :: f in files && fits(f, prefix) ==> f in r
  {
    Filter(files, (f: string) => fits(f, prefix))
  }

  /** `matchingFiles(prefix)`: the directory's files that pass the file test, sorted. */
  function MatchingFiles(files: seq<string>, prefix: string, collate: (string, string) -> bool, fits: (string, string) -> bool): (r: seq<string>)
    ensures multiset(r) == multiset(Passing(files, prefix, fits))
    ensures forall k :: 0 <= k < |r| ==> fits(r[k], prefix) && r[k] in files
  {
    var kept := Passing(files, prefix, fits);
    var r := Sort(kept, FileOrder(collate));
    forall k | 0 <= k < |r|
      ensures r[k] in kept
    {
      assert r[k] in multiset(r);
    }
    r
  }

  /**
    The matching files are exactly the directory's files that pass the test,
    each as often as listed, plain names before the others, and sorted by the
    comparator.
   */
  lemma MatchingFilesSpec(files: seq<string>, prefix: string, collate: (string, string) -> bool, fits: (string, string) -> bool)
    requires TotalPreorder(collate)
    ensures forall f :: f in MatchingFiles(files, prefix, collate, fits) <==> f in files && fits(f, prefix)
    ensures Sorted(MatchingFiles(files, prefix, collate, fits), FileOrder(collate))
    ensures forall i, j :: 0 <= i < j < |MatchingFiles(files, prefix, collate, fits)| ==>
              Rank(MatchingFiles(files, prefix, collate, fits)[i]) <= Rank(MatchingFiles(files, prefix, collate, fits)[j])
  {
    var kept := Passing(files, prefix, fits);
    var r := MatchingFiles(files, prefix, collate, fits);
    FileOrderTotal(collate);
    SortSorted(kept, FileOrder(collate));
    forall f | f in files && fits(f, prefix)
      ensures f in r
    {
      assert f in multiset(kept);
    }
  }

  // ---------------------------------------------------------------------------
  // The base of a product
  // ---------------------------------------------------------------------------

  /** `s.replace(t, '')`: the first occurrence of `t` removed. */
  function RemoveFirst(s: string, t: string): (r: string)
    ensures |r| == |s| || |r| == |s| - |t|
    decreases |s|
  {
    if t == [] then s
    else if StartsWith(s, t) then s[|t|..]
    else if s == [] then s
    else [s[0]] + RemoveFirst(s[1..], t)
  }

  /** An extension removed from a name whose stem holds no dot is removed at the end. */
  lemma {:induction false} RemoveFirstExt(stem: string, ext: string)
    requires |ext| >= 1 && ext[0] == '.'
    requires forall k :: 0 <= k < |stem| ==> stem[k] != '.'
    ensures RemoveFirst(stem + ext, ext) == stem
    decreases |stem|
  {
    var s := stem + ext;
    if stem == [] {
      assert s == ext;
      assert s[|ext|..] == [];
    } else {
      assert s[0] == stem[0] != '.';
      assert !StartsWith(s, ext);
      assert s[1..] == stem[1..] + ext;
      RemoveFirstExt(stem[1..], ext);
    }
  }

  predicate IsDash(c: char) { c == '-' }

  /**
    The base prefix of a product: its image's file name without the
    extension, or else the second dash-separated part of its slug, or else
    the whole slug; `None` when neither gives a non-empty base.
   */
  function BaseOf(p: Product): (r: Option<string>)
    ensures r.Some? ==> r.value != ""
    ensures r.None? <==> (p.image == "" || RemoveFirst(BaseName(p.image), ExtName(BaseName(p.image))) == "") && p.slug == ""
  {
    var bn := BaseName(p.image);
    var fromImage := if p.image != "" then RemoveFirst(bn, ExtName(bn)) else "";
    if fromImage != "" then Some(fromImage)
    else if p.slug != "" then
      var parts := SplitEach(p.slug, IsDash);
      Some(if |parts| > 1 && parts[1] != "" then parts[1] else p.slug)
    else None
  }

  /** A product whose image is a file of the image directory takes that file's stem as its base. */
  lemma BaseOfImage(p: Product, f: string)
    requires p.image == ImagesDir + f && f != [] && NoSlash(f)
    requires ExtName(f) != [] && forall k :: 0 <= k < |Stem(f)| ==> Stem(f)[k] != '.'
    ensures BaseOf(p) == Some(Stem(f))
  {
    assert p.image == "/data/images" + "/" + f;
    BaseNameOfJoin("/data/images", f);
    RemoveFirstExt(Stem(f), ExtName(f));
  }

  /** Without an image, a slug `a-b-…` gives the base `b`. */
  lemma BaseOfSlugPart(p: Product, parts: seq<string>)
    requires p.image == "" && |parts| >= 2 && parts[1] != ""
    requires AllNoneOf(parts, IsDash) && p.slug == Join(parts, '-')
    ensures BaseOf(p) == Some(parts[1])
  {
    SplitEachJoin(parts, '-', IsDash);
    assert p.slug == parts[0] + ['-'] + Join(parts[1..], '-');
  }

  /** Without an image, a slug holding no dash is its own base. */
  lemma BaseOfWholeSlug(p: Product)
    requires p.image == "" && p.slug != "" && NoneOf(p.slug, IsDash)
    ensures BaseOf(p) == Some(p.slug)
  {
    SplitEachPrefix(p.slug, "", IsDash);
    assert p.slug + "" == p.slug;
  }

  // ---------------------------------------------------------------------------
  // Updating the products
  // ---------------------------------------------------------------------------

  /** `Array.isArray(p.images) ? p.images : (p.image ? [p.image] : [])`. */
  function Existing(p: Product): (r: seq<string>)
    ensures p.images.Some? ==> r == p.images.value
    ensures p.images.None? && p.image != "" ==> r == [p.image]
    ensures p.images.None? && p.image == "" ==> r == []
  {
    match p.images
    case Some(xs) => xs
    case None => if p.image != "" then [p.image] else []
  }

  /** The public URLs of files of the image directory. */
  function Urls(files: seq<string>): (r: seq<string>)
    ensures |r| == |files|
    ensures forall k :: 0 <= k < |r| ==> r[k] == ImagesDir + files[k]
  {
    seq(|files|, k requires 0 <= k < |files| => ImagesDir + files[k])
  }

  /** A URL of the image directory is among the URLs exactly when its file is among the files. */
  lemma UrlsMember(files: seq<string>, f: string)
    ensures ImagesDir + f in Urls(files) <==> f in files
  {
    if ImagesDir + f in Urls(files) {
      var k :| 0 <= k < |files| && Urls(files)[k] == ImagesDir + f;
      assert (ImagesDir + files[k])[|ImagesDir|..] == files[k];
      assert (ImagesDir + f)[|ImagesDir|..] == f;
    }
    if f in files {
      var k :| 0 <= k < |files| && files[k] == f;
      assert Urls(files)[k] == ImagesDir + f;
    }
  }

  /**
    One product: when files carry its base and its gallery differs from
    them, the gallery becomes those files and the primary image the first;
    when none does and the product has an image but an empty gallery array,
    the gallery becomes that image. The flag tells whether the product changed.
   */
  function Attach(p: Product, files: seq<string>, collate: (string, string) -> bool, fits: (string, string) -> bool): (r: (Product, bool))
    ensures r.1 <==> r.0 != p
    ensures r.0 == p.(images := r.0.images, image := r.0.image)
    ensures r.1 ==> r.0.images.Some?
  {
    match BaseOf(p)
    case None => (p, false)
    case Some(base) =>
      var mapped := Urls(MatchingFiles(files, base, collate, fits));
      if |mapped| > 0 then
        if Existing(p) == mapped then (p, false)
        else
          var q := p.(images := Some(mapped), image := mapped[0]);
          assert q.images == p.images ==> Existing(p) == mapped;
          (q, true)
      else if Existing(p) == [] && p.image != "" then
        (p.(images := Some([p.image])), true)
      else (p, false)
  }

  /** A product without a base is left as it is. */
  lemma AttachNoBase(p: Product, files: seq<string>, collate: (string, string) -> bool, fits: (string, string) -> bool)
    requires BaseOf(p).None?
    ensures Attach(p, files, collate, fits) == (p, false)
  {
  }

  /**
    When files carry the base, a product already listing exactly their URLs
    is left as it is; any other product gets them as its gallery and the
    first of them as its primary image.
   */
  lemma AttachMatched(p: Product, files: seq<string>, collate: (string, string) -> bool, fits: (string, string) -> bool, base: string)
    requires BaseOf(p) == Some(base) && |MatchingFiles(files, base, collate, fits)| > 0
    ensures var mapped := Urls(MatchingFiles(files, base, collate, fits));
      && (Existing(p) == mapped ==> Attach(p, files, collate, fits) == (p, false))
      && (Existing(p) != mapped ==> Attach(p, files, collate, fits).0 == p.(images := Some(mapped), image := mapped[0]))
  {
  }

  /**
    When no file carries the base, only a product with an image and an empty
    gallery changes, and its gallery becomes that image.
   */
  lemma AttachUnmatched(p: Product, files: seq<string>, collate: (string, string) -> bool, fits: (string, string) -> bool, base: string)
    requires BaseOf(p) == Some(base) && MatchingFiles(files, base, collate, fits) == []
    ensures Existing(p) == [] && p.image != "" ==> Attach(p, files, collate, fits) == (p.(images := Some([p.image])), true)
    ensures !(Existing(p) == [] && p.image != "") ==> Attach(p, files, collate, fits) == (p, false)
  {
  }

  /** After the update, a product's gallery is the files carrying its base whenever there are any. */
  lemma AttachGallery(p: Product, files: seq<string>, collate: (string, string) -> bool, fits: (string, string) -> bool, base: string)
    requires BaseOf(p) == Some(base) && |MatchingFiles(files, base, collate, fits)| > 0
    ensures Existing(Attach(p, files, collate, fits).0) == Urls(MatchingFiles(files, base, collate, fits))
  {
  }

  /**
    As written, as soon as some file carries the base of a product whose
    image is `<base><ext>` in the image directory, that image leaves the
    product's gallery.
   */
  lemma OwnImageDropped(p: Product, files: seq<string>, collate: (string, string) -> bool, f: string)
    requires p.image == ImagesDir + f && f != [] && NoSlash(f)
    requires ExtName(f) != [] && forall k :: 0 <= k < |Stem(f)| ==> Stem(f)[k] != '.'
    requires |MatchingFiles(files, Stem(f), collate, MatchesAsWritten)| > 0
    ensures ImagesDir + f !in Existing(Attach(p, files, collate, MatchesAsWritten).0)
  {
    BaseOfImage(p, f);
    var base := Stem(f);
    var matched := MatchingFiles(files, base, collate, MatchesAsWritten);
    AttachGallery(p, files, collate, MatchesAsWritten, base);
    assert f == base + ExtName(f);
    BareNameNeverMatches(base, ExtName(f));
    UrlsMember(matched, f);
  }

  /** With the corrected test, a product whose image is a file of the directory keeps that file in its gallery. */
  lemma OwnImageKept(p: Product, files: seq<string>, collate: (string, string) -> bool, f: string)
    requires p.image == ImagesDir + f && f != [] && NoSlash(f) && f in files
    requires |ExtName(f)| >= 2 && Lower(ExtName(f)) in GalleryExts
    requires forall k :: 0 <= k < |Stem(f)| ==> Stem(f)[k] != '.'
    ensures ImagesDir + f in Existing(Attach(p, files, collate, Matches).0)
  {
    BaseOfImage(p, f);
    var base := Stem(f);
    var e := ExtName(f);
    assert f == base + e;
    assert Matches(f, base) by {
      BareNameMatches(base, e);
    }
    var matched := MatchingFiles(files, base, collate, Matches);
    assert f in Passing(files, base, Matches);
    assert f in multiset(matched);
    var k :| 0 <= k < |matched| && matched[k] == f;
    assert Urls(matched)[k] == ImagesDir + f;
    AttachGallery(p, files, collate, Matches, base);
  }

  /**
    The whole run with the file test `fits` (the script's is
    `MatchesAsWritten`): every product updated, and whether any changed. The
    catalogue file is rewritten only in that case, which loses nothing:
    unchanged products are the input.
   */
  function AttachAll(products: seq<Product>, files: seq<string>, collate: (string, string) -> bool, fits: (string, string) -> bool): (r: (seq<Product>, bool))
    ensures |r.0| == |products|
    ensures forall i :: 0 <= i < |products| ==> r.0[i] == Attach(products[i], files, collate, fits).0
    ensures r.1 <==> exists i :: 0 <= i < |products| && Attach(products[i], files, collate, fits).1
    ensures r.1 <==> r.0 != products
  {
    var updated := seq(|products|, i requires 0 <= i < |products| => Attach(products[i], files, collate, fits).0);
    var changed := exists i :: 0 <= i < |products| && Attach(products[i], files, collate, fits).1;
    assert !changed ==> updated == products;
    (updated, changed)
  }
}

=== FILE: Catalog.dfy ===
/** The product record of the catalogue file `products.json`, shared by the storefront and the scripts. */
module Catalog {
  import opened Wrappers
  import opened Cells

  /**
    One product. `image` is the primary image path, "" when absent; `images` is
    the gallery, `None` when the field is absent or not an array. `id` is "" when
    absent.
   */
  datatype Product = Product(
    id: string,
    name: string,
    slug: string,
    price: Numeric,
    currency: string,
    image: string,
    images: Option<seq<string>>,
    description: string,
    category: string,
    featured: bool,
    inventory: Numeric,
    tags: seq<string>)

  /** The public URL directory the catalogue's local images are served from. */
  const ImagesDir: string := "/data/images/"
}

=== FILE: Cells.dfy ===
/**
  The loosely typed values the import scripts read: a spreadsheet row as handed
  over by `sheet_to_json` (or a parsed JSON object) maps column names to values,
  and the scripts combine them with JavaScript's `||`, `String(…)` and `Number(…)`.
 */
module Cells {
  import opened Text
  import opened Wrappers

  /** A field value: absent (`undefined`), a string, an integer number or a boolean. */
  datatype Cell = Blank | Str(s: string) | Num(n: int) | Flag(b: bool)

  /** A row: column name to value; a column that is not present reads as `undefined`. */
  type Row = map<string, Cell>

  function Get(row: Row, column: string): Cell
  {
    if column in row then row[column] else Blank
  }

  /** JavaScript truthiness: `undefined`, `''`, `0` and `false` are falsy. */
  predicate Truthy(c: Cell)
  {
    match c
    case Blank => false
    case Str(s) => s != ""
    case Num(n) => n != 0
    case Flag(b) => b
  }

  /** `a || b`. */
  function Or(a: Cell, b: Cell): (r: Cell)
    ensures Truthy(a) ==> r == a
    ensures !Truthy(a) ==> r == b
  {
    if Truthy(a) then a else b
  }

  /** `String(v)`. */
  function ToStr(c: Cell): string
  {
    match c
    case Blank => "undefined"
    case Str(s) => s
    case Num(n) => IntToString(n)
    case Flag(b) => if b then "true" else "false"
  }

  /** The error a script raises when it calls a string method on a value that is not a string. */
  datatype ScriptError = TypeError(column: string)

  /** The receiver of `v.trim()`, `v.toLowerCase()` or `v.toUpperCase()`: only a string has these methods. */
  function AsString(c: Cell, column: string): (r: Result<string, ScriptError>)
    ensures r.Ok? <==> c.Str?
    ensures r.Ok? ==> r.value == c.s
  {
    match c
    case Str(s) => Ok(s)
    case _ => Err(TypeError(column))
  }

  /** The value of `Number(v)`, restricted to integers: a finite integer, or NaN. */
  datatype Numeric = NaN | Finite(value: int)
  {
    /** Truthiness of a number: NaN and 0 are falsy. */
    predicate Truthy()
    {
      Finite? && value != 0
    }
  }

  /** `Number(s)` for a string: blank is 0, an optionally signed decimal numeral is its value, anything else NaN. */
  function ParseNumber(s: string): (r: Numeric)
    ensures Trim(s) == "" ==> r == Finite(0)
  {
    ParseNumeralText(Trim(s))
  }

  /** The value of trimmed numeric text. */
  function ParseNumeralText(t: string): Numeric
  {
    if t == "" then Finite(0)
    else if t[0] == '-' && |t| > 1 && AllDigits(t[1..]) then Finite(-(DigitsValue(t[1..]) as int))
    else if t[0] == '+' && |t| > 1 && AllDigits(t[1..]) then Finite(DigitsValue(t[1..]))
    else if AllDigits(t) then Finite(DigitsValue(t))
    else NaN
  }

  /** `Number(v)`. */
  function ToNumber(c: Cell): (r: Numeric)
    ensures c.Num? ==> r == Finite(c.n)
    ensures c.Blank? ==> r == NaN
  {
    match c
    case Blank => NaN
    case Str(s) => ParseNumber(s)
    case Num(n) => Finite(n)
    case Flag(b) => Finite(if b then 1 else 0)
  }

  lemma ParseNumeral(d: string)
    requires |d| >= 1 && AllDigits(d)
    ensures ParseNumber(d) == Finite(DigitsValue(d))
  {
    assert IsDigit(d[0]) && IsDigit(d[|d| - 1]);
    TrimNoop(d);
  }

  /** `Number(String(n)) === n` for a non-negative integer: rendering and reading back gives the integer. */
  lemma NumberOfString(n: nat)
    ensures ToNumber(Str(NatToString(n))) == Finite(n)
  {
    DigitsRoundTrip(n);
    ParseNumeral(NatToString(n));
  }
}

=== FILE: CleanupImages.dfy ===
/**
  scripts/cleanup-product-images.js: every product with more than one gallery
  image keeps only the first, which also becomes its primary image; a product
  with exactly one gallery image gets that image as its primary image. Each
  catalogue file is processed on its own and rewritten only when some
  product in it was cut down.
 */
module CleanupImages {
  import opened Wrappers
  import opened Seqs
  import opened Catalog

  /** `product.images && product.images.length > 1`. */
  predicate HasSeveral(p: Product)
  {
    p.images.Some? && |p.images.value| > 1
  }

  /** A product whose primary image is the first of a gallery of at most one. */
  predicate IsClean(p: Product)
  {
    p.images.Some? ==> |p.images.value| <= 1 && (|p.images.value| == 1 ==> p.image == p.images.value[0])
  }

  /** One product; the flag tells whether its gallery was cut down. */
  function Clean(p: Product): (r: (Product, bool))
    ensures r.1 <==> HasSeveral(p)
    ensures IsClean(r.0)
    ensures r.0 == p.(images := r.0.images, image := r.0.image)
    ensures p.images.Some? && |p.images.value| >= 1 ==>
              r.0.images == Some([p.images.value[0]]) && r.0.image == p.images.value[0]
    ensures p.images.None? || p.images == Some([]) ==> r.0 == p
  {
    match p.images
    case Some(xs) =>
      if |xs| > 1 then (p.(images := Some([xs[0]]), image := xs[0]), true)
      else if |xs| == 1 then
        assert xs == [xs[0]];
        (p.(image := xs[0]), false)
      else (p, false)
    case None => (p, false)
  }

  /** A clean product is left as it is. */
  lemma CleanKeepsClean(p: Product)
    requires IsClean(p)
    ensures Clean(p) == (p, false)
  {
    if p.images.Some? && |p.images.value| == 1 {
      assert p.images.value == [p.images.value[0]];
    }
  }

  /** Cleaning twice is cleaning once, and the second pass cuts nothing. */
  lemma CleanIdempotent(p: Product)
    ensures Clean(Clean(p).0) == (Clean(p).0, false)
  {
    CleanKeepsClean(Clean(p).0);
  }

  /** The products from `i` on, cleaned, and how many of them were cut down. */
  function CleanFrom(data: seq<Product>, i: nat): (r: (seq<Product>, nat))
    requires i <= |data|
    ensures |r.0| == |data| - i
    ensures forall k :: 0 <= k < |r.0| ==> r.0[k] == Clean(data[i + k]).0
    ensures r.1 == CountFrom(data, i, HasSeveral)
    decreases |data| - i
  {
    if i == |data| then ([], 0)
    else
      var rest := CleanFrom(data, i + 1);
      var (q, cut) := Clean(data[i]);
      ([q] + rest.0, (if cut then 1 else 0) + rest.1)
  }

  /** `data.forEach(...)` with its `cleaned` counter. */
  function CleanAll(data: seq<Product>): (r: (seq<Product>, nat))
    ensures |r.0| == |data|
    ensures forall k :: 0 <= k < |data| ==> r.0[k] == Clean(data[k]).0
    ensures r.1 == CountIf(data, HasSeveral)
  {
    CleanFrom(data, 0)
  }

  /** No product cut down means no product with several images. */
  lemma {:induction false} CountFromZero(data: seq<Product>, i: nat)
    requires i <= |data|
    ensures CountFrom(data, i, HasSeveral) == 0 <==> forall k :: i <= k < |data| ==> !HasSeveral(data[k])
    decreases |data| - i
  {
    if i < |data| {
      CountFromZero(data, i + 1);
    }
  }

  /** The file content after the run, as written: rewritten only when some product was cut down. */
  function SavedAsWritten(data: seq<Product>): (r: seq<Product>)
    ensures |r| == |data|
    ensures forall k :: 0 <= k < |r| ==> !HasSeveral(r[k])
    ensures forall k :: 0 <= k < |r| ==> r[k] == data[k] || r[k] == Clean(data[k]).0
    ensures (forall k :: 0 <= k < |data| ==> !HasSeveral(data[k])) ==> r == data
    ensures (exists k :: 0 <= k < |data| && HasSeveral(data[k])) ==> r == CleanAll(data).0
  {
    var (cleaned, n) := CleanAll(data);
    CountFromZero(data, 0);
    if n > 0 then cleaned else data
  }

  /**
    The file content after the run, corrected: rewritten whenever some
    product changed, so that the primary-image fix of a product with a
    single gallery image is kept too.
   */
  function Saved(data: seq<Product>): (r: seq<Product>)
    ensures |r| == |data|
    ensures forall k :: 0 <= k < |r| ==> IsClean(r[k])
    ensures forall k :: 0 <= k < |r| ==> r[k] == data[k].(images := r[k].images, image := r[k].image)
  {
    CleanAll(data).0
  }

  /** The two agree whenever some product had several images. */
  lemma SavedAgrees(data: seq<Product>)
    requires exists k :: 0 <= k < |data| && HasSeveral(data[k])
    ensures SavedAsWritten(data) == Saved(data)
  {
    CountFromZero(data, 0);
  }

  /**
    As written, a file whose only defect is a primary image that differs
    from its single gallery image is left unchanged.
   */
  lemma SingleImageFixLost(p: Product)
    requires p.images == Some([p.image + "x"])
    ensures SavedAsWritten([p]) == [p] && !IsClean(p)
    ensures Saved([p]) != [p]
  {
    var data := [p];
    assert !HasSeveral(p);
    CountFromZero(data, 0);
    assert Saved(data)[0].image == p.image + "x" != p.image;
  }

  /** Running the corrected cleanup twice gives what running it once gives. */
  lemma SavedIdempotent(data: seq<Product>)
    ensures Saved(Saved(data)) == Saved(data)
  {
    var once := Saved(data);
    forall k | 0 <= k < |once|
      ensures Saved(once)[k] == once[k]
    {
      CleanKeepsClean(once[k]);
    }
  }
}

=== FILE: Gallery.dfy ===
/**
  The gallery step of the storefront (Shop.jsx, lines 34-58): a product whose
  primary image follows the numbered pattern `/data/images/<base>_<n>.<ext>` gets
  the existing siblings `<base>_1` … `<base>_6` appended, and every gallery is
  padded to four entries with a placeholder. Whether a URL exists is an oracle.
 */
module Gallery {
  import opened Wrappers
  import opened Seqs
  import opened Text
  import opened Paths
  import opened Catalog

  /** The "No Image" SVG placeholder, as a data URI. */
  const Placeholder: string := "data:image/svg+xml;base64,PHN2ZyB3aWR0aD0iNjgiIGhlaWdodD0iNjgiIHZpZXdCb3g9IjAgMCA2OCA2OCIgeG1sbnM9Imh0dHA6Ly93d3cudzMub3JnLzIwMDAvc3ZnIj48cmVjdCB3aWR0aD0iMTAwJSIgaGVpZ2h0PSIxMDAlIiBmaWxsPSIjZGRkIi8+PHRleHQgeD0iNTAlIiB5PSI1MCUiIGZvbnQtc2l6ZT0iMTAiIGZpbGw9IiM5OTkiIHRleHQtYW5jaG9yPSJtaWRkbGUiIGR5PSIuM2VtIj5ObyBJbWFnZTwvdGV4dD48L3N2Zz4="

  /** The smallest gallery the storefront shows. */
  const MinImages: nat := 4

  /** The highest sibling number probed. */
  const MaxProbe: nat := 6

  // ---------------------------------------------------------------------------
  // The numbered-image pattern
  //   /(\/data\/images\/)([A-Za-z0-9\-]+?)_(\d+)\.(jpg|jpeg|png|webp)$/i
  // ---------------------------------------------------------------------------

  /** The class `[A-Za-z0-9\-]`. */
  predicate IsBaseChar(c: char)
  {
    IsUpper(c) || IsLower(c) || IsDigit(c) || c == '-'
  }

  /** `jpg|jpeg|png|webp`, matched without regard to case. */
  predicate IsNumberedExt(e: string)
  {
    Lower(e) in {"jpg", "jpeg", "png", "webp"}
  }

  /** The four groups of a match: the directory, the base, the number and the extension, as written. */
  datatype Numbered = Numbered(prefix: string, base: string, index: string, ext: string)

  predicate ValidNumbered(m: Numbered)
  {
    && Lower(m.prefix) == ImagesDir
    && |m.base| >= 1 && (forall i :: 0 <= i < |m.base| ==> IsBaseChar(m.base[i]))
    && |m.index| >= 1 && AllDigits(m.index)
    && IsNumberedExt(m.ext)
  }

  /** The text a match covers. */
  function Render(m: Numbered): string
  {
    m.prefix + m.base + "_" + m.index + "." + m.ext
  }

  /**
    The match of the pattern in `s`. The base, the number and the extension
    contain no '/', so a match must start 12 characters before the last '/' of
    `s`; the base contains no '_' and the number no '.', so the first '_' and the
    first '.' after that '/' end them.
   */
  function MatchNumbered(s: string): (r: Option<Numbered>)
    ensures r.Some? ==> ValidNumbered(r.value) && EndsWith(s, Render(r.value))
  {
    var k := LastIndexOf(s, '/');
    if k < 12 then None
    else
      var name := s[k + 1..];
      var u := IndexOf(name, '_');
      if u < 0 then None
      else
        var rest := name[u + 1..];
        var d := IndexOf(rest, '.');
        if d < 0 then None
        else
          var m := Numbered(s[k - 12..k + 1], name[..u], rest[..d], rest[d + 1..]);
          if ValidNumbered(m) then
            Reassemble(s, k, name, u, rest, d);
            Some(m)
          else None
  }

  lemma Reassemble(s: string, k: nat, name: string, u: nat, rest: string, d: nat)
    requires 12 <= k < |s| && name == s[k + 1..]
    requires u < |name| && name[u] == '_' && rest == name[u + 1..]
    requires d < |rest| && rest[d] == '.'
    ensures s[k - 12..] == s[k - 12..k + 1] + name[..u] + "_" + rest[..d] + "." + rest[d + 1..]
  {
    SplitAround(rest, d);
    SplitAround(name, u);
    assert s[k - 12..] == s[k - 12..k + 1] + name;
  }

  lemma ExtLetters(e: string)
    requires IsNumberedExt(e)
    ensures forall i :: 0 <= i < |e| ==> IsUpper(e[i]) || IsLower(e[i])
  {
    forall i | 0 <= i < |e|
      ensures IsUpper(e[i]) || IsLower(e[i])
    {
      assert IsLower(Lower(e)[i]);
    }
  }

  lemma PrefixShape(p: string)
    requires Lower(p) == ImagesDir
    ensures |p| == 13 && p[12] == '/'
  {
    assert |Lower(p)| == 13;
    assert Lower(p)[12] == '/';
  }

  /** Where the last '/' of a rendering sits, and what surrounds it. */
  lemma RenderSlash(pre: string, m: Numbered)
    requires ValidNumbered(m)
    ensures var s := pre + Render(m); var k := |pre| + 12;
      && LastIndexOf(s, '/') == k
      && s[k - 12..k + 1] == m.prefix
      && s[k + 1..] == m.base + "_" + (m.index + "." + m.ext)
  {
    PrefixShape(m.prefix);
    ExtLetters(m.ext);
    var rest := m.index + "." + m.ext;
    var name := m.base + "_" + rest;
    var x := pre + m.prefix;
    assert pre + Render(m) == x + name;
    assert forall i :: 0 <= i < |name| ==> name[i] != '/' by {
      assert forall i :: 0 <= i < |rest| ==> rest[i] != '/';
      assert forall i :: 0 <= i < |m.base| ==> name[i] == m.base[i];
      assert forall i :: |m.base| < i < |name| ==> name[i] == rest[i - |m.base| - 1];
    }
    LastIndexOfAppend(x, name, '/');
    assert (x + name)[|x| - 13..|x|] == m.prefix;
  }

  /** Every rendering of a well-formed match is matched again, with the same groups. */
  lemma MatchRender(pre: string, m: Numbered)
    requires ValidNumbered(m)
    ensures MatchNumbered(pre + Render(m)) == Some(m)
  {
    RenderSlash(pre, m);
    IndexOfSplit(m.base, '_', m.index + "." + m.ext);
    IndexOfSplit(m.index, '.', m.ext);
  }

  /** Sibling number `i` of a match: its number replaced, everything else as written. */
  function Candidate(m: Numbered, i: nat): string
  {
    Render(m.(index := NatToString(i)))
  }

  /** The siblings of a matched image are themselves matched, with their own number. */
  lemma CandidateMatches(m: Numbered, i: nat)
    requires ValidNumbered(m)
    ensures MatchNumbered(Candidate(m, i)) == Some(m.(index := NatToString(i)))
  {
    assert "" + Candidate(m, i) == Candidate(m, i);
    MatchRender("", m.(index := NatToString(i)));
  }

  // ---------------------------------------------------------------------------
  // Probing and padding
  // ---------------------------------------------------------------------------

  /** The siblings numbered 1 to 6 of a matched image, in probing order. */
  function Siblings(m: Numbered): (r: seq<string>)
    ensures |r| == MaxProbe
    ensures forall k :: 0 <= k < MaxProbe ==> r[k] == Candidate(m, k + 1)
  {
    seq(MaxProbe, k requires 0 <= k < MaxProbe => Candidate(m, k + 1))
  }

  /** The probe loop over siblings 1 to 6: each one that is not listed yet and exists is appended. */
  function Probe(imgs: seq<string>, m: Numbered, urlExists: string -> bool): (r: seq<string>)
    ensures imgs <= r
  {
    AppendNew(imgs, Siblings(m), urlExists)
  }

  /** Every entry the probe appends is an existing sibling not listed before it. */
  lemma ProbeAdds(imgs: seq<string>, m: Numbered, urlExists: string -> bool)
    ensures var r := Probe(imgs, m, urlExists);
      forall k :: |imgs| <= k < |r| ==>
        urlExists(r[k]) && r[k] !in r[..k] && exists j :: 1 <= j <= MaxProbe && r[k] == Candidate(m, j)
  {
    var sib := Siblings(m);
    var r := Probe(imgs, m, urlExists);
    assert r == AppendNew(imgs, sib, urlExists);
    AppendNewAdds(imgs, sib, urlExists);
    forall k | |imgs| <= k < |r|
      ensures urlExists(r[k]) && r[k] !in r[..k] && exists j :: 1 <= j <= MaxProbe && r[k] == Candidate(m, j)
    {
      assert FreshCandidate(r, k, sib, urlExists);
      var i :| 0 <= i < |sib| && sib[i] == r[k];
      assert r[k] == Candidate(m, i + 1);
    }
  }

  /** Every existing sibling is in the probed gallery. */
  lemma ProbeComplete(imgs: seq<string>, m: Numbered, urlExists: string -> bool, j: nat)
    requires 1 <= j <= MaxProbe && urlExists(Candidate(m, j))
    ensures Candidate(m, j) in Probe(imgs, m, urlExists)
  {
    var sib := Siblings(m);
    AppendNewComplete(imgs, sib, urlExists);
    assert sib[j - 1] == Candidate(m, j);
  }

  /** `while (imgs.length < 4) imgs.push(filler)`. */
  function Pad(imgs: seq<string>, filler: string): (r: seq<string>)
    ensures imgs <= r
    ensures |r| == if |imgs| < MinImages then MinImages else |imgs|
    ensures forall k :: |imgs| <= k < |r| ==> r[k] == filler
    decreases MinImages - |imgs|
  {
    if |imgs| < MinImages then Pad(imgs + [filler], filler) else imgs
  }

  /** The gallery built from a listed one, given the pattern match of the primary image, if any. */
  function Gallery(imgs: seq<string>, found: Option<Numbered>, urlExists: string -> bool, filler: string): (r: seq<string>)
    ensures imgs <= r && |r| >= MinImages
  {
    match found
    case Some(m) => Pad(Probe(imgs, m, urlExists), filler)
    case None => Pad(imgs, filler)
  }

  /** Without a pattern match, a gallery of four or more is kept as it is. */
  lemma GalleryUnmatched(imgs: seq<string>, urlExists: string -> bool, filler: string)
    requires |imgs| >= MinImages
    ensures Gallery(imgs, None, urlExists, filler) == imgs
  {
  }

  /** Example: without a pattern match or any image, the gallery is four fillers. */
  lemma GalleryBare(urlExists: string -> bool, filler: string)
    ensures Gallery([], None, urlExists, filler) == [filler, filler, filler, filler]
  {
    var r := Pad([], filler);
    assert |r| == 4 && forall k :: 0 <= k < 4 ==> r[k] == filler;
  }

  /**
    Every entry added to a gallery is the filler or an existing sibling of the
    matched image that was not listed before it.
   */
  lemma GalleryAdditions(imgs: seq<string>, found: Option<Numbered>, urlExists: string -> bool, filler: string)
    ensures var r := Gallery(imgs, found, urlExists, filler);
      forall k :: |imgs| <= k < |r| ==>
        || r[k] == filler
        || (urlExists(r[k]) && r[k] !in r[..k] && found.Some?
            && exists j :: 1 <= j <= MaxProbe && r[k] == Candidate(found.value, j))
  {
    if found.Some? {
      var probed := Probe(imgs, found.value, urlExists);
      ProbeAdds(imgs, found.value, urlExists);
      var r := Pad(probed, filler);
      assert forall k :: 0 <= k < |probed| ==> r[k] == probed[k] && r[..k] == probed[..k];
    }
  }

  /** Every existing sibling of the matched image ends up in the gallery. */
  lemma GalleryComplete(imgs: seq<string>, m: Numbered, urlExists: string -> bool, filler: string, j: nat)
    requires 1 <= j <= MaxProbe && urlExists(Candidate(m, j))
    ensures Candidate(m, j) in Gallery(imgs, Some(m), urlExists, filler)
  {
    var probed := Probe(imgs, m, urlExists);
    ProbeComplete(imgs, m, urlExists, j);
    assert Candidate(m, j) in probed;
    assert forall k :: 0 <= k < |probed| ==> Pad(probed, filler)[k] == probed[k];
  }

  /** The gallery the product starts from: its `images` array, or none. */
  function Listed(p: Product): seq<string>
  {
    p.images.GetOr([])
  }

  /** `product.image || imgs[0] || ''`: the image whose name is tested against the pattern. */
  function Primary(p: Product): string
  {
    if p.image != "" then p.image else if |Listed(p)| > 0 then Listed(p)[0] else ""
  }

  /** The product with its expanded, padded gallery; nothing else changes. */
  function Expand(p: Product, urlExists: string -> bool, filler: string): (q: Product)
    ensures q.images.Some? && q == p.(images := q.images)
    ensures Listed(p) <= q.images.value && |q.images.value| >= MinImages
  {
    p.(images := Some(Gallery(Listed(p), MatchNumbered(Primary(p)), urlExists, filler)))
  }

  /** Expanding again a product that had an image and no pattern match changes nothing more. */
  lemma ExpandStable(p: Product, urlExists: string -> bool, filler: string)
    requires Primary(p) != "" && MatchNumbered(Primary(p)).None?
    ensures Expand(Expand(p, urlExists, filler), urlExists, filler) == Expand(p, urlExists, filler)
  {
    var q := Expand(p, urlExists, filler);
    if p.image == "" {
      assert Listed(q)[0] == Listed(p)[0];
    }
    assert Primary(q) == Primary(p);
  }

  /**
    The storefront's expansion of the whole catalogue, product by product, in
    order: every product keeps all its fields but `images`, its listed images
    stay a prefix of its gallery, and every gallery has at least four entries.
   */
  function ExpandAll(catalog: seq<Product>, urlExists: string -> bool): (r: seq<Product>)
    ensures |r| == |catalog|
    ensures forall k :: 0 <= k < |r| ==> r[k] == Expand(catalog[k], urlExists, Placeholder)
    ensures forall k :: 0 <= k < |r| ==> r[k].images.Some? && r[k] == catalog[k].(images := r[k].images)
    ensures forall k :: 0 <= k < |r| ==> Listed(catalog[k]) <= r[k].images.value && |r[k].images.value| >= MinImages
  {
    seq(|catalog|, k requires 0 <= k < |catalog| => Expand(catalog[k], urlExists, Placeholder))
  }
}

=== FILE: ImportProducts.dfy ===
/**
  scripts/import-products.js: the rows of a CSV file or of an Excel workbook
  become the catalogue's products. Each row is normalised field by field with
  JavaScript's `||` defaults; its images are either linked where they are
  (kept when they are web addresses or existing files) or copied into the
  public image directory under names derived from the product's slug.
 */
module ImportProducts {
  import opened Wrappers
  import opened Text
  import opened Seqs
  import opened Paths
  import opened Cells
  import opened Catalog
  import opened Slugs

  // ---------------------------------------------------------------------------
  // Reading a workbook
  // ---------------------------------------------------------------------------

  /** The categories given to the rows of the first, second and third sheet. */
  const SheetCategories: seq<string> := ["jewelries", "clothings", "drinks"]

  /** The rows of one sheet, each with its `category` column overwritten. */
  function Categorized(rows: seq<Row>, category: string): (r: seq<Row>)
    ensures |r| == |rows|
    ensures forall i :: 0 <= i < |r| ==> Get(r[i], "category") == Str(category)
    ensures forall i, column :: 0 <= i < |r| && column != "category" ==> Get(r[i], column) == Get(rows[i], column)
  {
    seq(|rows|, i requires 0 <= i < |rows| => rows[i]["category" := Str(category)])
  }

  /** The rows of the first `n` sheets, sheet after sheet. */
  function SheetRows(sheets: seq<seq<Row>>, n: nat): (rows: seq<Row>)
    requires n <= |sheets| && n <= |SheetCategories|
    ensures forall i :: 0 <= i < |rows| ==> exists k :: 0 <= k < n && Get(rows[i], "category") == Str(SheetCategories[k])
    decreases n
  {
    if n == 0 then []
    else
      var before := SheetRows(sheets, n - 1);
      var last := Categorized(sheets[n - 1], SheetCategories[n - 1]);
      assert forall i :: |before| <= i < |before| + |last| ==> (before + last)[i] == last[i - |before|];
      before + last
  }

  /**
    The rows of an Excel workbook: those of the first three sheets, in order,
    categorised by their sheet; any further sheet is not read.
   */
  function WorkbookRows(sheets: seq<seq<Row>>): (rows: seq<Row>)
    ensures forall i :: 0 <= i < |rows| ==> exists k :: 0 <= k < |SheetCategories| && Get(rows[i], "category") == Str(SheetCategories[k])
  {
    SheetRows(sheets, if |sheets| < |SheetCategories| then |sheets| else |SheetCategories|)
  }

  lemma {:induction false} SheetRowsPrefix(sheets: seq<seq<Row>>, more: seq<seq<Row>>, n: nat)
    requires n <= |sheets| && n <= |SheetCategories|
    ensures SheetRows(sheets + more, n) == SheetRows(sheets, n)
    decreases n
  {
    if n > 0 {
      SheetRowsPrefix(sheets, more, n - 1);
      assert (sheets + more)[n - 1] == sheets[n - 1];
    }
  }

  /** Sheets after the third never contribute rows. */
  lemma WorkbookIgnoresLaterSheets(sheets: seq<seq<Row>>, more: seq<seq<Row>>)
    requires |sheets| >= |SheetCategories|
    ensures WorkbookRows(sheets + more) == WorkbookRows(sheets)
  {
    SheetRowsPrefix(sheets, more, |SheetCategories|);
  }

  /** A workbook with a single sheet gives that sheet's rows, categorised as jewelries. */
  lemma WorkbookOneSheet(rows: seq<Row>)
    ensures WorkbookRows([rows]) == Categorized(rows, "jewelries")
  {
    assert SheetRows([rows], 0) == [];
    assert [] + Categorized(rows, "jewelries") == Categorized(rows, "jewelries");
  }

  // ---------------------------------------------------------------------------
  // Normalising a row
  // ---------------------------------------------------------------------------

  /** Whether `(r[column] || '')` has the string methods the script calls on it. */
  predicate Readable(row: Row, column: string)
  {
    !Truthy(Get(row, column)) || Get(row, column).Str?
  }

  /** `(r[column] || fallback)` as the receiver of `.trim()`, `.toLowerCase()` or `.toUpperCase()`. */
  function TextField(row: Row, column: string, fallback: string): (r: Result<string, ScriptError>)
    ensures r.Ok? <==> Readable(row, column)
    ensures r.Err? ==> r.error == TypeError(column)
    ensures !Truthy(Get(row, column)) ==> r == Ok(fallback)
    ensures Truthy(Get(row, column)) && r.Ok? ==> r.value == Get(row, column).s && r.value != ""
  {
    AsString(Or(Get(row, column), Str(fallback)), column)
  }

  /** `String(r.id || (i + 1))`: the row's own id, or its 1-based position. */
  function ProductId(row: Row, i: nat): (id: string)
    ensures id != ""
    ensures !Truthy(Get(row, "id")) ==> id == NatToString(i + 1)
    ensures Get(row, "id").Str? && Truthy(Get(row, "id")) ==> id == Get(row, "id").s
  {
    var c := Or(Get(row, "id"), Num(i + 1));
    assert c.Num? ==> |NatToString(if c.n < 0 then -c.n else c.n)| >= 1;
    ToStr(c)
  }

  /** Rows without an id of their own never share one. */
  lemma ProductIdsDistinct(a: Row, i: nat, b: Row, j: nat)
    requires !Truthy(Get(a, "id")) && !Truthy(Get(b, "id")) && i != j
    ensures ProductId(a, i) != ProductId(b, j)
  {
    if NatToString(i + 1) == NatToString(j + 1) {
      NatToStringInjective(i + 1, j + 1);
    }
  }

  /** The slug: the given one trimmed, or, when that is blank, one derived from the name. */
  function SlugOf(row: Row): (r: Result<string, ScriptError>)
    requires Readable(row, "name")
    ensures r.Ok? <==> Readable(row, "slug")
    ensures r.Err? ==> r.error == TypeError("slug")
    ensures r.Ok? && Trim(TextField(row, "slug", "").value) != "" ==> r.value == Trim(TextField(row, "slug", "").value)
    ensures r.Ok? && Trim(TextField(row, "slug", "").value) == "" ==> IsSlug(r.value)
  {
    var given := TextField(row, "slug", "");
    if given.Err? then Err(given.error)
    else if Trim(given.value) != "" then Ok(Trim(given.value))
    else Ok(Slugify(TextField(row, "name", "").value))
  }

  /** A row with no slug gets the slug of its name. */
  lemma SlugOfName(row: Row, name: string)
    requires Get(row, "name") == Str(name) && !Truthy(Get(row, "slug"))
    ensures SlugOf(row) == Ok(Slugify(name))
  {
    TrimNoop("");
    var n := TextField(row, "name", "").value;
    assert n == name;
    assert SlugOf(row).value == Slugify(n);
  }

  /** A slug given in slug shape is kept as it is. */
  lemma SlugOfGiven(row: Row, slug: string)
    requires Readable(row, "name") && Get(row, "slug") == Str(slug) && slug != "" && IsSlug(slug)
    ensures SlugOf(row) == Ok(slug)
  {
    assert !IsSpace(slug[0]) && !IsSpace(slug[|slug| - 1]);
    TrimNoop(slug);
  }

  predicate NoLower(s: string)
  {
    forall i :: 0 <= i < |s| ==> !IsLower(s[i])
  }

  /** `(r.currency || 'NGN').toUpperCase()`. */
  function CurrencyOf(row: Row): (r: Result<string, ScriptError>)
    ensures r.Ok? <==> Readable(row, "currency")
    ensures r.Err? ==> r.error == TypeError("currency")
    ensures r.Ok? ==> NoLower(r.value) && |r.value| == |TextField(row, "currency", "NGN").value|
    ensures !Truthy(Get(row, "currency")) ==> r == Ok("NGN")
  {
    var c := TextField(row, "currency", "NGN");
    assert Upper("NGN") == "NGN";
    if c.Err? then Err(c.error) else Ok(Upper(c.value))
  }

  /** A currency code already in upper case is kept. */
  lemma CurrencyKept(row: Row, code: string)
    requires Get(row, "currency") == Str(code) && code != "" && NoLower(code)
    ensures CurrencyOf(row) == Ok(code)
  {
    assert Upper(code) == code;
  }

  /** `String(c || '').toLowerCase() === 'true'`. */
  function Featured(c: Cell): bool
  {
    Lower(ToStr(Or(c, Str("")))) == "true"
  }

  /** Only `true` and the text "true" in any letter case mark a product as featured. */
  lemma FeaturedCases(c: Cell)
    ensures c.Flag? ==> (Featured(c) <==> c.b)
    ensures c.Str? ==> (Featured(c) <==> Lower(c.s) == "true")
    ensures c.Num? || c.Blank? ==> !Featured(c)
  {
    LowerSpec("true");
    match c
    case Num(n) =>
      if n != 0 {
        var s := IntToString(n);
        assert IsDigit(s[0]) || s[0] == '-';
        assert Lower(s)[0] == s[0];
      }
    case Flag(b) =>
      if !b {
        assert Lower("") == "";
      }
    case Str(s) =>
      if s == "" {
        assert Lower("") == "";
      }
    case Blank =>
      assert Lower("") == "";
  }

  predicate IsTagSep(c: char) { c == ',' || c == ';' }

  /**
    `typeof r.tags === 'string' && r.tags.length ? r.tags.split(/[,;]+/).map(s => s.trim()) : []`.
    Empty tags are kept: a leading or trailing separator, or a blank between
    two separators, yields "".
   */
  function Tags(c: Cell): (tags: seq<string>)
    ensures !(c.Str? && c.s != "") ==> tags == []
    ensures c.Str? && c.s != "" ==> |tags| == |SplitRuns(c.s, IsTagSep)|
    ensures AllNoneOf(tags, IsTagSep) && forall k :: 0 <= k < |tags| ==> Trimmed(tags[k])
  {
    if c.Str? && c.s != "" then
      var pieces := SplitRuns(c.s, IsTagSep);
      TrimEachNoneOf(pieces, IsTagSep);
      TrimEach(pieces)
    else []
  }

  /** Tags written as a comma-separated list are read back as they were written. */
  lemma TagsJoin(tags: seq<string>)
    requires |tags| >= 1 && AllNoneOf(tags, IsTagSep)
    requires forall k :: 0 <= k < |tags| ==> tags[k] != "" && Trimmed(tags[k])
    ensures Tags(Str(Join(tags, ','))) == tags
  {
    SplitRunsJoin(tags, ',', IsTagSep);
    JoinLength(tags, ',');
    TrimEachNoop(tags);
  }

  lemma {:induction false} JoinLength(pieces: seq<string>, sep: char)
    requires |pieces| >= 1
    ensures |Join(pieces, sep)| >= |pieces[0]|
    decreases |pieces|
  {
    if |pieces| > 1 {
      JoinLength(pieces[1..], sep);
    }
  }

  /**
    The columns the script calls a string method on, in the order it reads
    them: the five fields of the product literal, then `image`, which
    `collectImageSources` trims for every row.
   */
  const TextColumns: seq<string> := ["name", "slug", "currency", "description", "category", "image"]

  /** Every column the script calls a string method on holds a string or a falsy value. */
  predicate RowReadable(row: Row)
  {
    && Readable(row, "name") && Readable(row, "slug") && Readable(row, "currency")
    && Readable(row, "description") && Readable(row, "category") && Readable(row, "image")
  }

  /** A row is readable exactly when every column of the list is. */
  lemma RowReadableColumns(row: Row)
    ensures RowReadable(row) <==> forall k :: 0 <= k < |TextColumns| ==> Readable(row, TextColumns[k])
  {
    var cs := TextColumns;
    assert cs[0] == "name" && cs[1] == "slug" && cs[2] == "currency";
    assert cs[3] == "description" && cs[4] == "category" && cs[5] == "image";
  }

  /** The position of the first column from `from` on that is not readable, if any. */
  function FirstUnreadable(row: Row, from: nat): (k: Option<nat>)
    requires from <= |TextColumns|
    ensures k.None? <==> forall j :: from <= j < |TextColumns| ==> Readable(row, TextColumns[j])
    ensures k.Some? ==> && from <= k.value < |TextColumns|
                        && !Readable(row, TextColumns[k.value])
                        && forall j :: from <= j < k.value ==> Readable(row, TextColumns[j])
    decreases |TextColumns| - from
  {
    if from == |TextColumns| then None
    else if !Readable(row, TextColumns[from]) then Some(from)
    else FirstUnreadable(row, from + 1)
  }

  /** The fields of a product as the script first fills them, before any image is attached. */
  function Fields(row: Row, i: nat): (p: Product)
    requires RowReadable(row)
    ensures p.id != "" && p.image == "" && p.images == Some([])
    ensures NoLower(p.currency)
    ensures Trim(TextField(row, "slug", "").value) == "" ==> IsSlug(p.slug)
  {
    var name := TextField(row, "name", "").value;
    var slug := SlugOf(row).value;
    var currency := CurrencyOf(row).value;
    var description := TextField(row, "description", "").value;
    var category := TextField(row, "category", "").value;
    Product(
      id := ProductId(row, i),
      name := Trim(name),
      slug := slug,
      price := ToNumber(Or(Get(row, "price"), Num(0))),
      currency := currency,
      image := "",
      images := Some([]),
      description := Trim(description),
      category := Trim(category),
      featured := Featured(Get(row, "featured")),
      inventory := ToNumber(Or(Get(row, "inventory"), Num(0))),
      tags := Tags(Get(row, "tags")))
  }

  /**
    One row, or the `TypeError` of the first column (in the order the script
    reads them) that holds a non-string truthy value.
   */
  function NormalizeRow(row: Row, i: nat): (r: Result<Product, ScriptError>)
    ensures r.Ok? <==> RowReadable(row)
    ensures r.Ok? ==> r.value == Fields(row, i)
    ensures r.Err? ==> exists k :: 0 <= k < |TextColumns| && r.error == TypeError(TextColumns[k])
                                   && !Readable(row, TextColumns[k])
                                   && forall j :: 0 <= j < k ==> Readable(row, TextColumns[j])
  {
    RowReadableColumns(row);
    match FirstUnreadable(row, 0)
    case Some(k) => Err(TypeError(TextColumns[k]))
    case None => Ok(Fields(row, i))
  }

  /** A row that leaves price and inventory blank gets 0 for both, never NaN. */
  lemma BlankNumbersAreZero(row: Row, i: nat)
    requires RowReadable(row)
    requires !Truthy(Get(row, "price")) && !Truthy(Get(row, "inventory"))
    ensures Fields(row, i).price == Finite(0) && Fields(row, i).inventory == Finite(0)
  {
  }

  /** The rows' outcomes, row `i` normalised with its position `i`. */
  function Outcomes(rows: seq<Row>): (rs: seq<Result<Product, ScriptError>>)
    ensures |rs| == |rows| && forall i :: 0 <= i < |rows| ==> rs[i] == NormalizeRow(rows[i], i)
  {
    seq(|rows|, i requires 0 <= i < |rows| => NormalizeRow(rows[i], i))
  }

  /**
    All rows, as `Promise.all` over them: the products in row order, or the
    error of the first row (in order) whose normalisation throws.
   */
  function NormalizeAll(rows: seq<Row>): (r: Result<seq<Product>, ScriptError>)
    ensures r.Ok? <==> forall i :: 0 <= i < |rows| ==> RowReadable(rows[i])
    ensures r.Ok? ==> |r.value| == |rows| && forall i :: 0 <= i < |rows| ==> r.value[i] == Fields(rows[i], i)
    ensures r.Err? ==> exists i :: 0 <= i < |rows| && NormalizeRow(rows[i], i) == Err(r.error)
                                   && forall j :: 0 <= j < i ==> RowReadable(rows[j])
  {
    All(Outcomes(rows))
  }

  /** Rows that carry no id of their own get pairwise distinct ids, whatever the other rows hold. */
  lemma ImportedIdsDistinct(rows: seq<Row>, i: nat, j: nat)
    requires NormalizeAll(rows).Ok?
    requires i < j < |rows| && !Truthy(Get(rows[i], "id")) && !Truthy(Get(rows[j], "id"))
    ensures NormalizeAll(rows).value[i].id != NormalizeAll(rows).value[j].id
  {
    ProductIdsDistinct(rows[i], i, rows[j], j);
    assert NormalizeAll(rows).value[i] == Fields(rows[i], i);
    assert NormalizeAll(rows).value[j] == Fields(rows[j], j);
  }

  // ---------------------------------------------------------------------------
  // Linking images in place
  // ---------------------------------------------------------------------------

  /** `/^https?:\/\//i`. */
  predicate IsWebAddress(s: string)
  {
    StartsWith(Lower(s), "http://") || StartsWith(Lower(s), "https://")
  }

  /** `typeof r.image === 'string' ? r.image.trim() : ''`. */
  function RawImage(c: Cell): (r: string)
    ensures c.Str? ==> r == Trim(c.s)
    ensures !c.Str? ==> r == ""
  {
    if c.Str? then Trim(c.s) else ""
  }

  /**
    Without `--copy-images`: the gallery keeps, in order, the sources that are
    web addresses or existing files; the primary image is the first of them,
    or the row's own image text when there is none.
   */
  function LinkImages(p: Product, rawImage: Cell, sources: seq<string>, fileExists: string -> bool): (q: Product)
    ensures q.images.Some?
    ensures forall k :: 0 <= k < |q.images.value| ==> q.images.value[k] in sources
    ensures forall k :: 0 <= k < |q.images.value| ==> IsWebAddress(q.images.value[k]) || fileExists(q.images.value[k])
    ensures forall k :: 0 <= k < |sources| && (IsWebAddress(sources[k]) || fileExists(sources[k])) ==> sources[k] in q.images.value
    ensures |q.images.value| > 0 && q.images.value[0] != "" ==> q.image == q.images.value[0]
    ensures (|q.images.value| == 0 || q.images.value[0] == "") ==> q.image == RawImage(rawImage)
    ensures q == p.(image := q.image, images := q.images)
  {
    WithGallery(p, Filter(sources, (s: string) => IsWebAddress(s) || fileExists(s)), RawImage(rawImage))
  }

  /** `p.images = images; p.image = images[0] || fallback`. */
  function WithGallery(p: Product, images: seq<string>, fallback: string): (q: Product)
    ensures q.images == Some(images)
    ensures |images| > 0 && images[0] != "" ==> q.image == images[0]
    ensures (|images| == 0 || images[0] == "") ==> q.image == fallback
    ensures q == p.(images := q.images, image := q.image)
  {
    p.(images := Some(images), image := if |images| > 0 && images[0] != "" then images[0] else fallback)
  }

  /** With no usable source, a linked product keeps the image text of its row. */
  lemma LinkNothing(p: Product, rawImage: Cell, sources: seq<string>, fileExists: string -> bool)
    requires forall k :: 0 <= k < |sources| ==> !IsWebAddress(sources[k]) && !fileExists(sources[k])
    ensures LinkImages(p, rawImage, sources, fileExists).images == Some([])
    ensures LinkImages(p, rawImage, sources, fileExists).image == RawImage(rawImage)
  {
    FilterNone(sources, (s: string) => IsWebAddress(s) || fileExists(s));
  }

  // ---------------------------------------------------------------------------
  // Copying images into the public image directory
  // ---------------------------------------------------------------------------

  /** The class `[a-z0-9-_]` a copied file's base name is made of. */
  predicate IsFileChar(c: char) { IsLowerAlnum(c) || c == '-' || c == '_' }

  /**
    `(slug || id).toLowerCase().replace(/[^a-z0-9-_]+/g, '-').replace(/(^-|-$)/g, '') || id`:
    the base of every file name copied for a product.
   */
  function BaseForFilename(slug: string, id: string): (r: string)
    ensures id != "" ==> r != ""
    ensures r == id || forall k :: 0 <= k < |r| ==> IsFileChar(r[k])
  {
    var t := StripDashEnds(ReplaceRuns(Lower(if slug != "" then slug else id), IsFileChar, '-'));
    if t != "" then t else id
  }

  /** A slug derived by the script is used unchanged as the file name base. */
  lemma BaseOfSlug(slug: string, id: string)
    requires slug != "" && IsSlug(slug)
    ensures BaseForFilename(slug, id) == slug
  {
    assert NoUpper(slug);
    LowerSpec(slug);
    ReplaceRunsNoop(slug, IsFileChar, '-');
    assert slug[0] != '-' && slug[|slug| - 1] != '-';
  }

  /** `idx === 0 ? '' : `(${idx})``. */
  function Suffix(idx: nat): string
  {
    if idx == 0 then "" else "(" + NatToString(idx) + ")"
  }

  /**
    The file name of the product's `idx`-th source: the base, the position
    suffix and the extension (".jpg" when none). Only the first source's
    name carries no suffix.
   */
  function CopyFilename(base: string, idx: nat, ext: string): (r: string)
    ensures StartsWith(r, base)
    ensures EndsWith(r, if ext != "" then ext else ".jpg")
    ensures idx == 0 <==> |r| == |base| + |if ext != "" then ext else ".jpg"|
  {
    base + Suffix(idx) + (if ext != "" then ext else ".jpg")
  }

  /** Two sources of one product with the same extension never get the same file name. */
  lemma CopyFilenamesDistinct(base: string, ext: string, i: nat, j: nat)
    requires i != j
    ensures CopyFilename(base, i, ext) != CopyFilename(base, j, ext)
  {
    var e := if ext != "" then ext else ".jpg";
    if CopyFilename(base, i, ext) == CopyFilename(base, j, ext) {
      MiddleEqual(base, Suffix(i), Suffix(j), e);
      if i > 0 && j > 0 {
        MiddleEqual("(", NatToString(i), NatToString(j), ")");
        NatToStringInjective(i, j);
      }
    }
  }

  /** `path.extname` of a path: the extension of its last segment. */
  function PathExt(p: string): string
  {
    ExtName(BaseName(p))
  }

  /**
    The extension of a copied file: the source's own; for a web address
    without one, that of its URL's path (`urlPathExt`, "" when the address
    does not parse), else ".jpg".
   */
  function SourceExt(src: string, urlPathExt: string -> string): (e: string)
    ensures PathExt(src) != "" ==> e == PathExt(src)
    ensures PathExt(src) == "" && !IsWebAddress(src) ==> e == ""
  {
    var e := PathExt(src);
    if e == "" && IsWebAddress(src) then (if urlPathExt(src) != "" then urlPathExt(src) else ".jpg") else e
  }

  /** `path.join(dir, name)`, without the normalisation of `.` and `..` segments. */
  function JoinPath(dir: string, name: string): string
  {
    dir + "/" + name
  }

  /** `${base}-${i}${ext}`, where `name` is `base + ext`. */
  function NumberedName(name: string, i: nat): string
  {
    Stem(name) + "-" + NatToString(i) + ExtName(name)
  }

  lemma NumberedDistinct(dir: string, name: string, i: nat, j: nat)
    requires i != j
    ensures JoinPath(dir, NumberedName(name, i)) != JoinPath(dir, NumberedName(name, j))
  {
    var p := dir + "/" + Stem(name) + "-";
    assert JoinPath(dir, NumberedName(name, i)) == p + NatToString(i) + ExtName(name);
    assert JoinPath(dir, NumberedName(name, j)) == p + NatToString(j) + ExtName(name);
    if p + NatToString(i) + ExtName(name) == p + NatToString(j) + ExtName(name) {
      MiddleEqual(p, NatToString(i), NatToString(j), ExtName(name));
      NatToStringInjective(i, j);
    }
  }

  /**
    `uniqueDest(dir, name)`: the path for `name` in `dir` when no file is
    there, otherwise the first of `base-1.ext`, `base-2.ext`, … that is free.
    `taken` is the set of paths that exist.
   */
  method UniqueDest(taken: set<string>, dir: string, name: string) returns (dest: string)
    ensures dest !in taken
    ensures JoinPath(dir, name) !in taken ==> dest == JoinPath(dir, name)
    ensures JoinPath(dir, name) in taken ==>
              exists i :: i >= 1 && dest == JoinPath(dir, NumberedName(name, i))
                          && forall j :: 1 <= j < i ==> JoinPath(dir, NumberedName(name, j)) in taken
  {
    dest := JoinPath(dir, name);
    if dest in taken {
      var path := (i: nat) => JoinPath(dir, NumberedName(name, i));
      forall a: nat, b: nat | a != b
        ensures path(a) != path(b)
      {
        NumberedDistinct(dir, name, a, b);
      }
      var i := FirstFree(taken, path);
      dest := path(i);
      assert forall j :: 1 <= j < i ==> JoinPath(dir, NumberedName(name, j)) == path(j);
      assert dest == JoinPath(dir, NumberedName(name, i));
    }
  }

  /**
    The first of `f(1)`, `f(2)`, … outside `taken`. The names are distinct
    and `taken` is finite, so the search ends.
   */
  method FirstFree<T(==)>(taken: set<T>, f: nat -> T) returns (i: nat)
    requires forall a: nat, b: nat :: a != b ==> f(a) != f(b)
    ensures i >= 1 && f(i) !in taken
    ensures forall j :: 1 <= j < i ==> f(j) in taken
  {
    i := 1;
    ghost var seen: set<T> := {};
    while f(i) in taken
      invariant i >= 1 && seen <= taken && |seen| == i - 1
      invariant forall j :: 1 <= j < i ==> f(j) in seen
      invariant forall x :: x in seen ==> exists j :: 1 <= j < i && x == f(j)
      decreases |taken| - |seen|
    {
      assert f(i) !in seen;
      SubsetCard(seen + {f(i)}, taken);
      seen := seen + {f(i)};
      i := i + 1;
    }
  }

  lemma SubsetCard<T>(a: set<T>, b: set<T>)
    requires a <= b
    ensures |a| <= |b|
  {
    assert b == a + (b - a);
  }

  /** `path.posix.join('/data/images', path.basename(dest))`: the public URL of a copied file. */
  function PublicUrl(dest: string): string
  {
    ImagesDir + BaseName(dest)
  }

  /** The paths of a sequence, as a set. */
  function Elems(xs: seq<string>): (r: set<string>)
    ensures forall x :: x in r <==> x in xs
  {
    set x | x in xs
  }

  /**
    `dest` is the result of `uniqueDest(dir, name)` when the paths in `taken`
    exist: the path for `name` when it is free, otherwise the first free of
    `base-1.ext`, `base-2.ext`, ….
   */
  ghost predicate UniqueFor(dest: string, taken: set<string>, dir: string, name: string)
  {
    && dest !in taken
    && (JoinPath(dir, name) !in taken ==> dest == JoinPath(dir, name))
    && (JoinPath(dir, name) in taken ==>
          exists i :: i >= 1 && dest == JoinPath(dir, NumberedName(name, i))
                      && forall j :: 1 <= j < i ==> JoinPath(dir, NumberedName(name, j)) in taken)
  }

  /**
    `dest` is where the script writes the copy named `name`: the path for the
    name with `--overwrite-images`, the `uniqueDest` result otherwise.
   */
  ghost predicate Placed(dest: string, taken: set<string>, dir: string, name: string, overwrite: bool)
  {
    if overwrite then dest == JoinPath(dir, name) else UniqueFor(dest, taken, dir, name)
  }

  /** The file names of the copies of the sources from position `idx` on that can be fetched, in source order. */
  function CopyNames(base: string, sources: seq<string>, idx: nat, fetched: string -> bool, urlPathExt: string -> string): (r: seq<string>)
    requires idx <= |sources|
    ensures |r| == CountFrom(sources, idx, fetched)
    decreases |sources| - idx
  {
    if idx == |sources| then []
    else
      (if fetched(sources[idx]) then [CopyFilename(base, idx, SourceExt(sources[idx], urlPathExt))] else [])
      + CopyNames(base, sources, idx + 1, fetched, urlPathExt)
  }

  /**
    The paths of the copies in the import folder `importDir` for the given
    file names: each name as it is, never renamed, so a later copy with the
    same name overwrites an earlier one.
   */
  function Staged(importDir: string, names: seq<string>): (r: seq<string>)
    ensures |r| == |names|
    ensures forall k :: 0 <= k < |r| ==> r[k] == JoinPath(importDir, names[k])
  {
    seq(|names|, k requires 0 <= k < |names| => JoinPath(importDir, names[k]))
  }

  /** The import-folder copies of two runs of names, one after the other, are those of the joined run. */
  lemma StagedAppend(importDir: string, a: seq<string>, b: seq<string>, sa: seq<string>, sb: seq<string>)
    requires sa == Staged(importDir, a) && sb == Staged(importDir, b)
    ensures sa + sb == Staged(importDir, a + b)
  {
  }

  /**
    With `--copy-images`: each source that can be fetched (`fetched`: the
    download succeeds or the local file exists) is copied to the public
    image directory `publicDir`, where `present` are the paths already taken;
    sources that fail are skipped. `written` are the paths written, in source
    order: the `k`-th is placed for the `k`-th name of `CopyNames`, with the
    paths present and those written before it taken. `after` are the paths
    taken afterwards. Without `--overwrite-images` no existing file and no
    earlier copy is overwritten. Each source is first copied, under its plain
    file name, into the import folder `importDir`: `staged` are those paths.
   */
  method CopyFiles(base: string, sources: seq<string>, idx: nat, fetched: string -> bool, urlPathExt: string -> string,
                   importDir: string, publicDir: string, present: set<string>, overwrite: bool)
    returns (staged: seq<string>, written: seq<string>, after: set<string>)
    requires idx <= |sources|
    ensures staged == Staged(importDir, CopyNames(base, sources, idx, fetched, urlPathExt))
    ensures |written| == CountFrom(sources, idx, fetched)
    ensures forall k :: 0 <= k < |written| ==>
              Placed(written[k], present + Elems(written[..k]), publicDir, CopyNames(base, sources, idx, fetched, urlPathExt)[k], overwrite)
    ensures forall x :: x in after <==> x in present || x in written
    ensures !overwrite ==> NoDuplicates(written) && forall k :: 0 <= k < |written| ==> written[k] !in present
    decreases |sources| - idx
  {
    if idx == |sources| {
      staged, written, after := [], [], present;
    } else {
      var stagedFirst, first, taken := CopyOne(base, sources[idx], idx, fetched, urlPathExt, importDir, publicDir, present, overwrite);
      var stagedRest, rest;
      stagedRest, rest, after := CopyFiles(base, sources, idx + 1, fetched, urlPathExt, importDir, publicDir, taken, overwrite);
      staged := stagedFirst + stagedRest;
      if !overwrite {
        JoinFresh(first, rest, present, taken);
      }
      written := first + rest;
      var heads := if fetched(sources[idx]) then [CopyFilename(base, idx, SourceExt(sources[idx], urlPathExt))] else [];
      var tail := CopyNames(base, sources, idx + 1, fetched, urlPathExt);
      assert CopyNames(base, sources, idx, fetched, urlPathExt) == heads + tail;
      PlacedJoin(first, rest, present, taken, publicDir, heads, tail, overwrite);
      StagedAppend(importDir, heads, tail, stagedFirst, stagedRest);
    }
  }

  /**
    A copy placed first followed by copies placed with it taken are all
    placed in turn.
   */
  lemma PlacedJoin(first: seq<string>, rest: seq<string>, present: set<string>, taken: set<string>,
                   dir: string, heads: seq<string>, tail: seq<string>, overwrite: bool)
    requires |first| <= 1 && |heads| == |first| && |tail| == |rest|
    requires forall x :: x in taken <==> x in present || x in first
    requires forall k :: 0 <= k < |first| ==> Placed(first[k], present, dir, heads[k], overwrite)
    requires forall k :: 0 <= k < |rest| ==> Placed(rest[k], taken + Elems(rest[..k]), dir, tail[k], overwrite)
    ensures forall k :: 0 <= k < |first + rest| ==>
              Placed((first + rest)[k], present + Elems((first + rest)[..k]), dir, (heads + tail)[k], overwrite)
  {
    var w := first + rest;
    var names := heads + tail;
    forall k | 0 <= k < |w|
      ensures Placed(w[k], present + Elems(w[..k]), dir, names[k], overwrite)
    {
      if k < |first| {
        assert w[..k] == [];
        assert present + Elems(w[..k]) == present;
      } else {
        var j := k - |first|;
        assert w[..k] == first + rest[..j];
        assert present + Elems(w[..k]) == taken + Elems(rest[..j]);
        assert w[k] == rest[j];
      }
    }
  }

  /**
    The copies of the source at position `idx`, if it can be fetched: one in
    the import folder under its plain name (`staged`), one in the public
    directory (`written`); and the public paths taken afterwards.
   */
  method CopyOne(base: string, src: string, idx: nat, fetched: string -> bool, urlPathExt: string -> string,
                 importDir: string, publicDir: string, present: set<string>, overwrite: bool)
    returns (staged: seq<string>, written: seq<string>, after: set<string>)
    ensures staged == if fetched(src) then [JoinPath(importDir, CopyFilename(base, idx, SourceExt(src, urlPathExt)))] else []
    ensures |written| == if fetched(src) then 1 else 0
    ensures forall k :: 0 <= k < |written| ==> Placed(written[k], present, publicDir, CopyFilename(base, idx, SourceExt(src, urlPathExt)), overwrite)
    ensures forall x :: x in after <==> x in present || x in written
    ensures !overwrite ==> forall k :: 0 <= k < |written| ==> written[k] !in present
  {
    if fetched(src) {
      var filename := CopyFilename(base, idx, SourceExt(src, urlPathExt));
      staged := [JoinPath(importDir, filename)];
      var dest := Place(present, publicDir, filename, overwrite);
      written, after := [dest], present + {dest};
    } else {
      staged, written, after := [], [], present;
    }
  }

  /** Fresh copies followed by copies fresh with respect to them are all fresh and distinct. */
  lemma JoinFresh(first: seq<string>, rest: seq<string>, present: set<string>, taken: set<string>)
    requires |first| <= 1 && forall k :: 0 <= k < |first| ==> first[k] !in present
    requires forall x :: x in taken <==> x in present || x in first
    requires NoDuplicates(rest) && forall k :: 0 <= k < |rest| ==> rest[k] !in taken
    ensures NoDuplicates(first + rest) && forall k :: 0 <= k < |first + rest| ==> (first + rest)[k] !in present
  {
  }

  /** Where a copy named `filename` goes: over any existing file, or to the first free numbered name. */
  method Place(taken: set<string>, dir: string, filename: string, overwrite: bool) returns (dest: string)
    ensures Placed(dest, taken, dir, filename, overwrite)
    ensures !overwrite ==> dest !in taken
  {
    if overwrite {
      dest := JoinPath(dir, filename);
    } else {
      dest := UniqueDest(taken, dir, filename);
    }
  }

  /**
    The product after copying: the gallery is the public URLs of the copies
    `written`, the primary image the first of them. `staged` are the copies
    in the import folder.
   */
  method CopyImages(p: Product, sources: seq<string>, fetched: string -> bool, urlPathExt: string -> string,
                    importDir: string, publicDir: string, present: set<string>, overwrite: bool)
    returns (q: Product, staged: seq<string>, written: seq<string>, after: set<string>)
    ensures q == p.(images := q.images, image := q.image)
    ensures staged == Staged(importDir, CopyNames(BaseForFilename(p.slug, p.id), sources, 0, fetched, urlPathExt))
    ensures q.images == Some(PublicUrls(written))
    ensures |written| == CountIf(sources, fetched)
    ensures forall k :: 0 <= k < |written| ==>
              Placed(written[k], present + Elems(written[..k]), publicDir,
                     CopyNames(BaseForFilename(p.slug, p.id), sources, 0, fetched, urlPathExt)[k], overwrite)
    ensures |written| > 0 ==> q.image == q.images.value[0]
    ensures |written| == 0 ==> q.image == ""
    ensures present <= after
  {
    staged, written, after := CopyFiles(BaseForFilename(p.slug, p.id), sources, 0, fetched, urlPathExt, importDir, publicDir, present, overwrite);
    q := WithGallery(p, PublicUrls(written), "");
  }

  /** The public URLs of the written copies, in order. */
  function PublicUrls(written: seq<string>): (urls: seq<string>)
    ensures |urls| == |written|
    ensures forall k :: 0 <= k < |urls| ==> StartsWith(urls[k], ImagesDir) && urls[k] == PublicUrl(written[k])
  {
    var urls := seq(|written|, k requires 0 <= k < |written| => PublicUrl(written[k]));
    assert forall k :: 0 <= k < |urls| ==> urls[k][..|ImagesDir|] == ImagesDir;
    urls
  }

  /**
    The images of one product: copied when `--copy-images` is given and there
    is a source, linked in place otherwise. `staged` are the copies in the
    import folder and `written` those in the public directory, none when
    linking.
   */
  method AttachSources(p: Product, rawImage: Cell, sources: seq<string>, copy: bool,
                       fetched: string -> bool, fileExists: string -> bool, urlPathExt: string -> string,
                       importDir: string, publicDir: string, present: set<string>, overwrite: bool)
    returns (q: Product, staged: seq<string>, written: seq<string>, after: set<string>)
    ensures q == p.(images := q.images, image := q.image) && q.images.Some?
    ensures !(copy && |sources| > 0) ==>
              q == LinkImages(p, rawImage, sources, fileExists) && staged == [] && written == [] && after == present
    ensures copy && |sources| > 0 ==>
              staged == Staged(importDir, CopyNames(BaseForFilename(p.slug, p.id), sources, 0, fetched, urlPathExt))
    ensures copy && |sources| > 0 ==> q.images == Some(PublicUrls(written)) && |written| == CountIf(sources, fetched)
    ensures copy && |sources| > 0 ==>
              forall k :: 0 <= k < |written| ==>
                Placed(written[k], present + Elems(written[..k]), publicDir,
                       CopyNames(BaseForFilename(p.slug, p.id), sources, 0, fetched, urlPathExt)[k], overwrite)
    ensures copy && |sources| > 0 ==> q.image == (if |written| > 0 then q.images.value[0] else "") && present <= after
  {
    if copy && |sources| > 0 {
      q, staged, written, after := CopyImages(p, sources, fetched, urlPathExt, importDir, publicDir, present, overwrite);
    } else {
      q := LinkImages(p, rawImage, sources, fileExists);
      staged, written, after := [], [], present;
    }
  }

  // ---------------------------------------------------------------------------
  // Finding local images by base name
  // ---------------------------------------------------------------------------

  /** The extensions a local image may have, compared in lower case. */
  const ImageExts: set<string> := {".jpg", ".jpeg", ".png", ".gif", ".webp", ".svg"}

  /** `bn === base || bn.startsWith(base + '(') || bn.startsWith(base + '-') || bn.startsWith(base + '_')`. */
  predicate NamesBase(bn: string, base: string)
  {
    bn == base || StartsWith(bn, base + "(") || StartsWith(bn, base + "-") || StartsWith(bn, base + "_")
  }

  /**
    The test `findLocalImagesByBase` applies to a directory entry, as written:
    the extension is lower-cased before `path.basename` strips it, so an
    upper-case extension stays on the name.
   */
  predicate IsImageOfBaseAsWritten(n: string, base: string)
  {
    var ext := Lower(ExtName(n));
    ext in ImageExts && NamesBase(BaseNameWithout(n, ext), base)
  }

  /** The same test with the entry's own extension stripped, whatever its letter case. */
  predicate IsImageOfBase(n: string, base: string)
  {
    Lower(ExtName(n)) in ImageExts && NamesBase(Stem(n), base)
  }

  /** `C1.JPG` is not found for the base `C1` as written; the corrected test finds it. */
  lemma UpperCaseExtensionMissed()
    ensures !IsImageOfBaseAsWritten("C1.JPG", "C1")
    ensures IsImageOfBase("C1.JPG", "C1")
  {
    var n := "C1.JPG";
    LastIndexOfAppend("C1.", "JPG", '.');
    assert n == "C1." + "JPG";
    assert ExtName(n) == ".JPG";
    LowerJpg();
    assert n[|n| - 4..] == ".JPG";
    assert BaseNameWithout(n, ".jpg") == n;
    assert n[..3] == "C1.";
    assert Stem(n) == "C1";
  }

  lemma LowerJpg()
    ensures Lower(".JPG") == ".jpg"
  {
    var l := Lower(".JPG");
    assert l[0] == '.' && l[1] == 'j' && l[2] == 'p' && l[3] == 'g';
  }

  /** An image named exactly after the base is found, whatever the case of its extension. */
  lemma ExactNameFound(base: string, ext: string)
    requires base != "" && |ext| >= 2 && ext[0] == '.'
    requires forall k :: 1 <= k < |ext| ==> ext[k] != '.'
    requires Lower(ext) in ImageExts
    ensures IsImageOfBase(base + ext, base)
    ensures NoUpper(ext) ==> IsImageOfBaseAsWritten(base + ext, base)
  {
    var n := base + ext;
    LastIndexOfAppend(base + ".", ext[1..], '.');
    assert n == (base + ".") + ext[1..];
    assert ExtName(n) == ext;
    assert n[..|n| - |ext|] == base;
    if NoUpper(ext) {
      LowerSpec(ext);
    }
  }

  /** The two tests differ only on entries whose extension has an upper-case letter. */
  lemma AsWrittenAgreesOnLowerCase(n: string, base: string)
    requires NoUpper(ExtName(n))
    ensures IsImageOfBaseAsWritten(n, base) <==> IsImageOfBase(n, base)
  {
    LowerSpec(ExtName(n));
  }

  /** A directory searched for images: its path and its entries, `None` when it cannot be read. */
  datatype Listing = Listing(dir: string, entries: Option<seq<string>>)

  /**
    The paths of the entries of `names` in `dir` that pass the entry test
    `fits` for `base`, in listing order.
   */
  function Hits(dir: string, names: seq<string>, base: string, fits: (string, string) -> bool): (r: seq<string>)
    ensures forall x :: x in r <==> exists n :: n in names && fits(n, base) && x == JoinPath(dir, n)
  {
    if names == [] then []
    else
      var rest := Hits(dir, names[1..], base, fits);
      assert forall n :: n in names <==> n == names[0] || n in names[1..];
      (if fits(names[0], base) then [JoinPath(dir, names[0])] else []) + rest
  }

  /** The hits of every readable directory, directory after directory. */
  function AllHits(listings: seq<Listing>, base: string, fits: (string, string) -> bool): (r: seq<string>)
    ensures forall x :: x in r <==> exists l, n :: l in listings && l.entries.Some? && n in l.entries.value
                                                 && fits(n, base) && x == JoinPath(l.dir, n)
  {
    if listings == [] then []
    else
      var l := listings[0];
      var rest := AllHits(listings[1..], base, fits);
      assert forall m :: m in listings <==> m == l || m in listings[1..];
      (if l.entries.Some? then Hits(l.dir, l.entries.value, base, fits) else []) + rest
  }

  /**
    `findLocalImagesByBase(base)` with the entry test `fits` (the script's is
    `IsImageOfBaseAsWritten`): every entry of the searched directories that
    passes it, once each, in the order first found; unreadable directories
    are skipped.
   */
  function FindLocalImagesByBase(base: string, listings: seq<Listing>, fits: (string, string) -> bool): (r: seq<string>)
    ensures NoDuplicates(r)
    ensures forall x :: x in r <==> exists l, n :: l in listings && l.entries.Some? && n in l.entries.value
                                                 && fits(n, base) && x == JoinPath(l.dir, n)
  {
    DedupMembers(AllHits(listings, base, fits));
    Dedup(AllHits(listings, base, fits))
  }

  /** As written, a directory holding only `C1.JPG` yields nothing for the base `C1`. */
  lemma UpperCaseImageNotFound(dir: string)
    ensures FindLocalImagesByBase("C1", [Listing(dir, Some(["C1.JPG"]))], IsImageOfBaseAsWritten) == []
  {
    UpperCaseExtensionMissed();
    var w := FindLocalImagesByBase("C1", [Listing(dir, Some(["C1.JPG"]))], IsImageOfBaseAsWritten);
    if w != [] {
      assert false;
    }
  }
}

=== FILE: ImportSheets.dfy ===
/**
  scripts/import-excel-sheets.js: every sheet of a workbook is classified by
  its name into a category and an image prefix, and every row of every sheet
  becomes a product. Ids run 1, 2, … across the whole workbook in sheet
  order; the index used for default image names restarts at 1 in each sheet.
 */
module ImportSheets {
  import opened Wrappers
  import opened Text
  import opened Seqs
  import opened Cells
  import opened Catalog
  import opened Slugs

  // ---------------------------------------------------------------------------
  // Classifying a sheet
  // ---------------------------------------------------------------------------

  /** The category of a sheet's products and the letter its default image names start with. */
  datatype SheetClass = SheetClass(category: string, prefix: char)

  /** `(s || '').toString().trim().toLowerCase()`. */
  function SheetKey(name: string): string
  {
    Lower(Trim(name))
  }

  /**
    'jewel' before 'cloth' before 'drink', looked for in the normalised
    sheet name; any other sheet holds clothings.
   */
  function Classify(name: string): (r: SheetClass)
    ensures r.category == "jewelries" <==> Contains(SheetKey(name), "jewel")
    ensures r.category == "drinks" <==> !Contains(SheetKey(name), "jewel") && !Contains(SheetKey(name), "cloth") && Contains(SheetKey(name), "drink")
    ensures r.category in {"jewelries", "clothings", "drinks"}
    ensures |r.category| >= 2 && r.prefix == UpperChar(r.category[0])
  {
    var key := SheetKey(name);
    if Contains(key, "jewel") then SheetClass("jewelries", 'J')
    else if Contains(key, "cloth") then SheetClass("clothings", 'C')
    else if Contains(key, "drink") then SheetClass("drinks", 'D')
    else SheetClass("clothings", 'C')
  }

  /** A sheet whose name mentions none of the three words holds clothings. */
  lemma UnknownSheetIsClothing(name: string)
    requires !Contains(SheetKey(name), "jewel") && !Contains(SheetKey(name), "drink")
    ensures Classify(name) == SheetClass("clothings", 'C')
  {
  }

  // ---------------------------------------------------------------------------
  // Normalising a row
  // ---------------------------------------------------------------------------

  /** `a || b || c`. */
  function Or3(a: Cell, b: Cell, c: Cell): (r: Cell)
    ensures Truthy(a) ==> r == a
    ensures !Truthy(a) && Truthy(b) ==> r == b
    ensures !Truthy(a) && !Truthy(b) ==> r == c
  {
    Or(Or(a, b), c)
  }

  /** The text of a truthy value is never empty. */
  lemma TruthyText(c: Cell)
    requires Truthy(c)
    ensures ToStr(c) != ""
  {
    if c.Num? {
      assert |NatToString(if c.n < 0 then -c.n else c.n)| >= 1;
    }
  }

  /** `row.name || row.Name || row.Title || \`Item ${globalId}\``. */
  function NameCell(row: Row, id: nat): (r: Cell)
    ensures Truthy(r)
  {
    Or3(Get(row, "name"), Get(row, "Name"), Or(Get(row, "Title"), Str("Item " + NatToString(id))))
  }

  /**
    `row.slug || row.Slug || (name && name.toString().toLowerCase().replace(/[^a-z0-9]+/g, '-')) || \`item-${globalId}\``,
    then `String(…)`. Unlike scripts/import-products.js, a leading or
    trailing dash is kept.
   */
  function SlugText(row: Row, id: nat): (r: string)
    ensures r != ""
  {
    var name := NameCell(row, id);
    TruthyText(name);
    var derived := Or(Str(Dashed(ToStr(name))), Str("item-" + NatToString(id)));
    var c := Or3(Get(row, "slug"), Get(row, "Slug"), derived);
    TruthyText(c);
    ToStr(c)
  }

  /** Without a slug column, the slug is the dashed name; the `item-…` fallback is never reached. */
  lemma SlugFromName(row: Row, id: nat)
    requires !Truthy(Get(row, "slug")) && !Truthy(Get(row, "Slug"))
    ensures SlugText(row, id) == Dashed(ToStr(NameCell(row, id)))
    ensures forall i :: 0 <= i < |SlugText(row, id)| ==> IsSlugChar(SlugText(row, id)[i])
  {
    TruthyText(NameCell(row, id));
  }

  /** `Number(v) || fallback`: the number, unless it is 0 or NaN. */
  function NumberOr(c: Cell, fallback: int): (r: Numeric)
    ensures r.Finite?
    ensures ToNumber(c).Truthy() ==> r == ToNumber(c)
    ensures !ToNumber(c).Truthy() ==> r == Finite(fallback)
  {
    var n := ToNumber(c);
    if n.Truthy() then n else Finite(fallback)
  }

  /** `Number(row.price || row.Price || row.cost) || 0`. */
  function Price(row: Row): (r: Numeric)
    ensures r.Finite?
  {
    NumberOr(Or3(Get(row, "price"), Get(row, "Price"), Get(row, "cost")), 0)
  }

  /** `(Number(row.inventory || row.Inventory || 0) || 0) || (10 + idx)`: never zero. */
  function Inventory(row: Row, idx: nat): (r: Numeric)
    ensures r.Truthy()
    ensures !ToNumber(Or3(Get(row, "inventory"), Get(row, "Inventory"), Num(0))).Truthy() ==> r == Finite(10 + idx)
  {
    var n := NumberOr(Or3(Get(row, "inventory"), Get(row, "Inventory"), Num(0)), 0);
    if n.Truthy() then n else Finite(10 + idx)
  }

  /** Example of `Inventory`: a blank or zero inventory becomes 10 plus the row's index in its sheet. */
  lemma BlankInventory(row: Row, idx: nat)
    requires !Truthy(Get(row, "inventory")) && !Truthy(Get(row, "Inventory"))
    ensures Inventory(row, idx) == Finite(10 + idx)
  {
  }

  predicate IsSheetTagSep(c: char) { c == ',' || c == ';' || c == '|' }

  predicate NonEmpty(s: string) { s != "" }

  /** The trimmed pieces of `s.split(/[,;|]/)`. */
  function TrimmedPieces(s: string): (r: seq<string>)
    ensures AllNoneOf(r, IsSheetTagSep) && forall k :: 0 <= k < |r| ==> Trimmed(r[k])
  {
    var pieces := SplitEach(s, IsSheetTagSep);
    TrimEachNoneOf(pieces, IsSheetTagSep);
    TrimEach(pieces)
  }

  /**
    `row.tags || row.Tags || ''`, split on ',', ';' or '|', trimmed, blanks
    dropped; when nothing is left, the category without its last letter.
   */
  function Tags(row: Row, category: string): (r: seq<string>)
    requires |category| >= 2
    ensures |r| >= 1
    ensures forall k :: 0 <= k < |r| ==> r[k] != ""
    ensures (|r| == 1 && r[0] == category[..|category| - 1]) || forall k :: 0 <= k < |r| ==> NoneOf(r[k], IsSheetTagSep) && Trimmed(r[k])
  {
    var cell := Or3(Get(row, "tags"), Get(row, "Tags"), Str(""));
    var tags := if Truthy(cell) then Filter(TrimmedPieces(ToStr(cell)), NonEmpty) else [];
    if |tags| > 0 then tags else [category[..|category| - 1]]
  }

  /** Tags written with any of the three separators are read back as they were written. */
  lemma TagsJoin(row: Row, category: string, tags: seq<string>, sep: char)
    requires |category| >= 2 && IsSheetTagSep(sep)
    requires |tags| >= 1 && AllNoneOf(tags, IsSheetTagSep)
    requires forall k :: 0 <= k < |tags| ==> tags[k] != "" && Trimmed(tags[k])
    requires Get(row, "tags") == Str(Join(tags, sep))
    ensures Tags(row, category) == tags
  {
    SplitEachJoin(tags, sep, IsSheetTagSep);
    JoinNonEmpty(tags, sep);
    TrimEachNoop(tags);
    assert TrimmedPieces(Join(tags, sep)) == tags;
    FilterAll(tags, NonEmpty);
  }

  lemma JoinNonEmpty(pieces: seq<string>, sep: char)
    requires |pieces| >= 1 && pieces[0] != ""
    ensures Join(pieces, sep) != ""
  {
  }

  /**
    `row.image || row.Image`, placed in the image directory unless it starts
    with '/'; without one, the sheet's default image for the row.
   */
  function ImagePath(row: Row, prefix: char, idx: nat): (r: string)
    ensures |r| >= 1 && r[0] == '/'
  {
    var cell := Or3(Get(row, "image"), Get(row, "Image"), Str(""));
    if Truthy(cell) then
      var given := ToStr(cell);
      if StartsWith(given, "/") then given else ImagesDir + given
    else DefaultImage(prefix, idx)
  }

  /** `/data/images/${prefix}${idx}.jpg`. */
  function DefaultImage(prefix: char, idx: nat): (r: string)
    ensures StartsWith(r, ImagesDir) && EndsWith(r, ".jpg")
    ensures |r| == |ImagesDir| + |NatToString(idx)| + 5
    ensures r[|ImagesDir|] == prefix && r[|ImagesDir| + 1..|r| - 4] == NatToString(idx)
  {
    var digits := NatToString(idx);
    var r := ImagesDir + [prefix] + digits + ".jpg";
    assert |r| == |ImagesDir| + 1 + |digits| + 4;
    assert r[|ImagesDir| + 1..|r| - 4] == digits;
    assert r[..|ImagesDir|] == ImagesDir;
    assert r[|r| - 4..] == ".jpg";
    r
  }

  /** Different rows of one sheet get different default image names. */
  lemma DefaultImagesDistinct(prefix: char, i: nat, j: nat)
    requires i != j
    ensures DefaultImage(prefix, i) != DefaultImage(prefix, j)
  {
    var a := DefaultImage(prefix, i);
    var b := DefaultImage(prefix, j);
    if a == b {
      assert a[|ImagesDir| + 1..|a| - 4] == b[|ImagesDir| + 1..|b| - 4];
      NatToStringInjective(i, j);
    }
  }

  /** A given image is kept when it starts with '/', and placed in the image directory otherwise. */
  lemma GivenImage(row: Row, prefix: char, idx: nat, image: string)
    requires Get(row, "image") == Str(image) && image != ""
    ensures StartsWith(image, "/") ==> ImagePath(row, prefix, idx) == image
    ensures !StartsWith(image, "/") ==> ImagePath(row, prefix, idx) == ImagesDir + image
  {
  }

  /**
    The product of the row at 1-based position `idx` of a sheet of class
    `cls`, numbered `id` in the whole workbook.
   */
  function RowProduct(row: Row, cls: SheetClass, id: nat, idx: nat): (p: Product)
    requires |cls.category| >= 2
    ensures p.id == NatToString(id) && p.category == cls.category
    ensures p.featured <==> id % 5 == 0
    ensures p.images == Some([p.image]) && |p.image| >= 1 && p.image[0] == '/'
    ensures p.price.Finite? && p.inventory.Truthy()
    ensures |p.tags| >= 1 && p.name != "" && p.slug != ""
  {
    var name := NameCell(row, id);
    TruthyText(name);
    var image := ImagePath(row, cls.prefix, idx);
    Product(
      id := NatToString(id),
      name := ToStr(name),
      slug := SlugText(row, id),
      price := Price(row),
      currency := ToStr(Or3(Get(row, "currency"), Get(row, "Currency"), Str("NGN"))),
      image := image,
      images := Some([image]),
      description := ToStr(Or3(Get(row, "description"), Get(row, "Description"), Str(""))),
      category := cls.category,
      featured := id % 5 == 0,
      inventory := Inventory(row, idx),
      tags := Tags(row, cls.category))
  }

  /** A row without a name is called after its number in the workbook. */
  lemma UnnamedRow(row: Row, cls: SheetClass, id: nat, idx: nat)
    requires |cls.category| >= 2
    requires !Truthy(Get(row, "name")) && !Truthy(Get(row, "Name")) && !Truthy(Get(row, "Title"))
    ensures RowProduct(row, cls, id, idx).name == "Item " + NatToString(id)
  {
  }

  // ---------------------------------------------------------------------------
  // The whole workbook
  // ---------------------------------------------------------------------------

  /** A sheet: its name and its rows as `sheet_to_json` gives them. */
  datatype Sheet = Sheet(name: string, rows: seq<Row>)

  /** The class of a sheet, from its name. */
  function ClassOf(sheet: Sheet): (r: SheetClass)
    ensures |r.category| >= 2
  {
    Classify(sheet.name)
  }

  function RowsOf(sheet: Sheet): seq<Row>
  {
    sheet.rows
  }

  /** Row `row` of sheet `sheet`, the `idx`-th of the sheet, as product number `id`. */
  function SheetRowProduct(sheet: Sheet, row: Row, id: nat, idx: nat): Product
  {
    RowProduct(row, ClassOf(sheet), id, idx)
  }

  /** The number of rows in the sheets before sheet `s`. */
  function RowsBefore(sheets: seq<Sheet>, s: nat): nat
    requires s <= |sheets|
  {
    SizesBetween(sheets, RowsOf, 0, s)
  }

  /**
    All products of the workbook, sheet after sheet and row after row: one
    per row, numbered from 1 across the workbook and indexed from 1 within
    each sheet.
   */
  function ImportWorkbook(sheets: seq<Sheet>): (r: seq<Product>)
    ensures |r| == RowsBefore(sheets, |sheets|)
  {
    NumberedFrom(sheets, RowsOf, SheetRowProduct, 0, 1)
  }

  /** Row `j` of sheet `s` is product number `RowsBefore(sheets, s) + j + 1`, with image index `j + 1`. */
  lemma WorkbookAt(sheets: seq<Sheet>, s: nat, j: nat)
    requires s < |sheets| && j < |sheets[s].rows|
    ensures RowsBefore(sheets, s) + j < |ImportWorkbook(sheets)|
    ensures ImportWorkbook(sheets)[RowsBefore(sheets, s) + j]
            == RowProduct(sheets[s].rows[j], Classify(sheets[s].name), RowsBefore(sheets, s) + j + 1, j + 1)
  {
    NumberedFromAt(sheets, RowsOf, SheetRowProduct, 0, 1, s, j, RowsBefore(sheets, s));
  }

  /** Numbered `n`, and featured exactly when `n` is a multiple of 5. */
  predicate NumberedAt(p: Product, n: nat)
  {
    p.id == NatToString(n) && (p.featured <==> n % 5 == 0)
  }

  /** The products are numbered 1, 2, … in workbook order, and every fifth one is featured. */
  lemma WorkbookNumbering(sheets: seq<Sheet>)
    ensures forall k :: 0 <= k < |ImportWorkbook(sheets)| ==> NumberedAt(ImportWorkbook(sheets)[k], k + 1)
  {
    NumberedFromAll(sheets, RowsOf, SheetRowProduct, 0, 1, NumberedAt);
  }

  /** No two products of a workbook share an id. */
  lemma WorkbookIdsDistinct(sheets: seq<Sheet>, i: nat, j: nat)
    requires i < j < |ImportWorkbook(sheets)|
    ensures ImportWorkbook(sheets)[i].id != ImportWorkbook(sheets)[j].id
  {
    var w := ImportWorkbook(sheets);
    WorkbookNumbering(sheets);
    assert NumberedAt(w[i], i + 1) && NumberedAt(w[j], j + 1);
    NatToStringDistinct(i + 1, j + 1);
  }
}

=== FILE: Levenshtein.dfy ===
/**
  Edit distance with unit cost for insertion, deletion and substitution
  (Shop.jsx `levenshtein`): the textbook recurrence as a definition, and the
  dynamic-programming table the storefront fills, proved to compute it.
 */
module Levenshtein {

  function Min3(x: int, y: int, z: int): int
  {
    if x <= y && x <= z then x else if y <= z then y else z
  }

  function Max(x: int, y: int): int
  {
    if x >= y then x else y
  }

  function Abs(x: int): nat
  {
    if x >= 0 then x else -x
  }

  /** The distance between the prefixes `a[..i]` and `b[..j]`. */
  function Dist(a: string, b: string, i: nat, j: nat): nat
    requires i <= |a| && j <= |b|
    decreases i + j
  {
    if i == 0 then j
    else if j == 0 then i
    else Min3(Dist(a, b, i - 1, j) + 1,
              Dist(a, b, i, j - 1) + 1,
              Dist(a, b, i - 1, j - 1) + (if a[i - 1] == b[j - 1] then 0 else 1))
  }

  /** The edit distance between `a` and `b`. */
  function Distance(a: string, b: string): nat
  {
    Dist(a, b, |a|, |b|)
  }

  /** The first `|row|` cells of row `i` of the table. */
  ghost predicate IsPartialRow(a: string, b: string, i: nat, row: seq<int>)
    requires i <= |a|
  {
    |row| <= |b| + 1 && forall c :: 0 <= c < |row| ==> row[c] == Dist(a, b, i, c)
  }

  /** Row `i` of the table: the distances from `a[..i]` to every prefix of `b`. */
  ghost predicate IsRow(a: string, b: string, i: nat, row: seq<int>)
    requires i <= |a|
  {
    |row| == |b| + 1 && IsPartialRow(a, b, i, row)
  }

  /** The next cell of row `i` follows from the row above and the cell to the left. */
  lemma ExtendRow(a: string, b: string, i: nat, prev: seq<int>, row: seq<int>, cell: int)
    requires 1 <= i <= |a| && IsRow(a, b, i - 1, prev)
    requires 1 <= |row| <= |b| && IsPartialRow(a, b, i, row)
    requires cell == Min3(prev[|row|] + 1, row[|row| - 1] + 1,
                          prev[|row| - 1] + (if a[i - 1] == b[|row| - 1] then 0 else 1))
    ensures IsPartialRow(a, b, i, row + [cell])
  {
    var j := |row|;
    assert prev[j] == Dist(a, b, i - 1, j);
    assert prev[j - 1] == Dist(a, b, i - 1, j - 1);
    assert row[j - 1] == Dist(a, b, i, j - 1);
    assert cell == Dist(a, b, i, j);
  }

  /** The first row: `dp[0][j] = j`. */
  method FirstRow(a: string, b: string) returns (row: seq<int>)
    ensures IsRow(a, b, 0, row)
  {
    row := [];
    var j := 0;
    while j <= |b|
      invariant 0 <= j <= |b| + 1 && |row| == j
      invariant forall c :: 0 <= c < j ==> row[c] == c
    {
      row := row + [j];
      j := j + 1;
    }
  }

  /** Row `i` from row `i - 1`: `dp[i][0] = i`, then the recurrence cell by cell. */
  method NextRow(a: string, b: string, i: nat, prev: seq<int>) returns (row: seq<int>)
    requires 1 <= i <= |a| && IsRow(a, b, i - 1, prev)
    ensures IsRow(a, b, i, row)
  {
    row := [i];
    var j := 1;
    while j <= |b|
      invariant 1 <= j <= |b| + 1 && |row| == j
      invariant IsPartialRow(a, b, i, row)
    {
      var cost := if a[i - 1] == b[j - 1] then 0 else 1;
      var cell := Min3(prev[j] + 1, row[j - 1] + 1, prev[j - 1] + cost);
      ExtendRow(a, b, i, prev, row, cell);
      row := row + [cell];
      j := j + 1;
    }
  }

  /**
    Fills the `(|a|+1) x (|b|+1)` table row by row, as the storefront does, and
    returns its last cell.
   */
  method ComputeDistance(a: string, b: string) returns (d: int)
    ensures d == Distance(a, b)
  {
    var first := FirstRow(a, b);
    var table := [first];
    var i := 1;
    while i <= |a|
      invariant 1 <= i <= |a| + 1 && |table| == i
      invariant forall r :: 0 <= r < i ==> IsRow(a, b, r, table[r])
    {
      var row := NextRow(a, b, i, table[i - 1]);
      table := table + [row];
      i := i + 1;
    }
    d := table[|a|][|b|];
  }

  /** The distance is at least the difference of the lengths and at most the longer length. */
  lemma {:induction false} DistRange(a: string, b: string, i: nat, j: nat)
    requires i <= |a| && j <= |b|
    ensures Abs(i - j) <= Dist(a, b, i, j) <= Max(i, j)
    decreases i + j
  {
    if i > 0 && j > 0 {
      DistRange(a, b, i - 1, j);
      DistRange(a, b, i, j - 1);
      DistRange(a, b, i - 1, j - 1);
    }
  }

  /** `a[..i] == b[..i]`, character by character. */
  predicate SamePrefix(a: string, b: string, i: nat)
    requires i <= |a| && i <= |b|
  {
    forall k :: 0 <= k < i ==> a[k] == b[k]
  }

  /** Equal prefixes, and only equal prefixes, are at distance 0. */
  lemma {:induction false} DistZero(a: string, b: string, i: nat)
    requires i <= |a| && i <= |b|
    ensures Dist(a, b, i, i) == 0 <==> SamePrefix(a, b, i)
    decreases i
  {
    if i > 0 {
      DistZero(a, b, i - 1);
      DistRange(a, b, i - 1, i);
      DistRange(a, b, i, i - 1);
    }
  }

  lemma {:induction false} DistSymmetric(a: string, b: string, i: nat, j: nat)
    requires i <= |a| && j <= |b|
    ensures Dist(a, b, i, j) == Dist(b, a, j, i)
    decreases i + j
  {
    if i > 0 && j > 0 {
      DistSymmetric(a, b, i - 1, j);
      DistSymmetric(a, b, i, j - 1);
      DistSymmetric(a, b, i - 1, j - 1);
    }
  }

  /** The properties the search relies on: distance to the empty string, bounds, identity of indiscernibles, symmetry. */
  lemma DistanceFacts(a: string, b: string)
    ensures Distance(a, "") == |a| && Distance("", b) == |b|
    ensures Abs(|a| - |b|) <= Distance(a, b) <= Max(|a|, |b|)
    ensures Distance(a, b) == 0 <==> a == b
    ensures Distance(a, b) == Distance(b, a)
  {
    DistRange(a, b, |a|, |b|);
    DistSymmetric(a, b, |a|, |b|);
    if |a| == |b| {
      DistZero(a, b, |a|);
    }
  }

  /** A string is at distance 0 from itself. */
  lemma DistanceSelf(a: string)
    ensures Distance(a, a) == 0
  {
    DistanceFacts(a, a);
  }
}

=== FILE: Paths.dfy ===
/**
  Node's POSIX `path` helpers as the scripts use them. File names read from a
  directory listing contain no '/', so `extname` and the two-argument
  `basename` are modelled on slash-free names; the one-argument `basename` is
  modelled on whole paths.
 */
module Paths {
  import opened Text

  predicate NoSlash(s: string)
  {
    forall i :: 0 <= i < |s| ==> s[i] != '/'
  }

  /** The index of the last `c` in `s`, or -1 when there is none. */
  function LastIndexOf(s: string, c: char): (k: int)
    ensures -1 <= k < |s|
    ensures k >= 0 ==> s[k] == c
    ensures forall i :: k < i < |s| ==> s[i] != c
    decreases |s|
  {
    if s == [] then -1
    else if s[|s| - 1] == c then |s| - 1
    else LastIndexOf(s[..|s| - 1], c)
  }

  /** The last `c` of `x + y`, when `x` ends with `c` and `y` has none, is the last of `x`. */
  lemma LastIndexOfAppend(x: string, y: string, c: char)
    requires |x| > 0 && x[|x| - 1] == c
    requires forall i :: 0 <= i < |y| ==> y[i] != c
    ensures LastIndexOf(x + y, c) == |x| - 1
    ensures (x + y)[|x|..] == y && (x + y)[..|x|] == x
  {
    var s := x + y;
    assert s[|x| - 1] == c;
    assert forall i :: |x| <= i < |s| ==> s[i] == y[i - |x|];
  }

  /**
    `path.extname(name)`: from the last '.' to the end, except that a name whose
    only dot is its first character, a name without a dot, and the name ".."
    have no extension.
   */
  function ExtName(name: string): (r: string)
    ensures r == [] || (r[0] == '.' && |r| < |name| && EndsWith(name, r))
    ensures forall i :: 1 <= i < |r| ==> r[i] != '.'
    ensures r == [] <==> name == ".." || forall i :: 0 < i < |name| ==> name[i] != '.'
  {
    var k := LastIndexOf(name, '.');
    if k <= 0 || name == ".." then "" else name[k..]
  }

  /** `path.basename(name, suffix)` on a slash-free name. */
  function BaseNameWithout(name: string, suffix: string): (r: string)
    ensures EndsWith(name, suffix) && suffix != [] && name != suffix ==> r + suffix == name
    ensures !EndsWith(name, suffix) || suffix == [] ==> r == name
  {
    if suffix == [] || !EndsWith(name, suffix) then name
    else if name == suffix then ""
    else name[..|name| - |suffix|]
  }

  /** The name with its extension removed: `path.basename(name, path.extname(name))`. */
  function Stem(name: string): (r: string)
    ensures r + ExtName(name) == name
    ensures ExtName(name) != [] ==> r != []
  {
    BaseNameWithout(name, ExtName(name))
  }

  function StripTrailingSlashes(p: string): (r: string)
    ensures StartsWith(p, r)
    ensures r == [] || r[|r| - 1] != '/'
    decreases |p|
  {
    if |p| > 0 && p[|p| - 1] == '/' then StripTrailingSlashes(p[..|p| - 1]) else p
  }

  /** `path.basename(p)`: the last segment of `p`, ignoring trailing slashes. */
  function BaseName(p: string): (r: string)
    ensures NoSlash(r)
  {
    var t := StripTrailingSlashes(p);
    t[LastIndexOf(t, '/') + 1..]
  }

  /** The base name of a file placed in a directory is the file's name. */
  lemma BaseNameOfJoin(dir: string, name: string)
    requires name != [] && NoSlash(name)
    ensures BaseName(dir + "/" + name) == name
  {
    var p := dir + "/" + name;
    assert p[|p| - 1] == name[|name| - 1];
    assert StripTrailingSlashes(p) == p;
    assert p[|dir|] == '/';
    var k := LastIndexOf(p, '/');
    assert k == |dir| by {
      assert forall i :: |dir| < i < |p| ==> p[i] == name[i - |dir| - 1];
    }
    assert p[k + 1..] == name;
  }
}

=== FILE: Search.dfy ===
/**
  The storefront search (Shop.jsx): the `q` parameter is normalised, every
  product of the chosen category gets a relevance score from substring, token
  and fuzzy (edit distance) bonuses, products scoring above zero are listed by
  descending score with ties in catalogue order, and a substring search is the
  fallback when nothing scores.
 */
module Search {
  import opened Wrappers
  import opened Text
  import opened Seqs
  import opened Sorting
  import opened Catalog
  import Levenshtein

  // ---------------------------------------------------------------------------
  // Query normalisation
  // ---------------------------------------------------------------------------

  /** The characters the query sanitiser deletes: `< > " ' &`. */
  predicate IsDenied(c: char)
  {
    c == '<' || c == '>' || c == '"' || c == '\'' || c == '&'
  }

  /** The `q` URL parameter (absent when `None`), trimmed, lower-cased, with the denied characters deleted. */
  function NormalizeQuery(param: Option<string>): (q: string)
    ensures forall i :: 0 <= i < |q| ==> IsClean(q[i])
    ensures param.None? ==> q == ""
    ensures param.Some? ==> |q| <= |param.value|
  {
    Remove(Lower(Trim(param.GetOr(""))), IsDenied)
  }

  predicate IsClean(c: char)
  {
    !IsDenied(c) && !IsUpper(c)
  }

  /** A parameter that is already clean, apart from surrounding blanks, comes out as its trimmed self. */
  lemma NormalizeClean(s: string)
    requires forall i :: 0 <= i < |Trim(s)| ==> IsClean(Trim(s)[i])
    ensures NormalizeQuery(Some(s)) == Trim(s)
  {
    LowerSpec(Trim(s));
    RemoveNothing(Trim(s), IsDenied);
  }

  /** Normalising a normalised query only trims it again. */
  lemma NormalizeTwice(param: Option<string>)
    ensures NormalizeQuery(Some(NormalizeQuery(param))) == Trim(NormalizeQuery(param))
  {
    var n := NormalizeQuery(param);
    TrimKeeps(n, IsClean);
    NormalizeClean(n);
  }

  lemma NormalizeAmpersand()
    ensures NormalizeQuery(Some("& x")) == " x"
  {
    var s := "& x";
    TrimNoop(s);
    LowerSpec(s);
    assert Lower(Trim(s)) == s;
    assert s[1..] == " x" && IsDenied(s[0]);
    RemoveNothing(" x", IsDenied);
    assert Remove(s, IsDenied) == " x";
  }

  lemma NormalizeLeadingBlank()
    ensures NormalizeQuery(Some(" x")) == "x"
  {
    var t := " x";
    assert TrimStart(t) == "x" by {
      assert t[1..] == "x";
    }
    TrimNoop("x");
    NormalizeClean(t);
  }

  // ---------------------------------------------------------------------------
  // Tokens
  // ---------------------------------------------------------------------------

  /** `Boolean` on strings. */
  predicate NonEmpty(t: string)
  {
    t != ""
  }

  /** `query.split(/\s+/).filter(Boolean)`: the blank-separated words of the query. */
  function Tokens(q: string): (ts: seq<string>)
    ensures forall k :: 0 <= k < |ts| ==> ts[k] != "" && NoneOf(ts[k], IsSpace)
  {
    var pieces := SplitRuns(q, IsSpace);
    var ts := Filter(pieces, NonEmpty);
    assert forall k :: 0 <= k < |ts| ==> NoneOf(ts[k], IsSpace) by {
      forall k | 0 <= k < |ts|
        ensures NoneOf(ts[k], IsSpace)
      {
        var j :| 0 <= j < |pieces| && pieces[j] == ts[k];
      }
    }
    ts
  }

  lemma {:induction false} ConcatNonEmpty(pieces: seq<string>)
    ensures Concat(Filter(pieces, NonEmpty)) == Concat(pieces)
    decreases |pieces|
  {
    if pieces != [] {
      var rest := Filter(pieces[1..], NonEmpty);
      ConcatNonEmpty(pieces[1..]);
      if NonEmpty(pieces[0]) {
        assert Filter(pieces, NonEmpty) == [pieces[0]] + rest;
        assert ([pieces[0]] + rest)[1..] == rest;
      } else {
        assert Filter(pieces, NonEmpty) == rest;
        assert Concat(pieces) == pieces[0] + Concat(pieces[1..]);
        assert pieces[0] + Concat(pieces[1..]) == Concat(pieces[1..]);
      }
    }
  }

  /** The tokens, run together, are the query with its blanks deleted: splitting loses nothing else. */
  lemma TokensConcat(q: string)
    ensures Concat(Tokens(q)) == Remove(q, IsSpace)
  {
    ConcatNonEmpty(SplitRuns(q, IsSpace));
    SplitRunsConcat(q, IsSpace);
  }

  // ---------------------------------------------------------------------------
  // Score
  // ---------------------------------------------------------------------------

  /** 12 points for each token found in the name, 8 for each token found in the id. */
  function TokenBonus(tokens: seq<string>, name: string, id: string): (r: nat)
    ensures r <= 20 * |tokens|
  {
    if tokens == [] then 0
    else
      (if Contains(name, tokens[0]) then 12 else 0)
      + (if Contains(id, tokens[0]) then 8 else 0)
      + TokenBonus(tokens[1..], name, id)
  }

  /** The token bonus counts the name hits and the id hits independently. */
  lemma {:induction false} TokenBonusCounts(tokens: seq<string>, name: string, id: string)
    ensures TokenBonus(tokens, name, id)
         == 12 * |Filter(tokens, t => Contains(name, t))| + 8 * |Filter(tokens, t => Contains(id, t))|
    decreases |tokens|
  {
    if tokens != [] {
      TokenBonusCounts(tokens[1..], name, id);
    }
  }

  lemma MulLe(k: nat, a: int, b: int)
    requires a <= b
    ensures k * a <= k * b
  {
    assert k * b - k * a == k * (b - a);
  }

  /** The quotient is the one `r` with `k * r <= n < k * (r + 1)`. */
  lemma DivBracket(n: int, k: int, r: int)
    requires k > 0 && k * r <= n < k * (r + 1)
    ensures n / k == r
  {
    var q := n / k;
    assert k * q <= n < k * q + k;
    if q < r {
      MulLe(k, q + 1, r);
    } else if q > r {
      MulLe(k, r + 1, q);
    }
  }

  /** Division by a positive number is monotone. */
  lemma DivMono(a: int, b: int, k: int)
    requires k > 0 && a <= b
    ensures a / k <= b / k
  {
    var qa, qb := a / k, b / k;
    assert k * qa <= a && b < k * qb + k;
    if qa > qb {
      MulLe(k, qb + 1, qa);
    }
  }

  /**
    `Math.round(similarity * 50)` for `similarity = 1 - dist / maxLen` when it is
    positive, computed exactly: the nearest integer, halves rounded up.
   */
  function FuzzyBonus(dist: nat, maxLen: nat): (r: nat)
    requires maxLen >= 1
    ensures r <= 50
    ensures dist >= maxLen ==> r == 0
    ensures dist < maxLen ==> 2 * maxLen * r - maxLen <= 100 * (maxLen - dist) < 2 * maxLen * r + maxLen
  {
    if dist < maxLen then
      var n := 100 * (maxLen - dist) + maxLen;
      var k := 2 * maxLen;
      var r := n / k;
      assert k * r <= n < k * r + k;
      DivMono(n, 101 * maxLen, k);
      DivBracket(101 * maxLen, k, 50);
      r
    else 0
  }

  /** An exact match earns the whole fuzzy bonus. */
  lemma FuzzyExact(maxLen: nat)
    requires maxLen >= 1
    ensures FuzzyBonus(0, maxLen) == 50
  {
    DivBracket(101 * maxLen, 2 * maxLen, 50);
  }

  /** A smaller distance never earns a smaller fuzzy bonus. */
  lemma FuzzyMonotone(d1: nat, d2: nat, maxLen: nat)
    requires maxLen >= 1 && d1 <= d2
    ensures FuzzyBonus(d1, maxLen) >= FuzzyBonus(d2, maxLen)
  {
    if d2 < maxLen {
      DivMono(100 * (maxLen - d2) + maxLen, 100 * (maxLen - d1) + maxLen, 2 * maxLen);
    }
  }

  /** `scoreForProduct(p, q)`: the product's name and id are lower-cased before matching. */
  function Score(p: Product, q: string): (s: nat)
    ensures q == "" ==> s == 0
    ensures q != "" && (Contains(Lower(p.name), q) || Contains(Lower(p.id), q)) ==> s >= 100
    ensures s <= 150 + 20 * |Tokens(q)|
  {
    if q == "" then 0
    else
      var name := Lower(p.name);
      var id := Lower(p.id);
      var maxLen := Levenshtein.Max(Levenshtein.Max(|q|, |name|), 1);
      (if Contains(name, q) || Contains(id, q) then 100 else 0)
      + TokenBonus(Tokens(q), name, id)
      + FuzzyBonus(Levenshtein.Distance(q, name), maxLen)
  }

  /** A product whose lower-cased name is the query scores at least 150. */
  lemma ScoreOfName(p: Product, q: string)
    requires q != "" && Lower(p.name) == q
    ensures Score(p, q) >= 150
  {
    Levenshtein.DistanceSelf(q);
    FuzzyExact(Levenshtein.Max(Levenshtein.Max(|q|, |q|), 1));
    assert StartsWith(q, q);
  }

  // ---------------------------------------------------------------------------
  // Filtering, ranking and the fallback
  // ---------------------------------------------------------------------------

  /** The catalogue restricted to `category`; an empty category selects everything. */
  function ByCategory(catalog: seq<Product>, category: string): (r: seq<Product>)
    ensures category != "" ==> forall k :: 0 <= k < |r| ==> r[k].category == category
    ensures category != "" ==> forall k :: 0 <= k < |catalog| && catalog[k].category == category ==> catalog[k] in r
    ensures multiset(r) <= multiset(catalog)
  {
    if category == "" then catalog else Filter(catalog, (p: Product) => p.category == category)
  }

  /** The comparator `(a, b) => b.score - a.score`: `a` may precede `b` when it scores at least as much. */
  function ByScore(q: string): (Product, Product) -> bool
  {
    (a: Product, b: Product) => Score(a, q) >= Score(b, q)
  }

  lemma ByScoreTotal(q: string)
    ensures TotalPreorder(ByScore(q))
  {
  }

  /** Products scoring above zero, in catalogue order. */
  function Scoring(results: seq<Product>, q: string): seq<Product>
  {
    Filter(results, (p: Product) => Score(p, q) > 0)
  }

  /** Products whose lower-cased name or id contains the query. */
  function Mentioning(results: seq<Product>, q: string): seq<Product>
  {
    Filter(results, (p: Product) => Contains(Lower(p.name), q) || Contains(Lower(p.id), q))
  }

  /**
    The products whose name or id contains the query all score: the substring
    bonus alone is 100.
   */
  lemma MentioningScores(results: seq<Product>, q: string)
    requires q != "" && Scoring(results, q) == []
    ensures Mentioning(results, q) == []
  {
    forall k | 0 <= k < |results|
      ensures !(Contains(Lower(results[k].name), q) || Contains(Lower(results[k].id), q))
    {
    }
    FilterNone(results, (p: Product) => Contains(Lower(p.name), q) || Contains(Lower(p.id), q));
  }

  /**
    The ranked products are among the products searched, all score above
    zero, and there are none only when no product mentions the query.
   */
  lemma Ranked(results: seq<Product>, q: string)
    requires q != ""
    ensures var r := Sort(Scoring(results, q), ByScore(q));
      && multiset(r) <= multiset(results)
      && (forall k :: 0 <= k < |r| ==> Score(r[k], q) > 0)
      && (r == [] ==> Mentioning(results, q) == [])
  {
    var s := Scoring(results, q);
    var r := Sort(s, ByScore(q));
    ScoredPositive(results, q);
    assert multiset(r) == multiset(s);
    if r == [] {
      assert |multiset(s)| == 0;
      MentioningScores(results, q);
    }
  }

  /**
    Lines 114-125 of the storefront for a normalised query `q` and a category:
    the results are products of the catalogue, none shown more often than it
    is listed, and with a query every one of them scores above zero.
   */
  function Search(catalog: seq<Product>, q: string, category: string): (r: seq<Product>)
    ensures multiset(r) <= multiset(catalog)
    ensures q != "" ==> forall k :: 0 <= k < |r| ==> Score(r[k], q) > 0
  {
    var results := ByCategory(catalog, category);
    if q == "" then results
    else
      var scored := Sort(Scoring(results, q), ByScore(q));
      Ranked(results, q);
      if |scored| > 0 then scored else Mentioning(results, q)
  }

  /**
    The search for the raw `q` and `category` URL parameters. Without `q`,
    it lists the category; with `q`, every result scores on the normalised
    query; with a category, every result belongs to it.
   */
  function Results(catalog: seq<Product>, qParam: Option<string>, categoryParam: Option<string>): (r: seq<Product>)
    ensures multiset(r) <= multiset(catalog)
    ensures qParam.None? ==> r == ByCategory(catalog, categoryParam.GetOr(""))
    ensures NormalizeQuery(qParam) != "" ==> forall k :: 0 <= k < |r| ==> Score(r[k], NormalizeQuery(qParam)) > 0
    ensures categoryParam.Some? && categoryParam.value != "" ==> forall k :: 0 <= k < |r| ==> r[k].category == categoryParam.value
  {
    var category := categoryParam.GetOr("");
    QueryAbsent(catalog, qParam, category);
    if category != "" then
      SearchInCategory(catalog, NormalizeQuery(qParam), category);
      Search(catalog, NormalizeQuery(qParam), category)
    else Search(catalog, NormalizeQuery(qParam), category)
  }

  /** Without a `q` parameter, the search lists the category. */
  lemma QueryAbsent(catalog: seq<Product>, qParam: Option<string>, category: string)
    ensures qParam.None? ==> Search(catalog, NormalizeQuery(qParam), category) == ByCategory(catalog, category)
  {
    if qParam.None? {
      SearchEmptyQuery(catalog, category);
    }
  }

  /** With a category, every result belongs to it. */
  lemma SearchInCategory(catalog: seq<Product>, q: string, category: string)
    requires category != ""
    ensures forall k :: 0 <= k < |Search(catalog, q, category)| ==> Search(catalog, q, category)[k].category == category
  {
    var results := ByCategory(catalog, category);
    if q != "" {
      var s := Scoring(results, q);
      var scored := Sort(s, ByScore(q));
      forall k | 0 <= k < |scored|
        ensures scored[k].category == category
      {
        assert scored[k] in multiset(s);
      }
    }
  }

  /** Without a query, the result is the category's products in catalogue order. */
  lemma SearchEmptyQuery(catalog: seq<Product>, category: string)
    ensures Search(catalog, "", category) == ByCategory(catalog, category)
    ensures Search(catalog, "", "") == catalog
  {
  }

  /** When some product scores, the search returns the scored products sorted. */
  lemma SearchSorted(catalog: seq<Product>, q: string, category: string)
    requires q != "" && Scoring(ByCategory(catalog, category), q) != []
    ensures Search(catalog, q, category) == Sort(Scoring(ByCategory(catalog, category), q), ByScore(q))
  {
    SortNonEmpty(Scoring(ByCategory(catalog, category), q), ByScore(q));
  }

  /** Sorting by score orders by descending score and keeps equal scores in their order. */
  lemma SortedByScore(s: seq<Product>, q: string)
    ensures var r := Sort(s, ByScore(q));
      && (forall i, j :: 0 <= i < j < |r| ==> Score(r[i], q) >= Score(r[j], q))
      && (forall z :: Ties(r, z, ByScore(q)) == Ties(s, z, ByScore(q)))
  {
    ByScoreTotal(q);
    SortSorted(s, ByScore(q));
    forall z
      ensures Ties(Sort(s, ByScore(q)), z, ByScore(q)) == Ties(s, z, ByScore(q))
    {
      SortStable(s, z, ByScore(q));
    }
  }

  /** Sorting the scoring products keeps only products that score. */
  lemma ScoredPositive(results: seq<Product>, q: string)
    ensures var r := Sort(Scoring(results, q), ByScore(q));
      forall k :: 0 <= k < |r| ==> Score(r[k], q) > 0
  {
    var s := Scoring(results, q);
    var r := Sort(s, ByScore(q));
    forall k | 0 <= k < |r|
      ensures Score(r[k], q) > 0
    {
      assert r[k] in multiset(s);
    }
  }

  /**
    With a query that some product scores on, the result is exactly the
    products of the category scoring above zero, by descending score, with
    equal scores in catalogue order.
   */
  lemma SearchRanked(catalog: seq<Product>, q: string, category: string)
    requires q != "" && Scoring(ByCategory(catalog, category), q) != []
    ensures var r := Search(catalog, q, category);
      && multiset(r) == multiset(Scoring(ByCategory(catalog, category), q))
      && (forall k :: 0 <= k < |r| ==> Score(r[k], q) > 0)
      && (forall i, j :: 0 <= i < j < |r| ==> Score(r[i], q) >= Score(r[j], q))
      && (forall z :: Ties(r, z, ByScore(q)) == Ties(Scoring(ByCategory(catalog, category), q), z, ByScore(q)))
  {
    var results := ByCategory(catalog, category);
    SearchSorted(catalog, q, category);
    SortedByScore(Scoring(results, q), q);
    ScoredPositive(results, q);
  }

  /**
    The fallback never shows anything: a product whose name or id contains the
    query scores at least 100, so when nothing scores, nothing mentions the query.
   */
  lemma FallbackNeverAdds(catalog: seq<Product>, q: string, category: string)
    requires q != "" && Scoring(ByCategory(catalog, category), q) == []
    ensures Search(catalog, q, category) == []
  {
    MentioningScores(ByCategory(catalog, category), q);
  }
}

=== FILE: Seqs.dfy ===
/** Order-preserving selection over sequences: JavaScript's `Array.prototype.filter`. */
module Seqs {

  /** The elements of `xs` that satisfy `keep`, in their order in `xs`. */
  function Filter<T>(xs: seq<T>, keep: T -> bool): (r: seq<T>)
    ensures |r| <= |xs|
    ensures forall k :: 0 <= k < |r| ==> keep(r[k]) && r[k] in xs
    ensures forall k :: 0 <= k < |xs| && keep(xs[k]) ==> xs[k] in r
    ensures multiset(r) <= multiset(xs)
  {
    if xs == [] then []
    else
      assert xs == [xs[0]] + xs[1..];
      (if keep(xs[0]) then [xs[0]] else []) + Filter(xs[1..], keep)
  }

  lemma {:induction false} FilterAll<T>(xs: seq<T>, keep: T -> bool)
    requires forall k :: 0 <= k < |xs| ==> keep(xs[k])
    ensures Filter(xs, keep) == xs
    decreases |xs|
  {
    if xs != [] {
      FilterAll(xs[1..], keep);
    }
  }

  lemma {:induction false} FilterNone<T>(xs: seq<T>, keep: T -> bool)
    requires forall k :: 0 <= k < |xs| ==> !keep(xs[k])
    ensures Filter(xs, keep) == []
    decreases |xs|
  {
    if xs != [] {
      FilterNone(xs[1..], keep);
    }
  }

  /** The number of elements of `xs`, from position `i` on, that satisfy `keep`. */
  function CountFrom<T>(xs: seq<T>, i: nat, keep: T -> bool): (n: nat)
    requires i <= |xs|
    ensures n <= |xs| - i
    decreases |xs| - i
  {
    if i == |xs| then 0 else (if keep(xs[i]) then 1 else 0) + CountFrom(xs, i + 1, keep)
  }

  /** The number of elements of `xs` that satisfy `keep`. */
  function CountIf<T>(xs: seq<T>, keep: T -> bool): nat
  {
    CountFrom(xs, 0, keep)
  }

  predicate NoDuplicates<T(==)>(xs: seq<T>)
  {
    forall i, j :: 0 <= i < j < |xs| ==> xs[i] != xs[j]
  }

  /** `Array.from(new Set(xs))`: each element once, where it first occurs. */
  function Dedup<T(==)>(xs: seq<T>): (r: seq<T>)
    ensures NoDuplicates(r)
    ensures forall k :: 0 <= k < |r| ==> r[k] in xs
    ensures forall k :: 0 <= k < |xs| ==> xs[k] in r
    ensures |r| <= |xs|
    decreases |xs|
  {
    if xs == [] then []
    else
      var d := Dedup(xs[..|xs| - 1]);
      var x := xs[|xs| - 1];
      assert forall k :: 0 <= k < |xs| - 1 ==> xs[k] == xs[..|xs| - 1][k];
      if x in d then d else d + [x]
  }

  /** Deduplicating keeps exactly the elements there were. */
  lemma DedupMembers<T>(xs: seq<T>)
    ensures forall x :: x in Dedup(xs) <==> x in xs
  {
    var r := Dedup(xs);
    forall x | x in xs
      ensures x in r
    {
      var k :| 0 <= k < |xs| && xs[k] == x;
    }
  }

  /** A sequence without repetitions is its own set, in order. */
  lemma {:induction false} DedupNoop<T>(xs: seq<T>)
    requires NoDuplicates(xs)
    ensures Dedup(xs) == xs
    decreases |xs|
  {
    if xs != [] {
      var init := xs[..|xs| - 1];
      DedupNoop(init);
      assert xs[|xs| - 1] !in init;
      assert init + [xs[|xs| - 1]] == xs;
    }
  }

  /** Later elements never move earlier ones: the order is that of first occurrences. */
  lemma {:induction false} DedupPrefix<T>(xs: seq<T>, ys: seq<T>)
    ensures Dedup(xs) <= Dedup(xs + ys)
    decreases |ys|
  {
    if ys == [] {
      assert xs + ys == xs;
    } else {
      var zs := xs + ys[..|ys| - 1];
      DedupPrefix(xs, ys[..|ys| - 1]);
      assert (xs + ys)[..|xs + ys| - 1] == zs;
    }
  }

  /** Each candidate in turn is appended when it is not present yet and passes `keep`. */
  function AppendNew<T(==)>(xs: seq<T>, cands: seq<T>, keep: T -> bool): (r: seq<T>)
    ensures xs <= r
    decreases |cands|
  {
    if cands == [] then xs
    else
      var c := cands[0];
      AppendNew(if c !in xs && keep(c) then xs + [c] else xs, cands[1..], keep)
  }

  /** Entry `k` of `r` passes `keep`, is a candidate, and does not occur before position `k`. */
  predicate FreshCandidate<T(==)>(r: seq<T>, k: nat, cands: seq<T>, keep: T -> bool)
    requires k < |r|
  {
    keep(r[k]) && r[k] !in r[..k] && r[k] in cands
  }

  /** What is appended passes `keep`, is a candidate, and was not present before it. */
  lemma {:induction false} AppendNewAdds<T>(xs: seq<T>, cands: seq<T>, keep: T -> bool)
    ensures forall k :: |xs| <= k < |AppendNew(xs, cands, keep)| ==> FreshCandidate(AppendNew(xs, cands, keep), k, cands, keep)
    decreases |cands|
  {
    if cands != [] {
      var c := cands[0];
      var tail := cands[1..];
      var next := if c !in xs && keep(c) then xs + [c] else xs;
      var r := AppendNew(next, tail, keep);
      assert AppendNew(xs, cands, keep) == r;
      AppendNewAdds(next, tail, keep);
      assert next == r[..|next|];
      forall k | |xs| <= k < |r|
        ensures FreshCandidate(r, k, cands, keep)
      {
        if k < |next| {
          assert next == xs + [c] && k == |xs|;
          assert r[k] == next[k] == c;
          assert r[..k] == next[..k] == xs;
          assert c == cands[0];
        } else {
          assert FreshCandidate(r, k, tail, keep);
          assert r[k] in tail;
          var i :| 0 <= i < |tail| && tail[i] == r[k];
          assert cands[i + 1] == r[k];
        }
      }
    }
  }

  /** Every candidate that passes `keep` ends up present. */
  lemma {:induction false} AppendNewComplete<T>(xs: seq<T>, cands: seq<T>, keep: T -> bool)
    ensures forall c :: c in cands && keep(c) ==> c in AppendNew(xs, cands, keep)
    decreases |cands|
  {
    if cands != [] {
      var c := cands[0];
      var next := if c !in xs && keep(c) then xs + [c] else xs;
      AppendNewComplete(next, cands[1..], keep);
      var r := AppendNew(next, cands[1..], keep);
      forall d | d in cands && keep(d)
        ensures d in r
      {
        if d == c {
          var k :| 0 <= k < |next| && next[k] == c;
          assert r[k] == c;
        } else {
          assert d in cands[1..];
        }
      }
    }
  }

  lemma AppendAt<T>(a: seq<T>, b: seq<T>, k: nat)
    requires k < |b|
    ensures (a + b)[|a| + k] == b[k]
  {
  }

  lemma AppendAssoc<T>(a: seq<T>, b: seq<T>, c: seq<T>)
    ensures a + (b + c) == (a + b) + c
  {
  }

  /** The number of items of the groups `groups[s]`, …, `groups[t - 1]`. */
  function SizesBetween<G, R>(groups: seq<G>, items: G -> seq<R>, s: nat, t: nat): nat
    requires s <= t <= |groups|
    decreases t - s
  {
    if s == t then 0 else |items(groups[s])| + SizesBetween(groups, items, s + 1, t)
  }

  /** The items `xs` of group `g`, each made into a result numbered from `first` and indexed from 1. */
  function Numbered<G, R, B>(g: G, xs: seq<R>, make: (G, R, nat, nat) -> B, first: nat): (r: seq<B>)
    ensures |r| == |xs|
    ensures forall j :: 0 <= j < |xs| ==> r[j] == make(g, xs[j], j + first, j + 1)
  {
    seq(|xs|, j requires 0 <= j < |xs| => make(g, xs[j], j + first, j + 1))
  }

  /**
    Two nested loops with one counter: the items of `groups[s]`, `groups[s + 1]`, …
    in turn, numbered on from `first` across the groups and from 1 within each.
   */
  function NumberedFrom<G, R, B>(groups: seq<G>, items: G -> seq<R>, make: (G, R, nat, nat) -> B, s: nat, first: nat): (r: seq<B>)
    requires s <= |groups|
    ensures |r| == SizesBetween(groups, items, s, |groups|)
    decreases |groups| - s
  {
    if s == |groups| then []
    else
      var g := groups[s];
      Numbered(g, items(g), make, first) + NumberedFrom(groups, items, make, s + 1, first + |items(g)|)
  }

  lemma {:induction false} SizesBetweenBound<G, R>(groups: seq<G>, items: G -> seq<R>, s: nat, t: nat)
    requires s <= t < |groups|
    ensures SizesBetween(groups, items, s, t) + |items(groups[t])| <= SizesBetween(groups, items, s, |groups|)
    decreases t - s
  {
    if s < t {
      SizesBetweenBound(groups, items, s + 1, t);
    }
  }

  /** The numbering from group `s` is group `s`'s items followed by the numbering from group `s + 1`. */
  lemma NumberedFromUnfold<G, R, B>(groups: seq<G>, items: G -> seq<R>, make: (G, R, nat, nat) -> B, s: nat, first: nat)
    requires s < |groups|
    ensures NumberedFrom(groups, items, make, s, first)
            == Numbered(groups[s], items(groups[s]), make, first) + NumberedFrom(groups, items, make, s + 1, first + |items(groups[s])|)
  {
  }

  /** Item `j` of group `t` comes after the items of the groups before it, and is numbered accordingly. */
  lemma {:induction false} NumberedFromAt<G, R, B>(groups: seq<G>, items: G -> seq<R>, make: (G, R, nat, nat) -> B,
                                                   s: nat, first: nat, t: nat, j: nat, before: nat)
    requires s <= t < |groups| && j < |items(groups[t])| && before == SizesBetween(groups, items, s, t)
    ensures before + j < |NumberedFrom(groups, items, make, s, first)|
    ensures NumberedFrom(groups, items, make, s, first)[before + j] == make(groups[t], items(groups[t])[j], before + j + first, j + 1)
    decreases t - s
  {
    SizesBetweenBound(groups, items, s, t);
    var n := |items(groups[s])|;
    var head := Numbered(groups[s], items(groups[s]), make, first);
    var rest := NumberedFrom(groups, items, make, s + 1, first + n);
    NumberedFromUnfold(groups, items, make, s, first);
    if s < t {
      var k := SizesBetween(groups, items, s + 1, t);
      NumberedFromAt(groups, items, make, s + 1, first + n, t, j, k);
      AppendAt(head, rest, k + j);
      assert before + j == n + (k + j) && k + j + (first + n) == before + j + first;
    } else {
      assert (head + rest)[j] == head[j];
    }
  }

  /** A property every made result has of its number holds of every item of the numbering and its position. */
  lemma {:induction false} NumberedFromAll<G, R, B>(groups: seq<G>, items: G -> seq<R>, make: (G, R, nat, nat) -> B,
                                                    s: nat, first: nat, P: (B, nat) -> bool)
    requires s <= |groups|
    requires forall g, x, id, idx :: P(make(g, x, id, idx), id)
    ensures forall k :: 0 <= k < |NumberedFrom(groups, items, make, s, first)| ==> P(NumberedFrom(groups, items, make, s, first)[k], k + first)
    decreases |groups| - s
  {
    if s < |groups| {
      var g := groups[s];
      var n := |items(g)|;
      var head := Numbered(g, items(g), make, first);
      var rest := NumberedFrom(groups, items, make, s + 1, first + n);
      NumberedFromAll(groups, items, make, s + 1, first + n, P);
      assert NumberedFrom(groups, items, make, s, first) == head + rest;
      forall k | 0 <= k < |head + rest|
        ensures P((head + rest)[k], k + first)
      {
        if k < n {
          assert (head + rest)[k] == head[k];
        } else {
          assert (head + rest)[k] == rest[k - n];
          assert k - n + (first + n) == k + first;
        }
      }
    }
  }
}

=== FILE: Slugs.dfy ===
/**
  URL slugs as the import scripts derive them from product names: lower-case,
  every run of characters outside a kept class replaced by one '-', and (in
  scripts/import-products.js) one leading and one trailing '-' removed.
 */
module Slugs {
  import opened Text

  /**
    `s.replace(/[^…]+/g, sep)` for the kept class `keep`: every maximal run of
    characters outside the class becomes the single character `sep`.
   */
  function ReplaceRuns(s: string, keep: char -> bool, sep: char): (r: string)
    ensures forall i :: 0 <= i < |r| ==> keep(r[i]) || r[i] == sep
    ensures |s| > 0 ==> |r| > 0 && r[0] == (if keep(s[0]) then s[0] else sep)
    ensures |r| <= |s|
    decreases |s|
  {
    if s == [] then []
    else if keep(s[0]) then [s[0]] + ReplaceRuns(s[1..], keep, sep)
    else if |s| > 1 && !keep(s[1]) then ReplaceRuns(s[1..], keep, sep)
    else [sep] + ReplaceRuns(s[1..], keep, sep)
  }

  /** No two neighbours of `s` are both outside the class `keep`. */
  predicate NoDoubleSep(s: string, keep: char -> bool)
  {
    forall i :: 0 <= i < |s| - 1 ==> keep(s[i]) || keep(s[i + 1])
  }

  /** A replaced run never touches another. */
  lemma {:induction false} ReplaceRunsSingle(s: string, keep: char -> bool, sep: char)
    ensures NoDoubleSep(ReplaceRuns(s, keep, sep), keep)
    decreases |s|
  {
    if s != [] {
      ReplaceRunsSingle(s[1..], keep, sep);
    }
  }

  /** Replacing runs keeps the kept characters, in order, and nothing else. */
  lemma {:induction false} ReplaceRunsKept(s: string, keep: char -> bool, sep: char, drop: char -> bool)
    requires forall c :: drop(c) == !keep(c)
    requires drop(sep)
    ensures Remove(ReplaceRuns(s, keep, sep), drop) == Remove(s, drop)
    decreases |s|
  {
    if s != [] {
      ReplaceRunsKept(s[1..], keep, sep, drop);
      var rest := ReplaceRuns(s[1..], keep, sep);
      if keep(s[0]) {
        RemoveAppend([s[0]], rest, drop);
      } else if !(|s| > 1 && !keep(s[1])) {
        RemoveAppend([sep], rest, drop);
      }
    }
  }

  /** Replacing runs changes nothing in a string with no two neighbouring outsiders, all of them `sep`. */
  lemma {:induction false} ReplaceRunsNoop(s: string, keep: char -> bool, sep: char)
    requires forall i :: 0 <= i < |s| ==> keep(s[i]) || s[i] == sep
    requires NoDoubleSep(s, keep)
    ensures ReplaceRuns(s, keep, sep) == s
    decreases |s|
  {
    if s != [] {
      ReplaceRunsNoop(s[1..], keep, sep);
      assert s == [s[0]] + s[1..];
    }
  }

  /** `s.replace(/^-/, '')`. */
  function DropLeadingDash(s: string): string
  {
    if |s| > 0 && s[0] == '-' then s[1..] else s
  }

  /** `s.replace(/-$/, '')`. */
  function DropTrailingDash(s: string): string
  {
    if |s| > 0 && s[|s| - 1] == '-' then s[..|s| - 1] else s
  }

  /** `s.replace(/(^-|-$)/g, '')`: one leading and one trailing '-' removed. */
  function StripDashEnds(s: string): (r: string)
    ensures |r| <= |s|
    ensures forall i :: 0 <= i < |r| ==> r[i] in s
  {
    DropTrailingDash(DropLeadingDash(s))
  }

  lemma DropLeadingDashKept(s: string, drop: char -> bool)
    requires drop('-')
    ensures Remove(DropLeadingDash(s), drop) == Remove(s, drop)
  {
    if |s| > 0 && s[0] == '-' {
      assert s == [s[0]] + s[1..];
      RemoveAppend([s[0]], s[1..], drop);
    }
  }

  lemma DropTrailingDashKept(s: string, drop: char -> bool)
    requires drop('-')
    ensures Remove(DropTrailingDash(s), drop) == Remove(s, drop)
  {
    if |s| > 0 && s[|s| - 1] == '-' {
      var init := s[..|s| - 1];
      assert s == init + [s[|s| - 1]];
      RemoveAppend(init, [s[|s| - 1]], drop);
    }
  }

  /** Stripping the ends removes only dashes. */
  lemma StripDashEndsKept(s: string, drop: char -> bool)
    requires drop('-')
    ensures Remove(StripDashEnds(s), drop) == Remove(s, drop)
  {
    DropLeadingDashKept(s, drop);
    DropTrailingDashKept(DropLeadingDash(s), drop);
  }

  predicate NotLowerAlnum(c: char) { !IsLowerAlnum(c) }

  /** The characters a derived slug may hold: `[a-z0-9-]`. */
  predicate IsSlugChar(c: char) { IsLowerAlnum(c) || c == '-' }

  /** The shape of a derived slug: `[a-z0-9-]` only, no "--", a letter or digit at either end. */
  predicate IsSlug(s: string)
  {
    && (forall i :: 0 <= i < |s| ==> IsSlugChar(s[i]))
    && NoDoubleSep(s, IsLowerAlnum)
    && (s == [] || (IsLowerAlnum(s[0]) && IsLowerAlnum(s[|s| - 1])))
  }

  /** `s.toLowerCase().replace(/[^a-z0-9]+/g, '-')`. */
  function Dashed(s: string): (r: string)
    ensures forall i :: 0 <= i < |r| ==> IsSlugChar(r[i])
    ensures |s| > 0 ==> |r| > 0
  {
    ReplaceRuns(Lower(s), IsLowerAlnum, '-')
  }

  /** Slug characters without two neighbouring dashes. */
  predicate DashedShape(s: string)
  {
    (forall i :: 0 <= i < |s| ==> IsSlugChar(s[i])) && NoDoubleSep(s, IsLowerAlnum)
  }

  /** After the leading dash goes, a dashed string starts with a letter or digit. */
  lemma DropLeadingDashShape(s: string)
    requires DashedShape(s)
    ensures DashedShape(DropLeadingDash(s))
    ensures |DropLeadingDash(s)| > 0 ==> IsLowerAlnum(DropLeadingDash(s)[0])
  {
    var u := DropLeadingDash(s);
    if |s| > 0 && s[0] == '-' {
      assert forall i :: 0 <= i < |u| ==> u[i] == s[i + 1];
      if |u| > 0 {
        assert IsLowerAlnum(s[0]) || IsLowerAlnum(s[1]);
      }
    }
  }

  /** After the trailing dash goes too, what is left has slug shape. */
  lemma DropTrailingDashShape(u: string)
    requires DashedShape(u)
    requires |u| > 0 ==> IsLowerAlnum(u[0])
    ensures IsSlug(DropTrailingDash(u))
  {
    var r := DropTrailingDash(u);
    if |u| > 0 && u[|u| - 1] == '-' {
      assert forall i :: 0 <= i < |r| ==> r[i] == u[i];
      if |r| > 0 {
        assert IsLowerAlnum(u[|u| - 2]);
      }
    }
  }

  /** `s.toLowerCase().replace(/[^a-z0-9]+/g, '-').replace(/(^-|-$)/g, '')`. */
  function Slugify(s: string): (r: string)
    ensures IsSlug(r)
  {
    var t := Dashed(s);
    ReplaceRunsSingle(Lower(s), IsLowerAlnum, '-');
    DropLeadingDashShape(t);
    DropTrailingDashShape(DropLeadingDash(t));
    StripDashEnds(t)
  }

  /** The letters and digits of a slug are those of the lower-cased name, in order. */
  lemma SlugifyKept(s: string)
    ensures Remove(Slugify(s), NotLowerAlnum) == Remove(Lower(s), NotLowerAlnum)
  {
    ReplaceRunsKept(Lower(s), IsLowerAlnum, '-', NotLowerAlnum);
    StripDashEndsKept(Dashed(s), NotLowerAlnum);
    assert Slugify(s) == StripDashEnds(Dashed(s));
  }

  /** A string already in slug shape is its own slug. */
  lemma SlugifyNoop(s: string)
    requires IsSlug(s)
    ensures Slugify(s) == s
  {
    DashedNoop(s);
    assert s == [] || (s[0] != '-' && s[|s| - 1] != '-');
  }

  lemma DashedNoop(s: string)
    requires IsSlug(s)
    ensures Dashed(s) == s
  {
    assert NoUpper(s);
    LowerSpec(s);
    ReplaceRunsNoop(s, IsLowerAlnum, '-');
  }

  /** Deriving a slug is idempotent. */
  lemma SlugifyIdempotent(s: string)
    ensures Slugify(Slugify(s)) == Slugify(s)
  {
    SlugifyNoop(Slugify(s));
  }
}

=== FILE: Sorting.dfy ===
/**
  Stable sorting, as ECMA-262 (2019 and later) requires of `Array.prototype.sort`:
  with a consistent comparator the result is ordered, is a permutation of the
  input, and keeps elements that compare equal in their input order.
  The comparator is a total preorder `le`, where `le(a, b)` means that `a` may
  come before `b` and `le(a, b) && le(b, a)` means the two compare equal.
 */
module Sorting {
  import opened Seqs

  ghost predicate TotalPreorder<T(!new)>(le: (T, T) -> bool)
  {
    && (forall a, b :: le(a, b) || le(b, a))
    && (forall a, b, c :: le(a, b) && le(b, c) ==> le(a, c))
  }

  predicate Sorted<T>(s: seq<T>, le: (T, T) -> bool)
  {
    forall i, j :: 0 <= i < j < |s| ==> le(s[i], s[j])
  }

  predicate Equiv<T>(a: T, b: T, le: (T, T) -> bool)
  {
    le(a, b) && le(b, a)
  }

  /** The elements of `s` that compare equal to `x`, in their order in `s`. */
  function Ties<T>(s: seq<T>, x: T, le: (T, T) -> bool): seq<T>
  {
    if s == [] then [] else (if Equiv(s[0], x, le) then [s[0]] else []) + Ties(s[1..], x, le)
  }

  /** Inserts `x` after every element of `ys` that may precede it. */
  function Insert<T>(ys: seq<T>, x: T, le: (T, T) -> bool): (r: seq<T>)
    ensures multiset(r) == multiset(ys) + multiset{x}
  {
    if ys == [] then [x]
    else if le(ys[0], x) then
      assert ys == [ys[0]] + ys[1..];
      [ys[0]] + Insert(ys[1..], x, le)
    else [x] + ys
  }

  /** Insertion sort, taking the elements in input order. */
  function Sort<T>(xs: seq<T>, le: (T, T) -> bool): (r: seq<T>)
    ensures multiset(r) == multiset(xs)
  {
    if xs == [] then []
    else
      assert xs == xs[..|xs| - 1] + [xs[|xs| - 1]];
      Insert(Sort(xs[..|xs| - 1], le), xs[|xs| - 1], le)
  }

  lemma {:induction false} TiesAppend<T>(a: seq<T>, b: seq<T>, x: T, le: (T, T) -> bool)
    ensures Ties(a + b, x, le) == Ties(a, x, le) + Ties(b, x, le)
    decreases |a|
  {
    if a == [] {
      assert a + b == b;
    } else {
      var ab := a + b;
      var h := if Equiv(a[0], x, le) then [a[0]] else [];
      assert ab[0] == a[0] && ab[1..] == a[1..] + b;
      TiesAppend(a[1..], b, x, le);
      assert Ties(ab, x, le) == h + (Ties(a[1..], x, le) + Ties(b, x, le));
      assert Ties(a, x, le) == h + Ties(a[1..], x, le);
    }
  }

  lemma {:induction false} TiesNone<T>(s: seq<T>, x: T, le: (T, T) -> bool)
    requires forall i :: 0 <= i < |s| ==> !Equiv(s[i], x, le)
    ensures Ties(s, x, le) == []
    decreases |s|
  {
    if s != [] {
      TiesNone(s[1..], x, le);
    }
  }

  lemma SortedCons<T>(h: T, rest: seq<T>, le: (T, T) -> bool)
    requires Sorted(rest, le)
    requires forall j :: 0 <= j < |rest| ==> le(h, rest[j])
    ensures Sorted([h] + rest, le)
  {
    var s := [h] + rest;
    forall i, j | 0 <= i < j < |s|
      ensures le(s[i], s[j])
    {
      assert s[j] == rest[j - 1];
      if i > 0 {
        assert s[i] == rest[i - 1];
      }
    }
  }

  lemma {:induction false} InsertSorted<T(!new)>(ys: seq<T>, x: T, le: (T, T) -> bool)
    requires TotalPreorder(le) && Sorted(ys, le)
    ensures Sorted(Insert(ys, x, le), le)
    decreases |ys|
  {
    if ys != [] {
      if le(ys[0], x) {
        InsertSorted(ys[1..], x, le);
        var tail := Insert(ys[1..], x, le);
        forall j | 0 <= j < |tail|
          ensures le(ys[0], tail[j])
        {
          assert tail[j] in multiset(ys[1..]) + multiset{x};
          if tail[j] != x {
            var k :| 0 <= k < |ys[1..]| && ys[1..][k] == tail[j];
            assert ys[k + 1] == tail[j];
          }
        }
        SortedCons(ys[0], tail, le);
      } else {
        forall j | 0 <= j < |ys|
          ensures le(x, ys[j])
        {
          assert le(x, ys[0]);
          if j > 0 {
            assert le(ys[0], ys[j]);
          }
        }
        SortedCons(x, ys, le);
      }
    }
  }

  lemma SortedTail<T>(ys: seq<T>, le: (T, T) -> bool)
    requires ys != [] && Sorted(ys, le)
    ensures Sorted(ys[1..], le)
  {
    forall i, j | 0 <= i < j < |ys| - 1
      ensures le(ys[1..][i], ys[1..][j])
    {
      assert ys[1..][i] == ys[i + 1] && ys[1..][j] == ys[j + 1];
    }
  }

  /** Nothing in a sorted sequence whose head must follow `x` compares equal to `x`. */
  lemma NoTiesAfter<T(!new)>(ys: seq<T>, x: T, z: T, le: (T, T) -> bool)
    requires TotalPreorder(le) && Sorted(ys, le)
    requires ys != [] && !le(ys[0], x) && Equiv(x, z, le)
    ensures Ties(ys, z, le) == []
  {
    forall i | 0 <= i < |ys|
      ensures !Equiv(ys[i], z, le)
    {
      if i > 0 {
        assert le(ys[0], ys[i]);
      }
    }
    TiesNone(ys, z, le);
  }

  lemma TiesSingle<T>(x: T, z: T, le: (T, T) -> bool)
    ensures Ties([x], z, le) == (if Equiv(x, z, le) then [x] else [])
  {
    assert [x][1..] == [];
  }

  /** Inserting after the head adds no tie beyond those of inserting into the tail. */
  lemma InsertTiesStep<T>(ys: seq<T>, x: T, z: T, le: (T, T) -> bool)
    requires ys != [] && le(ys[0], x)
    requires Ties(Insert(ys[1..], x, le), z, le) == Ties(ys[1..], z, le) + Ties([x], z, le)
    ensures Ties(Insert(ys, x, le), z, le) == Ties(ys, z, le) + Ties([x], z, le)
  {
    var tail := Insert(ys[1..], x, le);
    assert Insert(ys, x, le) == [ys[0]] + tail;
    TiesAppend([ys[0]], tail, z, le);
    assert [ys[0]] + ys[1..] == ys;
    TiesAppend([ys[0]], ys[1..], z, le);
    var a, b, c := Ties([ys[0]], z, le), Ties(ys[1..], z, le), Ties([x], z, le);
    AppendAssoc(a, b, c);
  }

  /** Inserting in front of a sorted sequence puts `x` after everything that ties with it. */
  lemma InsertTiesFront<T(!new)>(ys: seq<T>, x: T, z: T, le: (T, T) -> bool)
    requires TotalPreorder(le) && Sorted(ys, le)
    requires ys != [] && !le(ys[0], x)
    ensures Ties(Insert(ys, x, le), z, le) == Ties(ys, z, le) + Ties([x], z, le)
  {
    assert Insert(ys, x, le) == [x] + ys;
    TiesAppend([x], ys, z, le);
    TiesSingle(x, z, le);
    if Equiv(x, z, le) {
      NoTiesAfter(ys, x, z, le);
    }
  }

  lemma {:induction false} InsertTies<T(!new)>(ys: seq<T>, x: T, z: T, le: (T, T) -> bool)
    requires TotalPreorder(le) && Sorted(ys, le)
    ensures Ties(Insert(ys, x, le), z, le) == Ties(ys, z, le) + Ties([x], z, le)
    decreases |ys|
  {
    if ys == [] {
      assert Insert(ys, x, le) == [x];
    } else if le(ys[0], x) {
      SortedTail(ys, le);
      InsertTies(ys[1..], x, z, le);
      InsertTiesStep(ys, x, z, le);
    } else {
      InsertTiesFront(ys, x, z, le);
    }
  }

  /** Sorting keeps a non-empty sequence non-empty. */
  lemma SortNonEmpty<T>(xs: seq<T>, le: (T, T) -> bool)
    requires xs != []
    ensures Sort(xs, le) != []
  {
    assert xs[0] in multiset(Sort(xs, le));
  }

  /** The sort orders its input. */
  lemma {:induction false} SortSorted<T(!new)>(xs: seq<T>, le: (T, T) -> bool)
    requires TotalPreorder(le)
    ensures Sorted(Sort(xs, le), le)
    decreases |xs|
  {
    if xs != [] {
      SortSorted(xs[..|xs| - 1], le);
      InsertSorted(Sort(xs[..|xs| - 1], le), xs[|xs| - 1], le);
    }
  }

  /** The sort is stable: each class of equal elements keeps its input order. */
  lemma {:induction false} SortStable<T(!new)>(xs: seq<T>, z: T, le: (T, T) -> bool)
    requires TotalPreorder(le)
    ensures Ties(Sort(xs, le), z, le) == Ties(xs, z, le)
    decreases |xs|
  {
    if xs != [] {
      var init := xs[..|xs| - 1];
      var last := xs[|xs| - 1];
      SortStable(init, z, le);
      SortSorted(init, le);
      InsertTies(Sort(init, le), last, z, le);
      assert xs == init + [last];
      TiesAppend(init, [last], z, le);
    }
  }
}

=== FILE: Text.dfy ===
/**
  String primitives with the meaning JavaScript gives them. Case mapping is
  restricted to the ASCII letters; whitespace is the full set of code points
  that the regular-expression class `\s` matches and `String.prototype.trim`
  removes.
 */
module Text {
  import opened Seqs

  // ---------------------------------------------------------------------------
  // Character classes and case mapping
  // ---------------------------------------------------------------------------

  predicate IsUpper(c: char) { 'A' <= c <= 'Z' }

  predicate IsLower(c: char) { 'a' <= c <= 'z' }

  predicate IsDigit(c: char) { '0' <= c <= '9' }

  /** The class `[a-z0-9]`. */
  predicate IsLowerAlnum(c: char) { IsLower(c) || IsDigit(c) }

  /** JavaScript's WhiteSpace and LineTerminator code points. */
  predicate IsSpace(c: char)
  {
    || '\t' <= c <= '\r'
    || c == ' '
    || c == '\U{00A0}'
    || c == '\U{1680}'
    || '\U{2000}' <= c <= '\U{200A}'
    || c == '\U{2028}'
    || c == '\U{2029}'
    || c == '\U{202F}'
    || c == '\U{205F}'
    || c == '\U{3000}'
    || c == '\U{FEFF}'
  }

  function LowerChar(c: char): (r: char)
    ensures !IsUpper(r)
    ensures !IsUpper(c) ==> r == c
  {
    if IsUpper(c) then (c as int + 32) as char else c
  }

  function UpperChar(c: char): (r: char)
    ensures !IsLower(r)
    ensures !IsLower(c) ==> r == c
  {
    if IsLower(c) then (c as int - 32) as char else c
  }

  /** `s.toLowerCase()` on ASCII letters. */
  function Lower(s: string): string
  {
    seq(|s|, i requires 0 <= i < |s| => LowerChar(s[i]))
  }

  /** `s.toUpperCase()` on ASCII letters. */
  function Upper(s: string): string
  {
    seq(|s|, i requires 0 <= i < |s| => UpperChar(s[i]))
  }

  predicate NoUpper(s: string)
  {
    forall i :: 0 <= i < |s| ==> !IsUpper(s[i])
  }

  /** Lower-casing leaves no upper-case letter and changes nothing else. */
  lemma LowerSpec(s: string)
    ensures |Lower(s)| == |s|
    ensures NoUpper(Lower(s))
    ensures NoUpper(s) ==> Lower(s) == s
    ensures forall i :: 0 <= i < |s| && !IsUpper(s[i]) ==> Lower(s)[i] == s[i]
  {
  }

  // ---------------------------------------------------------------------------
  // Trimming
  // ---------------------------------------------------------------------------

  function TrimStart(s: string): (r: string)
    ensures |r| <= |s| && r == s[|s| - |r|..]
    ensures r == [] || !IsSpace(r[0])
    ensures forall i :: 0 <= i < |s| - |r| ==> IsSpace(s[i])
    decreases |s|
  {
    if |s| > 0 && IsSpace(s[0]) then TrimStart(s[1..]) else s
  }

  function TrimEnd(s: string): (r: string)
    ensures |r| <= |s| && r == s[..|r|]
    ensures r == [] || !IsSpace(r[|r| - 1])
    ensures forall i :: |r| <= i < |s| ==> IsSpace(s[i])
    decreases |s|
  {
    if |s| > 0 && IsSpace(s[|s| - 1]) then TrimEnd(s[..|s| - 1]) else s
  }

  /** A string with no whitespace at either end. */
  predicate Trimmed(s: string)
  {
    s == [] || (!IsSpace(s[0]) && !IsSpace(s[|s| - 1]))
  }

  /** `s.trim()`: the slice of `s` left once leading and trailing whitespace is removed. */
  function Trim(s: string): (r: string)
    ensures |r| <= |s|
    ensures Trimmed(r)
    ensures forall i :: 0 <= i < |r| ==> r[i] in s
  {
    var t := TrimStart(s);
    assert forall i :: 0 <= i < |t| ==> t[i] == s[|s| - |t| + i];
    TrimEnd(t)
  }

  /** Every character of the trimmed string satisfies what every character of the string does. */
  lemma TrimKeeps(s: string, P: char -> bool)
    requires forall i :: 0 <= i < |s| ==> P(s[i])
    ensures forall i :: 0 <= i < |Trim(s)| ==> P(Trim(s)[i])
  {
    var t := TrimStart(s);
    assert forall i :: 0 <= i < |t| ==> t[i] == s[|s| - |t| + i];
    var r := TrimEnd(t);
    assert forall i :: 0 <= i < |r| ==> r[i] == t[i];
  }

  /** Trimming a string with no whitespace at either end changes nothing. */
  lemma TrimNoop(s: string)
    requires Trimmed(s)
    ensures Trim(s) == s
  {
  }

  /** A string that is all whitespace trims to the empty string, and only such a string does. */
  lemma TrimEmptyIff(s: string)
    ensures Trim(s) == [] <==> forall i :: 0 <= i < |s| ==> IsSpace(s[i])
  {
    var t := TrimStart(s);
    if Trim(s) != [] {
      var r := Trim(s);
      assert !IsSpace(r[0]) && r[0] == s[|s| - |t|];
    }
  }

  // ---------------------------------------------------------------------------
  // Prefixes and substrings
  // ---------------------------------------------------------------------------

  predicate StartsWith(s: string, p: string)
  {
    |p| <= |s| && s[..|p|] == p
  }

  predicate EndsWith(s: string, p: string)
  {
    |p| <= |s| && s[|s| - |p|..] == p
  }

  /** The index of the first `c` in `s`, or -1 when there is none. */
  function IndexOf(s: string, c: char): (k: int)
    ensures -1 <= k < |s|
    ensures k >= 0 ==> s[k] == c
    ensures forall i :: 0 <= i < |s| && (k < 0 || i < k) ==> s[i] != c
    decreases |s|
  {
    if s == [] then -1
    else if s[0] == c then 0
    else
      var k := IndexOf(s[1..], c);
      if k < 0 then -1 else k + 1
  }

  /** The first `c` of `x + [c] + y`, when `x` has none, is the one after `x`. */
  lemma IndexOfSplit(x: string, c: char, y: string)
    requires forall i :: 0 <= i < |x| ==> x[i] != c
    ensures IndexOf(x + [c] + y, c) == |x|
    ensures (x + [c] + y)[..|x|] == x && (x + [c] + y)[|x| + 1..] == y
  {
    var s := x + [c] + y;
    assert s[|x|] == c;
    assert forall i :: 0 <= i < |x| ==> s[i] == x[i];
  }

  /** A string is the part before position `i`, the character there, and the part after. */
  lemma SplitAround(s: string, i: nat)
    requires i < |s|
    ensures s == s[..i] + [s[i]] + s[i + 1..]
  {
  }

  /** Strings that agree around a middle part agree in the middle. */
  lemma MiddleEqual(p: string, x: string, y: string, e: string)
    requires p + x + e == p + y + e
    ensures x == y
  {
    var s := p + x + e;
    assert |x| == |y|;
    assert s[|p|..|p| + |x|] == x;
    assert (p + y + e)[|p|..|p| + |y|] == y;
  }

  /** `s.includes(t)`: `t` occurs in `s` at some position. */
  predicate Contains(s: string, t: string)
    decreases |s|
  {
    StartsWith(s, t) || (|s| > 0 && Contains(s[1..], t))
  }

  /** An occurrence at any position is found. */
  lemma {:induction false} ContainsAt(s: string, t: string, i: nat)
    requires i + |t| <= |s| && s[i..i + |t|] == t
    ensures Contains(s, t)
    decreases i
  {
    if i > 0 {
      assert s[1..][i - 1..i - 1 + |t|] == s[i..i + |t|];
      ContainsAt(s[1..], t, i - 1);
    }
  }

  /** A found occurrence sits at some position. */
  lemma {:induction false} ContainsWitness(s: string, t: string) returns (i: nat)
    requires Contains(s, t)
    ensures i + |t| <= |s| && s[i..i + |t|] == t
    decreases |s|
  {
    if StartsWith(s, t) {
      i := 0;
    } else {
      var j := ContainsWitness(s[1..], t);
      i := j + 1;
      assert s[i..i + |t|] == s[1..][j..j + |t|];
    }
  }

  // ---------------------------------------------------------------------------
  // Removing characters
  // ---------------------------------------------------------------------------

  /** The characters of `s` that `drop` does not select, in their original order. */
  function Remove(s: string, drop: char -> bool): (r: string)
    ensures |r| <= |s|
    ensures forall i :: 0 <= i < |r| ==> !drop(r[i]) && r[i] in s
    ensures forall i :: 0 <= i < |s| && !drop(s[i]) ==> s[i] in r
    decreases |s|
  {
    if s == [] then []
    else (if drop(s[0]) then [] else [s[0]]) + Remove(s[1..], drop)
  }

  /** Removing characters that are not there changes nothing. */
  lemma {:induction false} RemoveNothing(s: string, drop: char -> bool)
    requires forall i :: 0 <= i < |s| ==> !drop(s[i])
    ensures Remove(s, drop) == s
    decreases |s|
  {
    if s != [] {
      RemoveNothing(s[1..], drop);
    }
  }

  lemma {:induction false} RemoveAppend(a: string, b: string, drop: char -> bool)
    ensures Remove(a + b, drop) == Remove(a, drop) + Remove(b, drop)
    decreases |a|
  {
    if a != [] {
      assert (a + b)[0] == a[0];
      assert (a + b)[1..] == a[1..] + b;
      RemoveAppend(a[1..], b, drop);
      var h: string := if drop(a[0]) then [] else [a[0]];
      assert Remove(a + b, drop) == h + (Remove(a[1..], drop) + Remove(b, drop));
      assert Remove(a, drop) == h + Remove(a[1..], drop);
      AppendAssoc(h, Remove(a[1..], drop), Remove(b, drop));
    } else {
      assert a + b == b;
    }
  }

  /** `pieces.map(s => s.trim())`. */
  function TrimEach(pieces: seq<string>): (r: seq<string>)
    ensures |r| == |pieces|
    ensures forall k :: 0 <= k < |r| ==> r[k] == Trim(pieces[k]) && Trimmed(r[k])
  {
    seq(|pieces|, k requires 0 <= k < |pieces| => Trim(pieces[k]))
  }

  /** Trimming pieces free of separators leaves them free of separators. */
  lemma TrimEachNoneOf(pieces: seq<string>, isSep: char -> bool)
    requires AllNoneOf(pieces, isSep)
    ensures AllNoneOf(TrimEach(pieces), isSep)
  {
    var r := TrimEach(pieces);
    forall k | 0 <= k < |r|
      ensures NoneOf(r[k], isSep)
    {
      TrimKeeps(pieces[k], c => !isSep(c));
    }
  }

  /** Pieces that are already trimmed come back unchanged. */
  lemma TrimEachNoop(pieces: seq<string>)
    requires forall k :: 0 <= k < |pieces| ==> Trimmed(pieces[k])
    ensures TrimEach(pieces) == pieces
  {
    forall k | 0 <= k < |pieces| {
      TrimNoop(pieces[k]);
    }
  }

  // ---------------------------------------------------------------------------
  // Splitting
  // ---------------------------------------------------------------------------

  predicate NoneOf(s: string, isSep: char -> bool)
  {
    forall i :: 0 <= i < |s| ==> !isSep(s[i])
  }

  predicate AllNoneOf(pieces: seq<string>, isSep: char -> bool)
  {
    forall k :: 0 <= k < |pieces| ==> NoneOf(pieces[k], isSep)
  }

  function Concat(pieces: seq<string>): string
  {
    if pieces == [] then [] else pieces[0] + Concat(pieces[1..])
  }

  /** The pieces separated by single `sep` characters. */
  function Join(pieces: seq<string>, sep: char): string
    requires |pieces| >= 1
  {
    if |pieces| == 1 then pieces[0] else pieces[0] + [sep] + Join(pieces[1..], sep)
  }

  /**
    `s.split(/[…]+/)` for the character class `isSep`: the pieces between maximal
    separator runs, with an empty first (last) piece when `s` starts (ends) with a
    separator.
   */
  function SplitRuns(s: string, isSep: char -> bool): (r: seq<string>)
    ensures |r| >= 1
    ensures AllNoneOf(r, isSep)
    decreases |s|
  {
    if s == [] then [""]
    else
      var rest := SplitRuns(s[1..], isSep);
      if isSep(s[0]) then
        (if |s| > 1 && isSep(s[1]) then rest else [""] + rest)
      else
        [[s[0]] + rest[0]] + rest[1..]
  }

  /** Splitting on separator runs loses exactly the separators. */
  lemma {:induction false} SplitRunsConcat(s: string, isSep: char -> bool)
    ensures Concat(SplitRuns(s, isSep)) == Remove(s, isSep)
    decreases |s|
  {
    if s != [] {
      SplitRunsConcat(s[1..], isSep);
      var rest := SplitRuns(s[1..], isSep);
      if !isSep(s[0]) {
        var r := SplitRuns(s, isSep);
        assert r[1..] == rest[1..];
        assert Concat(rest) == rest[0] + Concat(rest[1..]);
      }
    }
  }

  lemma {:induction false} SplitRunsPrefix(p: string, t: string, isSep: char -> bool)
    requires NoneOf(p, isSep)
    ensures SplitRuns(p + t, isSep) == [p + SplitRuns(t, isSep)[0]] + SplitRuns(t, isSep)[1..]
    decreases |p|
  {
    var x := SplitRuns(t, isSep);
    if p == [] {
      assert p + t == t;
      assert p + x[0] == x[0];
      assert [x[0]] + x[1..] == x;
    } else {
      assert (p + t)[0] == p[0];
      assert (p + t)[1..] == p[1..] + t;
      SplitRunsPrefix(p[1..], t, isSep);
      var rest := SplitRuns(p[1..] + t, isSep);
      assert rest[0] == p[1..] + x[0];
      assert rest[1..] == x[1..];
      assert [p[0]] + (p[1..] + x[0]) == p + x[0];
    }
  }

  /** Splitting on separator runs undoes joining non-empty pieces that hold no separator. */
  lemma {:induction false} SplitRunsJoin(pieces: seq<string>, sep: char, isSep: char -> bool)
    requires |pieces| >= 1 && AllNoneOf(pieces, isSep) && isSep(sep)
    requires forall k :: 0 <= k < |pieces| ==> pieces[k] != ""
    ensures SplitRuns(Join(pieces, sep), isSep) == pieces
    decreases |pieces|
  {
    if |pieces| == 1 {
      SplitRunsPrefix(pieces[0], "", isSep);
      assert pieces[0] + "" == pieces[0];
      assert [pieces[0]] == pieces;
    } else {
      var tail := Join(pieces[1..], sep);
      SplitRunsJoin(pieces[1..], sep, isSep);
      assert tail[0] == pieces[1][0];
      assert pieces[0] + [sep] + tail == pieces[0] + ([sep] + tail);
      SplitRunsPrefix(pieces[0], [sep] + tail, isSep);
      assert ([sep] + tail)[0] == sep;
      assert ([sep] + tail)[1..] == tail;
      var y := SplitRuns([sep] + tail, isSep);
      assert y == [""] + pieces[1..];
      assert pieces[0] + y[0] == pieces[0];
      assert [pieces[0]] + y[1..] == pieces;
    }
  }

  /** `s.split(/[…]/)` for the character class `isSep`: every separator ends a piece. */
  function SplitEach(s: string, isSep: char -> bool): (r: seq<string>)
    ensures |r| >= 1
    ensures AllNoneOf(r, isSep)
    decreases |s|
  {
    if s == [] then [""]
    else
      var rest := SplitEach(s[1..], isSep);
      if isSep(s[0]) then [""] + rest else [[s[0]] + rest[0]] + rest[1..]
  }

  lemma {:induction false} SplitEachPrefix(p: string, t: string, isSep: char -> bool)
    requires NoneOf(p, isSep)
    ensures SplitEach(p + t, isSep) == [p + SplitEach(t, isSep)[0]] + SplitEach(t, isSep)[1..]
    decreases |p|
  {
    var x := SplitEach(t, isSep);
    if p == [] {
      assert p + t == t;
      assert p + x[0] == x[0];
      assert [x[0]] + x[1..] == x;
    } else {
      assert (p + t)[0] == p[0];
      assert (p + t)[1..] == p[1..] + t;
      SplitEachPrefix(p[1..], t, isSep);
      var rest := SplitEach(p[1..] + t, isSep);
      assert rest[0] == p[1..] + x[0];
      assert rest[1..] == x[1..];
      assert [p[0]] + (p[1..] + x[0]) == p + x[0];
    }
  }

  /** Splitting undoes joining with a separator, as long as no piece contains one. */
  lemma {:induction false} SplitEachJoin(pieces: seq<string>, sep: char, isSep: char -> bool)
    requires |pieces| >= 1 && AllNoneOf(pieces, isSep) && isSep(sep)
    ensures SplitEach(Join(pieces, sep), isSep) == pieces
    decreases |pieces|
  {
    if |pieces| == 1 {
      SplitEachPrefix(pieces[0], "", isSep);
      assert pieces[0] + "" == pieces[0];
      assert [pieces[0]] == pieces;
    } else {
      var tail := Join(pieces[1..], sep);
      SplitEachJoin(pieces[1..], sep, isSep);
      assert pieces[0] + [sep] + tail == pieces[0] + ([sep] + tail);
      SplitEachPrefix(pieces[0], [sep] + tail, isSep);
      assert ([sep] + tail)[0] == sep;
      assert ([sep] + tail)[1..] == tail;
      var y := SplitEach([sep] + tail, isSep);
      assert y == [""] + pieces[1..];
      assert pieces[0] + y[0] == pieces[0];
      assert [pieces[0]] + y[1..] == pieces;
    }
  }

  // ---------------------------------------------------------------------------
  // Decimal numerals
  // ---------------------------------------------------------------------------

  predicate AllDigits(s: string)
  {
    forall i :: 0 <= i < |s| ==> IsDigit(s[i])
  }

  function DigitChar(d: nat): (c: char)
    requires d < 10
    ensures IsDigit(c)
  {
    ('0' as int + d) as char
  }

  function DigitValue(c: char): (d: nat)
    requires IsDigit(c)
    ensures d < 10
  {
    c as int - '0' as int
  }

  /** `String(n)` for a non-negative integer: its shortest decimal numeral. */
  function NatToString(n: nat): (r: string)
    ensures |r| >= 1 && AllDigits(r)
    ensures |r| > 1 ==> r[0] != '0'
    decreases n
  {
    if n < 10 then [DigitChar(n)] else NatToString(n / 10) + [DigitChar(n % 10)]
  }

  /** `String(n)` for any integer. */
  function IntToString(n: int): string
  {
    if n < 0 then "-" + NatToString(-n) else NatToString(n)
  }

  /** The value of a decimal numeral. */
  function DigitsValue(s: string): nat
    requires AllDigits(s)
  {
    if s == [] then 0 else DigitsValue(s[..|s| - 1]) * 10 + DigitValue(s[|s| - 1])
  }

  /** Reading back a rendered numeral gives the number. */
  lemma {:induction false} DigitsRoundTrip(n: nat)
    ensures DigitsValue(NatToString(n)) == n
    decreases n
  {
    if n >= 10 {
      DigitsRoundTrip(n / 10);
      var s := NatToString(n);
      assert s[..|s| - 1] == NatToString(n / 10);
    }
  }

  /** Distinct numbers render as distinct numerals. */
  lemma NatToStringInjective(a: nat, b: nat)
    requires NatToString(a) == NatToString(b)
    ensures a == b
  {
    DigitsRoundTrip(a);
    DigitsRoundTrip(b);
  }

  /** Different numbers are written differently. */
  lemma NatToStringDistinct(a: nat, b: nat)
    requires a != b
    ensures NatToString(a) != NatToString(b)
  {
    if NatToString(a) == NatToString(b) {
      NatToStringInjective(a, b);
    }
  }
}

=== FILE: Wrappers.dfy ===
/** Failure-carrying values shared by every module of the model. */
module Wrappers {

  /** A value that may be absent: a missing query parameter, an unreadable directory, a non-array field. */
  datatype Option<+T> = None | Some(value: T)
  {
    /** The wrapped value, or `default` when there is none. */
    function GetOr(default: T): T
    {
      match this
      case Some(v) => v
      case None => default
    }
  }

  /** The outcome of a step that can throw: the value it produced, or the error it raised. */
  datatype Result<+T, +E> = Ok(value: T) | Err(error: E)
  {
    predicate IsFailure()
    {
      Err?
    }

    function PropagateFailure<U>(): Result<U, E>
      requires Err?
    {
      Err(error)
    }

    function Extract(): T
      requires Ok?
    {
      value
    }
  }

  /** `Promise.all` over settled outcomes: every value when all succeed, otherwise the first failure in order. */
  function All<T, E>(rs: seq<Result<T, E>>): (r: Result<seq<T>, E>)
    ensures r.Ok? <==> forall i :: 0 <= i < |rs| ==> rs[i].Ok?
    ensures r.Ok? ==> |r.value| == |rs| && forall i :: 0 <= i < |rs| ==> r.value[i] == rs[i].value
    ensures r.Err? ==> exists i :: 0 <= i < |rs| && rs[i] == Err(r.error) && forall j :: 0 <= j < i ==> rs[j].Ok?
  {
    if rs == [] then Ok([])
    else if rs[0].Err? then Err(rs[0].error)
    else
      var rest := All(rs[1..]);
      if rest.Err? then Err(rest.error) else Ok([rs[0].value] + rest.value)
  }
}
